=== FILE: README.md ===
# SOW Creator wizard — a Dafny model of its core rules

The SOW Creator is a Next.js application. A three-step wizard has the user:

1. pick a contract model (fixed price, time and materials, staff augmentation);
2. pick and upload proposal documents;
3. review a generated Statement of Work (SOW).

A set of API routes backs the wizard:

- uploading a presentation under a collision-free name;
- listing presentations;
- deleting a document;
- generating a SOW through an external service;
- converting a generated DOCX to PDF with LibreOffice;
- turning a DOCX into Markdown.

This project models the rules under that glue as pure Dafny functions, with one method where the source loops. The I/O is replaced as follows:

- the filesystem is the set of paths that exist;
- `exec`, `fetch`, `stat`, mammoth and the regex head of the HTML converter are oracle parameters;
- the clock is the text it would have produced.

Modules follow the source files:

| module | file | what it holds |
|---|---|---|
| `Common` | — | `Option`, the route reply `Response` (payload or status), JavaScript truthiness of an optional string |
| `Strings` | — | the JavaScript string operations the code uses (ASCII case mapping, ECMAScript `trim`, `split`, `join`, `lastIndexOf`, global `replace`, number printing) |
| `Paths` | — | `path.join` as `a + "/" + b`, and `path.normalize` as segment resolution for user-supplied segments |
| `Files` | `components/wizard.tsx` | the `FileData` record and the `N KB` size label |
| `DocumentPaths` | `lib/document-paths.ts` | the configurable directory layout and `ensureDocumentDirectories` |
| `Upload` | `app/api/upload/route.ts` | size and extension validation, `generateUniqueFilename`, `getFileType`, the returned record |
| `Wizard` | `components/wizard.tsx` | the shared wizard data and the bounded step counter |
| `ContractSelection` | `components/contract-selection-step.tsx` | the offered models, the change handler, the Next guard |
| `ProposalsSelection` | `components/proposals-selection-step.tsx` | selecting, uploading, refreshing, the generate guard and the progress counter |
| `SowReport`, `SowReportLabels` | `components/sow-report-step.tsx` | the title-cased model label, bullet lists, footer count |
| `SowTables` | `components/sow-report-step.tsx` | the description and pricing tables |
| `LibreOffice` | `lib/libreoffice-utils.ts` | first-match detection, the command line, the conversion arguments |
| `ConvertToPdf` | `app/api/convert-to-pdf/route.ts` | the request checks and the detection cache |
| `GenerateSow` | `app/api/generate-sow/route.ts` | validation, the upstream call, status pass-through, the stored name |
| `FilesRoute` | `app/api/files/route.ts` | the `.pptx` listing |
| `DeleteRoute` | `app/api/delete/route.ts` | check order and the containment test |
| `ProcessDocx` | `app/api/process-docx/route.ts` | the request checks and the tag-strip, entity-decode and whitespace tail of `htmlToMarkdown` |

## Model

| member | source | states |
|---|---|---|
| Files.KilobytesRounded | app/api/upload/route.ts:104 | `Math.round(bytes/1024)` is the unique kb with bytes within half a kilobyte of kb·1024 |
| Files.KilobytesRoundedUnique | app/api/upload/route.ts:104 | any kb within half a kilobyte of the byte count is the rounded value |
| Files.SizeLabelReadsBack | app/api/files/route.ts:28 | the number before " KB" in a size label parses back to the rounded kilobytes |
| DocumentPaths.ResolvePath | lib/document-paths.ts:25-38 | the result is absolute, and a "/"-prefixed path is returned unchanged |
| DocumentPaths.ResolvePathDotPrefix | lib/document-paths.ts:27-34 | the "./" branch and the bare relative branch give the same directory |
| DocumentPaths.ResolvePathPlain | lib/document-paths.ts:27-34 | a plain relative name resolves to the working directory joined with it |
| DocumentPaths.DocsDirPlain | app/api/delete/route.ts:16 | `path.join(cwd, "docs")` of a working directory of plain segments is that directory with one more segment, and below the root it is the plain join |
| DocumentPaths.DocsDirAtRoot | app/api/files/route.ts:8 | at the root the docs directory is "/docs" |
| DocumentPaths.SubdirectoryOfBase | lib/document-paths.ts:43-54 | each sub-directory is the base joined with its folder, so the base is a prefix of it |
| DocumentPaths.DefaultLayout | lib/document-paths.ts:6-11 | with nothing configured the layout is cwd/docs and its input, generated_sows, converted_to_pdf, converted_to_docx and temp sub-directories |
| DocumentPaths.WithDirectories | lib/document-paths.ts:59-77 | a path exists afterwards iff it existed or is one of the listed directories |
| DocumentPaths.EnsureDirectories | lib/document-paths.ts:59-77 | afterwards every listed directory exists; exactly the missing ones were created, each once |
| DocumentPaths.EnsureDocumentDirectories | lib/document-paths.ts:59-77 | all six layout directories exist afterwards, nothing present before is touched, only layout directories are added |
| Upload.LimitIsInclusive | app/api/upload/route.ts:26-38 | a file of exactly maxMB·1024·1024 bytes is accepted and one byte more is refused |
| Upload.DefaultConfig | app/api/upload/route.ts:23-38 | without configuration a file passes iff it is at most 50 MB and its extension is "pptx" |
| Upload.FileExtension | app/api/upload/route.ts:41 | the extension never contains a "." |
| Upload.FileExtensionIsAfterLastDot | app/api/upload/route.ts:41 | the extension is the lower-cased text after the last "." |
| Upload.FileExtensionIsLower | app/api/upload/route.ts:41 | the extension is already lower case, so the type tables compare it as is |
| Upload.FileExtensionOfDotless | app/api/upload/route.ts:41 | a name with no "." is its own extension, lower-cased |
| Upload.FileExtensionMatchesSplitName | app/api/upload/route.ts:41-59 | the validated extension is the one the unique name keeps, without its dot |
| Upload.Validate | app/api/upload/route.ts:30-51 | an oversized file gets the size message; otherwise a file passes iff its extension is non-empty and allowed |
| Upload.SizeCheckedFirst | app/api/upload/route.ts:30-51 | a file refused for both reasons is refused for its size |
| Upload.SplitName | app/api/upload/route.ts:58-59 | base and extension concatenate to the name; the extension starts at the last "."; with no "." the base is empty |
| Upload.ProbeInjective | app/api/upload/route.ts:61-69 | the original path and every `base_k.ext` path are pairwise distinct |
| Upload.ProbesInjective | app/api/upload/route.ts:61-69 | the probe sequence of one name in one directory never repeats a path |
| Upload.ProbedByContents | app/api/upload/route.ts:61-69 | for a probe sequence that never repeats, the first k probes are k distinct paths and no later probe is among them |
| Upload.FirstFree | app/api/upload/route.ts:65-69 | the loop stops at a free path, and every path probed before it was taken |
| Upload.SearchOutcome | app/api/upload/route.ts:61-71 | the name chosen after k collisions has a free path; with no collision it is the original; otherwise every earlier alternative collided |
| Upload.GenerateUniqueFilename | app/api/upload/route.ts:57-72 | the result is free; an untaken name is kept; otherwise it is `base_k.ext` for the smallest free k ≥ 1 |
| Upload.CandidateOfDottedName | app/api/upload/route.ts:58-67 | the counter goes before the last "." |
| Upload.SplitDottedName | app/api/upload/route.ts:58-59 | a name with a dot-free extension splits into the text before its last "." and the rest from that "." on |
| Upload.DotlessCandidate | app/api/upload/route.ts:58-67 | a name without "." gets "_1" in front of it |
| Upload.FileTypeClassification | app/api/upload/route.ts:83-99 | case-insensitive: pptx/ppt presentation, pdf pdf, docx/doc document, xlsx/xls spreadsheet, anything else file |
| Upload.Post | app/api/upload/route.ts:7-124 | an unreadable form is 500 and a missing file 400 with nothing changed; otherwise the directories are ensured, a refused file is 400, and an accepted one is stored at a path that was free, keeping its name when that was free |
| Wizard.HandleNext | components/wizard.tsx:41-45 | the step moves forward iff it is below 3, and stays in 1..3 |
| Wizard.HandleBack | components/wizard.tsx:47-51 | the step moves back iff it is above 1, and stays in 1..3 |
| Wizard.RunStaysValid | components/wizard.tsx:41-51 | under any sequence of Next and Back the step stays in 1..3 and a page is shown |
| Wizard.TitleAlwaysDefined | components/wizard.tsx:58 | from the initial step the title lookup `steps[currentStep - 1]` is always in bounds |
| Wizard.RunConcat | components/wizard.tsx:41-51 | pressing two sequences one after the other is pressing their concatenation |
| Wizard.NextThenBack | components/wizard.tsx:41-51 | Next then Back from a step below 3 returns to it |
| Wizard.BackThenNext | components/wizard.tsx:41-51 | Back then Next from a step above 1 returns to it |
| Wizard.EndsAreSticky | components/wizard.tsx:41-51 | Next on the last step and Back on the first do nothing |
| Wizard.NextReachesLast | components/wizard.tsx:41-45 | enough Next presses reach step 3 from anywhere |
| Wizard.StepTitle | components/wizard.tsx:26-58 | the title shown for a step is the table entry whose id is that step |
| Wizard.PageOf | components/wizard.tsx:68-79 | a page is shown exactly for steps 1..3 |
| Wizard.InitialState | components/wizard.tsx:33-39 | the wizard starts with no contract type, empty file lists and empty text, on the contract page |
| ContractSelection.ThreeDistinctIds | components/contract-selection-step.tsx:19-35 | exactly three distinct ids: fixed-price, time-and-materials, staff-augmentation |
| ContractSelection.SetContractType | components/contract-selection-step.tsx:37-42 | the change handler sets the contract type and leaves every other field unchanged |
| ContractSelection.LastChoiceWins | components/contract-selection-step.tsx:37-42 | two changes in a row keep only the last |
| ContractSelection.HandleNext | components/contract-selection-step.tsx:44-49 | the step grows by exactly one iff a non-empty contract type is selected and the step is below 3, and otherwise stays; a valid step stays valid |
| ContractSelection.NextFromFirstStep | components/contract-selection-step.tsx:44-49 | from step 1 the guard alone decides whether step 2 is reached |
| ContractSelection.ButtonMatchesGuard | components/contract-selection-step.tsx:44-92 | the Next button is disabled, and the warning shown, exactly when the guard blocks |
| ContractSelection.OfferedChoiceProceeds | components/contract-selection-step.tsx:19-49 | choosing any offered model unblocks Next |
| ContractSelection.InitialCannotProceed | components/contract-selection-step.tsx:44-49 | the initial data cannot proceed |
| ProposalsSelection.RemovePath | components/proposals-selection-step.tsx:48 | an entry survives the filter iff its path differs |
| ProposalsSelection.SelectFile | components/proposals-selection-step.tsx:38-52 | checking appends the file at the end without deduplication; unchecking drops every entry with its path; no other field changes |
| ProposalsSelection.RemovePathConcat | components/proposals-selection-step.tsx:45-49 | unchecking keeps the relative order of the remaining entries |
| ProposalsSelection.RemovePathIdempotent | components/proposals-selection-step.tsx:45-49 | unchecking twice is unchecking once |
| ProposalsSelection.RemovePathKeepsOthers | components/proposals-selection-step.tsx:45-49 | entries with other paths are kept in place |
| ProposalsSelection.SelectThenUnselect | components/proposals-selection-step.tsx:39-51 | checking then unchecking a file equals only unchecking it |
| ProposalsSelection.CheckKeepsOthers | components/proposals-selection-step.tsx:40-44 | checking a file leaves every other box as it was |
| ProposalsSelection.UncheckKeepsOthers | components/proposals-selection-step.tsx:45-49 | unchecking a file leaves every other box as it was |
| ProposalsSelection.SelectChecks | components/proposals-selection-step.tsx:39-51 | checking ticks the file's box, and neither branch changes any other box |
| ProposalsSelection.FileTypeOf | components/proposals-selection-step.tsx:82-99 | the client classification only yields document, spreadsheet, presentation or file |
| ProposalsSelection.ClientAndServerTypes | components/proposals-selection-step.tsx:82-99 | the client and upload-route classifications agree except on "pdf", which the client calls "document" and the route "pdf" |
| ProposalsSelection.UploadLocal | components/proposals-selection-step.tsx:54-80 | without a file nothing changes; otherwise the same record ends both the available list and `uploadedFiles`, nothing else changes |
| ProposalsSelection.Refresh | components/proposals-selection-step.tsx:101-104 | refreshing changes only the available list |
| ProposalsSelection.MountConsistency | components/proposals-selection-step.tsx:15-104 | a fresh mount lists the initial documents followed by the uploads iff nothing was uploaded; refresh restores that |
| ProposalsSelection.HandlersPreserveConsistency | components/proposals-selection-step.tsx:38-126 | refresh makes the list "initial documents then uploads" and is idempotent; upload, select and generate keep it |
| ProposalsSelection.InitialConsistent | components/proposals-selection-step.tsx:15-23 | the initial state is consistent |
| ProposalsSelection.HandleGenerate | components/proposals-selection-step.tsx:106-113 | with nothing selected nothing happens; otherwise generation starts at 0 |
| ProposalsSelection.GenerateGuard | components/proposals-selection-step.tsx:223 | the button is disabled whenever the guard would do nothing |
| ProposalsSelection.TicksFromEven | components/proposals-selection-step.tsx:116-124 | from an even start ≤ 100, n ticks give min(start + 2n, 100) |
| ProposalsSelection.ProgressLandsOnHundred | components/proposals-selection-step.tsx:116-124 | from 0 the progress climbs through even values to exactly 100, and only the 51st tick finishes |
| SowReport.ContractLabel | components/sow-report-step.tsx:14-19 | a missing or empty type gives "Not specified" |
| SowReport.TitleFrom | components/sow-report-step.tsx:14-19 | reference definition, character by character: "-" becomes a space and a word's first character is upper-cased |
| SowReport.WordsIsTitleFrom | components/sow-report-step.tsx:16-18 | the split-capitalize-join pipeline equals the character-wise definition |
| SowReport.ContractLabelByCharacter | components/sow-report-step.tsx:14-19 | the label has the id's length; "-" becomes a space; only word-initial characters change |
| SowReport.ContractLabelWords | components/sow-report-step.tsx:16-18 | for an id without spaces the label has one capitalized word per "-"-separated piece |
| SowReport.BulletsAreLines | components/sow-report-step.tsx:21 | splitting the bullet list on "\n" gives back the per-file lines |
| SowReport.BulletNames | components/sow-report-step.tsx:21 | each line is "- " followed by the file's name |
| SowReport.UploadedSection | components/sow-report-step.tsx:22-25 | the uploads section is empty iff there are no uploads; otherwise it opens with the fixed header |
| SowReport.UploadedSectionContents | components/sow-report-step.tsx:22-25 | after the header come exactly the uploads' bullet lines |
| SowReport.ReferenceWithoutUploads | components/sow-report-step.tsx:47 | with no uploads the reference documents are the selected files' bullets |
| SowReport.FooterCount | components/sow-report-step.tsx:104 | the footer's number parses back to the count of selected files |
| SowReportLabels.OfferedLabels | components/sow-report-step.tsx:14-19 | the offered ids read "Fixed Price", "Time And Materials", "Staff Augmentation" |
| SowTables.ContractDescription | components/sow-report-step.tsx:108-143 | each offered id gets a text opening with the description lead; any other value, including none, gets the default sentence |
| SowTables.PricingStructure | components/sow-report-step.tsx:145-178 | each offered id gets a text opening with its model's header; any other value gets the default sentence |
| SowTables.OfferedIds | components/sow-report-step.tsx:108-178 | the table keys are exactly the three offered ids |
| SowTables.DefaultsAreDistinct | components/sow-report-step.tsx:108-178 | the default texts appear iff the value is not an offered id |
| SowTables.PricingDistinguishesIds | components/sow-report-step.tsx:145-178 | different offered ids get different pricing texts |
| SowTables.DescriptionsDistinguishIds | components/sow-report-step.tsx:108-143 | different offered ids get different descriptions |
| LibreOffice.Candidates | lib/libreoffice-utils.ts:23-52 | the candidate list is empty iff the platform is unsupported, and never holds an empty path |
| LibreOffice.Search | lib/libreoffice-utils.ts:69-95 | a successful search names a listed candidate that exists and reports LibreOffice; a failed one is `{path:"", available:false}` |
| LibreOffice.SearchFirstMatch | lib/libreoffice-utils.ts:69-89 | the search returns the first usable candidate in list order, and fails only when none is usable |
| LibreOffice.SearchIgnoresMissing | lib/libreoffice-utils.ts:69-89 | candidates that do not exist are never run |
| LibreOffice.SearchConcat | lib/libreoffice-utils.ts:69-89 | a usable candidate earlier in the list shadows every later one |
| LibreOffice.Detect | lib/libreoffice-utils.ts:18-96 | the PATH probe wins when its output mentions LibreOffice; otherwise the candidate search decides; success always names a path |
| LibreOffice.DetectResultShape | lib/libreoffice-utils.ts:58-95 | every available result has a non-empty path; every other result is the not-found record |
| LibreOffice.DetectAvailableIff | lib/libreoffice-utils.ts:18-96 | detection succeeds iff the PATH probe or some existing candidate reports LibreOffice |
| LibreOffice.UnsupportedOnlyTriesPath | lib/libreoffice-utils.ts:50-63 | on an unsupported platform only the PATH probe counts |
| LibreOffice.Timeout | lib/libreoffice-utils.ts:107 | an absent or zero timeout becomes 30000 |
| LibreOffice.CommandLayout | lib/libreoffice-utils.ts:110-117 | the command is the same on every platform and reads back as quoted path then space |
| ConvertToPdf.PdfName | app/api/convert-to-pdf/route.ts:21 | one trailing ".docx", in any case, becomes ".pdf"; any other name is unchanged |
| ConvertToPdf.PdfNameIdempotent | app/api/convert-to-pdf/route.ts:21 | renaming a renamed name changes nothing |
| ConvertToPdf.PdfNameLowerDocx | app/api/convert-to-pdf/route.ts:21 | "sow.docx" becomes "sow.pdf" |
| ConvertToPdf.PdfNameUpperDocx | app/api/convert-to-pdf/route.ts:21 | "SOW.DOCX" becomes "SOW.pdf": the suffix test ignores case |
| ConvertToPdf.PdfNameOtherKept | app/api/convert-to-pdf/route.ts:21 | "notes.txt" is kept unchanged |
| ConvertToPdf.Handle | app/api/convert-to-pdf/route.ts:8-156 | 400 iff the path is missing; 404 iff the DOCX is missing; success names the PDF and leaves it on disk; detection only with an empty cache; at most one conversion |
| ConvertToPdf.MissingPathFirst | app/api/convert-to-pdf/route.ts:12-16 | a missing path is 400 with cache and filesystem untouched |
| ConvertToPdf.MissingDocx | app/api/convert-to-pdf/route.ts:27-36 | a missing DOCX is 404 with nothing changed and no detection |
| ConvertToPdf.ExistingPdfNoWork | app/api/convert-to-pdf/route.ts:45-52 | an existing PDF succeeds without detection or conversion |
| ConvertToPdf.RepeatAfterSuccess | app/api/convert-to-pdf/route.ts:45-52 | repeating a successful request succeeds again with no work and no change |
| ConvertToPdf.SucceededRequest | app/api/convert-to-pdf/route.ts:14-140 | a request that succeeded named a non-empty path, and both its DOCX and its PDF exist afterwards |
| ConvertToPdf.CacheReused | app/api/convert-to-pdf/route.ts:55-58 | with a cached record detection never runs |
| ConvertToPdf.UnavailableIsCached | app/api/convert-to-pdf/route.ts:55-75 | with an empty cache and no installation the reply is 500, detection ran, and the not-found record is cached |
| ConvertToPdf.CachedUnavailable | app/api/convert-to-pdf/route.ts:55-75 | a cached unavailable record answers 500 without detecting, and stays cached |
| ConvertToPdf.UnavailableStaysCached | app/api/convert-to-pdf/route.ts:60-75 | an unavailable detection is 500 and stays cached, so the next request fails without detecting |
| ConvertToPdf.MalformedClearsCache | app/api/convert-to-pdf/route.ts:141-156 | a body that does not parse is 500 and clears the cache |
| ConvertToPdf.ThrowClearsCache | app/api/convert-to-pdf/route.ts:83-104 | a conversion that throws is 500 and clears the cache |
| ConvertToPdf.SuccessIffPdfCreated | app/api/convert-to-pdf/route.ts:107-140 | after conversion, success iff the PDF now exists; the record stays cached |
| GenerateSow.AuthorizationIffKey | app/api/generate-sow/route.ts:42-46 | an Authorization header is present iff a key is set |
| GenerateSow.TimestampSuffix | app/api/generate-sow/route.ts:77-78 | each ":" and "." becomes "-", every other character is kept in place, so none of them is left |
| GenerateSow.TimestampSuffixIdempotent | app/api/generate-sow/route.ts:78 | replacing the separators again changes nothing |
| GenerateSow.UniqueFilename | app/api/generate-sow/route.ts:77-79 | the name is the stripped upstream name, "_", the timestamp, and ".docx" |
| GenerateSow.UniqueFilenameParts | app/api/generate-sow/route.ts:77-79 | stripping ".docx" from the stored name gives back the stripped upstream name, "_" and the cleaned timestamp |
| GenerateSow.UpperCaseDocxStripped | app/api/generate-sow/route.ts:77-79 | "SOW.DOCX" at "T1:2.3" is stored as "SOW_T1-2-3.docx" |
| GenerateSow.OtherNameKept | app/api/generate-sow/route.ts:77-79 | a name without ".docx" is kept whole before the suffix |
| GenerateSow.Handle | app/api/generate-sow/route.ts:7-131 | 400 without a call iff validation fails; at most one call, to the endpoint, with the mapped body; success ends in ".docx" and is stored; nothing is removed; every failure status is one a reply can carry (200..599, not 2xx, not 304) |
| GenerateSow.ValidationFirst | app/api/generate-sow/route.ts:12-17 | a falsy contract type or missing or empty document list is 400 with nothing changed and no call |
| GenerateSow.MissingEndpointNoCall | app/api/generate-sow/route.ts:20-29 | a missing endpoint is 500 with no call, after the directories are ensured |
| GenerateSow.StatusPassesThrough | app/api/generate-sow/route.ts:50-61 | a non-2xx upstream status in 200..599 other than 304 is the reply's status |
| GenerateSow.UnrelayableStatusFails | app/api/generate-sow/route.ts:50-129 | a 304 or an upstream status outside 200..599 makes building the relayed reply throw, and the catch answers 500 "Error generating SOW" |
| GenerateSow.ReplyDecides | app/api/generate-sow/route.ts:63-79 | a 2xx reply succeeds iff it has both content and a name, then under the unique name; otherwise 500 |
| FilesRoute.Presentations | app/api/files/route.ts:18-20 | a name is kept iff it is listed and ends in ".pptx", ignoring case |
| FilesRoute.PresentationsConcat | app/api/files/route.ts:18-20 | the filter keeps directory order |
| FilesRoute.PresentationsOfPresentations | app/api/files/route.ts:18-20 | a list of presentations is kept whole |
| FilesRoute.PresentationsIdempotent | app/api/files/route.ts:18-20 | filtering twice is filtering once |
| FilesRoute.PresentationExamples | app/api/files/route.ts:20 | "Deck.PPTX" is kept, "a.pptx.bak" is not |
| FilesRoute.StatAll | app/api/files/route.ts:18-33 | the listing exists iff every stat succeeds, one record per name in order |
| FilesRoute.Get | app/api/files/route.ts:6-46 | a missing docs directory gives an empty list; a failure is 500; otherwise one record per presentation with path "/docs/" + name, type presentation and the kilobyte label |
| FilesRoute.MissingDirectoryIsEmpty | app/api/files/route.ts:11-13 | no docs directory, empty list |
| FilesRoute.ListingSucceeds | app/api/files/route.ts:18-33 | when every stat succeeds the listing succeeds and holds only presentations under "/docs/" |
| DeleteRoute.DeleteWith | app/api/delete/route.ts:9-35 | success iff a filename is given, the path exists, passes the containment test and unlinks; only then is it removed; 404 iff it does not exist |
| DeleteRoute.Target | app/api/delete/route.ts:16-17 | the path the route acts on: the docs path joined with the filename and normalized as `path.join` does (properties in PlainNameTarget and SiblingTarget) |
| DeleteRoute.PrefixContained | app/api/delete/route.ts:25 | the containment test as written, a raw string-prefix test against the docs path |
| DeleteRoute.PlainNameTarget | app/api/delete/route.ts:16-25 | for a working directory of plain segments, the root included, and a plain filename, the target is "docs/filename" unchanged by normalizing and passes both containment tests |
| DeleteRoute.RootWorkingDirectory | app/api/delete/route.ts:16-35 | with the root as working directory, an existing "/docs/name" that unlinks is deleted with success |
| DeleteRoute.Delete | app/api/delete/route.ts:16-30 | a file is removed only when its normalized path has the docs path as a string prefix |
| DeleteRoute.MissingFilenameFirst | app/api/delete/route.ts:9-13 | a missing filename is 400 before anything else |
| DeleteRoute.ExistenceBeforeContainment | app/api/delete/route.ts:20-27 | a missing path outside docs is 404, not 400 |
| DeleteRoute.OutsideRefused | app/api/delete/route.ts:25-27 | an existing path failing the prefix test is 400 and nothing is removed |
| DeleteRoute.UnlinkFailureIs500 | app/api/delete/route.ts:30-45 | success is reported only after the unlink; a failing unlink is 500 and removes nothing |
| DeleteRoute.SiblingDeleted | app/api/delete/route.ts:25 | "../docs-x/name" deletes a file in the sibling directory docs-x |
| DeleteRoute.DeleteInsideDocs | app/api/delete/route.ts:25 | corrected: a file is removed only when it lies strictly inside the docs directory |
| DeleteRoute.SiblingRefusedInsideDocs | app/api/delete/route.ts:25 | corrected: the sibling request is refused with 400 |
| DeleteRoute.InsideImpliesPrefix | app/api/delete/route.ts:25 | strictly inside docs implies passing the prefix test |
| DeleteRoute.CorrectedAgreesWhenInside | app/api/delete/route.ts:25-35 | where the corrected handler deletes, the written one deletes the same file |
| ProcessDocx.StripTags | app/api/process-docx/route.ts:102 | no `<…>` span is left, and only characters of the input remain |
| ProcessDocx.StripTagsOfTagless | app/api/process-docx/route.ts:102 | text without a tag is unchanged |
| ProcessDocx.StripTagsIdempotent | app/api/process-docx/route.ts:102 | stripping twice is stripping once |
| ProcessDocx.DecodeEntities | app/api/process-docx/route.ts:105-110 | the six entity replacements in the source's order; the text never grows (each entity is longer than its character) |
| ProcessDocx.DecodeWithoutAmpersand | app/api/process-docx/route.ts:105-110 | text without "&" is not changed by decoding |
| ProcessDocx.EscapedTagKept | app/api/process-docx/route.ts:102 | "&lt;b&gt;" survives tag stripping |
| ProcessDocx.EscapedTagNoNbspAmp | app/api/process-docx/route.ts:105-106 | the "&nbsp;" and "&amp;" steps leave "&lt;b&gt;" alone |
| ProcessDocx.EscapedTagLtGt | app/api/process-docx/route.ts:107-108 | the "&lt;" and "&gt;" steps turn "&lt;b&gt;" into "<b>" |
| ProcessDocx.TagTextNoQuotApos | app/api/process-docx/route.ts:109-110 | the "&quot;" and "&#39;" steps leave "<b>" alone |
| ProcessDocx.EscapedTagDecoded | app/api/process-docx/route.ts:107-108 | and is then decoded to the literal "<b>" |
| ProcessDocx.DoubleDecoding | app/api/process-docx/route.ts:105-110 | "&amp;lt;" decodes to "<" because "&amp;" is decoded first |
| ProcessDocx.ThroughLastNewline | app/api/process-docx/route.ts:113 | where a match at a line feed ends: only white space up to it, it ends on a line feed, every line feed of the run lies before it and none after |
| ProcessDocx.Collapse | app/api/process-docx/route.ts:113 | each match becomes "\n\n", white space after the run's last line feed is kept; the text never grows |
| ProcessDocx.CollapseKeepsTrailingSpace | app/api/process-docx/route.ts:113 | "a\n\n\n b" collapses to "a\n\n b": the space after the last line feed stays |
| ProcessDocx.CollapseIsClean | app/api/process-docx/route.ts:113 | after collapsing, no position starts three newlines separated only by whitespace |
| ProcessDocx.CollapseLead | app/api/process-docx/route.ts:113 | collapsing never adds leading newlines and leaves at most two |
| ProcessDocx.CollapseOfClean | app/api/process-docx/route.ts:113 | text without a blank-line run is unchanged |
| ProcessDocx.CollapseIdempotent | app/api/process-docx/route.ts:113 | collapsing twice is collapsing once |
| ProcessDocx.CleanSlice | app/api/process-docx/route.ts:113-115 | any slice of a text with no blank-line run has none either, so trimming keeps a collapsed text clean |
| ProcessDocx.Tail | app/api/process-docx/route.ts:102-115 | the result has no leading or trailing whitespace and no blank-line run |
| ProcessDocx.TrimKeepsClean | app/api/process-docx/route.ts:114-115 | trimming text with no blank-line run leaves none and leaves no whitespace at either end |
| ProcessDocx.TailIsTrimmed | app/api/process-docx/route.ts:114-115 | trimming the result changes nothing |
| ProcessDocx.TailOfPlainText | app/api/process-docx/route.ts:102-115 | text without tags or "&", with no blank-line run and no white space at either end, comes out unchanged |
| ProcessDocx.HtmlToMarkdown | app/api/process-docx/route.ts:52-117 | the Markdown has no blank-line run and no white space at either end |
| ProcessDocx.Handle | app/api/process-docx/route.ts:7-49 | 400 iff the path is missing; 404 iff the file is missing; 500 iff the body is unreadable or mammoth throws; success iff mammoth gives HTML, carrying that HTML's Markdown and mammoth's messages |
| ProcessDocx.ChecksInOrder | app/api/process-docx/route.ts:11-21 | the path check comes before the existence check |

## Left out

- Filesystem reads and writes, `stat`, `mkdir`, `unlink`, `child_process.exec`, `fetch` and mammoth are foreign code. They are oracle parameters (`run`, `convert`, `fetch`, `stat`, `unlinks`, `mammoth`) over a set of existing paths. A failed `readFile` or `writeFile` is not modelled, and neither is base64 decoding of the upstream content.
- Recursive `mkdir` creates only the listed directory in the model, not its missing ancestors.
- A failing `mkdir` is not modelled: directory creation always succeeds (lib/document-paths.ts:72, app/api/convert-to-pdf/route.ts:40). The 500 that a rejected `mkdir` would cause in the upload, generate-sow and convert-to-pdf routes is therefore never produced by the model.
- `path.join` is `a + "/" + b` followed by normalization. Normalization is modelled where the source joins onto the working directory (the docs directory and the convert-to-pdf directories) and where a user-supplied segment is joined (delete, convert-to-pdf, process-docx). The upload and generate-sow names are joined plainly onto the resolved layout: a name holding "/" or ".." is not resolved there. Windows separators are not modelled.
- Case mapping is ASCII only. `toLowerCase` and `toUpperCase` of other characters are the identity.
- Dates and timestamps (`toISOString`, `toLocaleDateString`) are opaque strings given as parameters. The float progress percentage of the wizard header is left out.
- Upload.StoredFile: the size is the uploaded file's size. It stands for the `stat` of the written file, which holds the same bytes when no other request writes that path in between (see the next line).
- Requests are modelled one at a time, each as one atomic step. The interleaving that Node allows at every `await` is not modelled, so the races below fall outside the model.
- ConvertToPdf.SuccessIffPdfCreated: holds only for requests that do not overlap. The module-level `libreOfficeCache` (app/api/convert-to-pdf/route.ts:8) is shared and unlocked. While one request waits in `convertDocxToPdf` (line 84), another request's failed conversion can reset the cache to null (line 90). The first request then reads `libreOfficeCache.path` (line 117 or 137) and throws. The catch answers 500 and clears the cache (line 145), even though that request's PDF was created.
- ConvertToPdf.Handle: detection runs at most once per request with an empty cache. Two overlapping requests that both find the cache empty both run detection (lines 55-57).
- Upload.Post: the promise that the file is stored at a path that was free holds only for requests that do not overlap. The free-name search (app/api/upload/route.ts:65) and the `writeFile` (line 77) are not atomic, so two uploads with the same name can pick the same path, and the later write replaces the earlier file.
- ProcessDocx.HtmlToMarkdown: the heading, emphasis, list, link and table regexes are one oracle (`heads`), since their lazy, global regex semantics would need a JavaScript regex engine. For the same reason the property that the `<li>` regex at lines 78 and 83 leaves the numbering callback unused is not stated. The model starts at the tag-stripping step at line 102.
- ProcessDocx.Handle: mammoth's messages are passed through unexamined.
- GenerateSow.Handle: the body is the structured `ApiRequest`, not its JSON text. The upstream JSON is given already parsed (`json: Option<ApiReply>`). The debug fields of error replies are dropped.
- A `filePath` that is not a string would throw in the source at `.replace` or `path.join`. The model's bodies only hold strings.
- Console logging, response headers and the error text fields of 500 replies are left out.
- `markdownToHtml`, `MarkdownRenderer`, the PDF viewer, the React rendering, and the full `generateSowMarkdown` boilerplate are left out. The report's pieces that carry data are modelled: label, bullets, uploads section, footer count and tables.
- The `pdf`, `download-docx` and `libreoffice-status` routes are thin file-serving wrappers and are not part of this model.
- Timers (`setTimeout`, `setInterval`) are replaced by explicit ticks; the 1.5 s upload delay is not modelled.

## Findings

| source | as written | input that shows it | evidently intended | confidence | as-written member | corrected member |
|---|---|---|---|---|---|---|
| app/api/delete/route.ts:25 | containment is `filePath.startsWith(docsPath)`, a raw string-prefix test | working directory "/app" (any plain segments), filename "../docs-x/name" with "/app/docs-x/name" present: the joined path "/app/docs-x/name" starts with "/app/docs", so the file outside docs is deleted | a file is deleted only when it lies inside the docs directory, segment-wise (`startsWith(docsPath + "/")`) | not executed | DeleteRoute.SiblingDeleted | DeleteRoute.SiblingRefusedInsideDocs |

The selection step names the second model "Time and Materials", while the report's title-casing shows "Time And Materials" (`SowReportLabels.OfferedLabels`). This is recorded as behaviour, not as a defect.

=== FILE: common.dfy ===
/**
  Values shared by the route handlers and the wizard: optional values and
  the JSON replies the handlers send.
 */
module Common {

  datatype Option<+T> = None | Some(value: T)

  /** JavaScript truthiness of an optional string: `null`, `undefined` and
      the empty string are falsy. */
  predicate Truthy(s: Option<string>)
  {
    s.Some? && s.value != ""
  }

  /** A route handler's reply. Every successful reply carries status 200 and
      a payload; every failure carries its status and a message. */
  datatype Response<+T> =
    | Ok(payload: T, message: string)
    | Fail(status: int, message: string)
  {
    function Status(): int
    {
      if Ok? then 200 else status
    }
  }
}

=== FILE: contract_selection.dfy ===
/**
  The first wizard step (`components/contract-selection-step.tsx`): the
  offered contract models, the change handler, and the Next guard.
 */
module ContractSelection {
  import opened Common
  import opened Wizard

  /** One offered contract model. `name` is the source's `label`. */
  datatype ContractType = ContractType(id: string, name: string, description: string)

  const FixedPrice := "fixed-price"
  const TimeAndMaterials := "time-and-materials"
  const StaffAugmentation := "staff-augmentation"

  /** The offered models, in the order they are listed. */
  const ContractTypes: seq<ContractType> := [
    ContractType(FixedPrice, "Fixed Price",
      "Total project cost determined upfront with no changes regardless of resources used"),
    ContractType(TimeAndMaterials, "Time and Materials",
      "Billing based on actual time spent and materials used during the project"),
    ContractType(StaffAugmentation, "Staff Augmentation",
      "Resources provided at an agreed hourly/daily/monthly rate")
  ]

  /** The ids a radio button can produce. */
  function ContractIds(): (r: seq<string>)
    ensures |r| == |ContractTypes|
    ensures forall k :: 0 <= k < |r| ==> r[k] == ContractTypes[k].id
  {
    seq(|ContractTypes|, k requires 0 <= k < |ContractTypes| => ContractTypes[k].id)
  }

  /** `handleContractTypeChange`: record the chosen id. */
  function SetContractType(data: WizardData, value: string): (r: WizardData)
    ensures r.selectedContractType == Some(value)
    ensures r.(selectedContractType := data.selectedContractType) == data
  {
    data.(selectedContractType := Some(value))
  }

  /** Whether `handleNext` passes control on: a type must be selected, and
      an empty string counts as none. */
  predicate MayProceed(data: WizardData)
  {
    Truthy(data.selectedContractType)
  }

  /** `handleNext`: the step the wizard shows afterwards. */
  function HandleNext(data: WizardData, step: int): (r: int)
    ensures r == step || r == step + 1
    ensures r == step + 1 <==> MayProceed(data) && step < |Steps|
    ensures ValidStep(step) ==> ValidStep(r)
  {
    if !MayProceed(data) then step else Wizard.HandleNext(step)
  }

  /** `disabled={!wizardData.selectedContractType}`. */
  predicate ButtonDisabled(data: WizardData)
  {
    data.selectedContractType.None? || data.selectedContractType.value == ""
  }

  /** The warning is shown under the same condition. */
  predicate ShowsWarning(data: WizardData)
  {
    !Truthy(data.selectedContractType)
  }

  /* ---------------------------------------------------------------------
     Lemmas
     --------------------------------------------------------------------- */

  /** The button is disabled exactly when the guard would block, and the
      warning is shown exactly then. */
  lemma ButtonMatchesGuard(data: WizardData)
    ensures ButtonDisabled(data) <==> !MayProceed(data)
    ensures ShowsWarning(data) <==> ButtonDisabled(data)
  {
  }

  /** From the first step the guard decides whether the wizard reaches the
      proposals step. */
  lemma NextFromFirstStep(data: WizardData)
    ensures HandleNext(data, FirstStep) == 2 <==> MayProceed(data)
    ensures HandleNext(data, FirstStep) == FirstStep <==> !MayProceed(data)
  {
  }

  /** Choosing any offered model lets the wizard proceed. */
  lemma OfferedChoiceProceeds(data: WizardData, k: nat)
    requires k < |ContractTypes|
    ensures MayProceed(SetContractType(data, ContractIds()[k]))
  {
  }

  /** The initial state cannot proceed until a model is chosen. */
  lemma InitialCannotProceed()
    ensures !MayProceed(InitialData)
  {
  }

  /** Exactly three distinct ids are offered. */
  lemma ThreeDistinctIds()
    ensures ContractIds() == [FixedPrice, TimeAndMaterials, StaffAugmentation]
    ensures forall a, b :: 0 <= a < b < |ContractIds()| ==> ContractIds()[a] != ContractIds()[b]
  {
  }

  /** Choosing twice keeps only the last choice. */
  lemma LastChoiceWins(data: WizardData, a: string, b: string)
    ensures SetContractType(SetContractType(data, a), b) == SetContractType(data, b)
  {
  }
}

=== FILE: convert_to_pdf.dfy ===
/**
  The DOCX to PDF route (`app/api/convert-to-pdf/route.ts`): its checks in
  order, the module-level detection cache, and the conversion. The
  filesystem is the set of existing paths; running LibreOffice is an
  oracle from the command line to what the conversion did.
 */
module ConvertToPdf {
  import opened Common
  import opened Strings
  import opened Paths
  import opened LibreOffice

  /** The body: not JSON, or an object with or without `filePath`. */
  datatype ConvertRequest = Malformed | Body(filePath: Option<string>)

  /** What running the conversion command did: it threw, or it finished
      and did or did not leave the PDF behind. */
  datatype ConversionResult = ConversionThrew | ConversionRan(pdfCreated: bool)

  /** Everything the handler consults besides the request and the cache. */
  datatype ConvertEnv = ConvertEnv(
    cwd: string,
    platform: Platform,
    home: string,
    run: string -> ExecResult,
    convert: string -> ConversionResult
  )

  /** One request's reply, with the cache and filesystem it leaves, whether
      it ran detection, and the conversion commands it ran. */
  datatype Outcome = Outcome(
    reply: Response<string>,
    cache: Option<Info>,
    existing: set<string>,
    detected: bool,
    conversions: seq<string>
  )

  const PathRequired := "File path is required"
  const AlreadyExists := "PDF already exists"
  const NotInstalled := "LibreOffice is not installed or not found"
  const ExecutionFailed := "Error executing LibreOffice conversion"
  const NotCreated := "PDF conversion failed - file was not created"
  const Converted := "PDF converted successfully with LibreOffice"
  const ConvertFailed := "Error converting DOCX to PDF"

  /** `path.join(process.cwd(), "docs", "generated_sows")`, normalized. */
  function GeneratedSowsDir(cwd: string): string
  {
    Normalize(Join(Join(cwd, "docs"), "generated_sows"))
  }

  /** `path.join(process.cwd(), "docs", "converted_to_pdf")`, normalized. */
  function ConvertedDir(cwd: string): string
  {
    Normalize(Join(Join(cwd, "docs"), "converted_to_pdf"))
  }

  /** `filePath.replace(/\.docx$/i, ".pdf")`: one trailing ".docx", in any
      case, becomes ".pdf"; any other name is kept. */
  function PdfName(filePath: string): (r: string)
    ensures EndsWithIgnoreCase(filePath, ".docx") ==>
              |r| == |filePath| - 1 && EndsWith(r, ".pdf") && r[..|r| - 4] == filePath[..|filePath| - 5]
    ensures !EndsWithIgnoreCase(filePath, ".docx") ==> r == filePath
  {
    if EndsWithIgnoreCase(filePath, ".docx") then StripSuffixIgnoreCase(filePath, ".docx") + ".pdf"
    else filePath
  }

  function DocxPath(cwd: string, filePath: string): string
  {
    JoinNormalized(GeneratedSowsDir(cwd), filePath)
  }

  function PdfPath(cwd: string, filePath: string): string
  {
    JoinNormalized(ConvertedDir(cwd), PdfName(filePath))
  }

  /** `POST`, from the parsed body to the reply. The converted directory is
      created when missing before the PDF is looked for; detection runs
      only when nothing is cached; an unavailable result stays cached; a
      failed conversion or a body that does not parse clears the cache. */
  function Handle(request: ConvertRequest, cache: Option<Info>, existing: set<string>,
                  env: ConvertEnv): (r: Outcome)
    ensures r.reply.Status() == 400 <==> request.Body? && !Truthy(request.filePath)
    ensures r.reply.Status() == 404 <==>
              request.Body? && Truthy(request.filePath)
              && DocxPath(env.cwd, request.filePath.value) !in existing
    ensures r.reply.Ok? ==>
              request.Body? && Truthy(request.filePath)
              && r.reply.payload == PdfName(request.filePath.value)
              && PdfPath(env.cwd, request.filePath.value) in r.existing
    ensures r.detected ==> cache.None?
    ensures existing <= r.existing
    ensures request.Body? && Truthy(request.filePath)
            && DocxPath(env.cwd, request.filePath.value) in existing ==>
              ConvertedDir(env.cwd) in r.existing
    ensures |r.conversions| <= 1
    ensures r.reply.Status() in {200, 400, 404, 500}
  {
    match request
    case Malformed => Outcome(Fail(500, ConvertFailed), None, existing, false, [])
    case Body(filePath) =>
      if !Truthy(filePath) then Outcome(Fail(400, PathRequired), cache, existing, false, [])
      else
        var f := filePath.value;
        var docx := DocxPath(env.cwd, f);
        if docx !in existing then
          Outcome(Fail(404, "DOCX file not found at path: " + docx), cache, existing, false, [])
        else
          var dirs := existing + {ConvertedDir(env.cwd)};
          var pdf := PdfPath(env.cwd, f);
          if pdf in dirs then Outcome(Ok(PdfName(f), AlreadyExists), cache, dirs, false, [])
          else
            var info := if cache.None? then Detect(env.platform, env.home, dirs, env.run) else cache.value;
            if !info.available then Outcome(Fail(500, NotInstalled), Some(info), dirs, cache.None?, [])
            else
              var command := ConvertCommand(env.platform, info.path, docx, ConvertedDir(env.cwd)).0;
              match env.convert(command)
              case ConversionThrew =>
                Outcome(Fail(500, ExecutionFailed), None, dirs, cache.None?, [command])
              case ConversionRan(created) =>
                var after := if created then dirs + {pdf} else dirs;
                if pdf !in after then
                  Outcome(Fail(500, NotCreated), Some(info), after, cache.None?, [command])
                else
                  Outcome(Ok(PdfName(f), Converted), Some(info), after, cache.None?, [command])
  }

  /* ---------------------------------------------------------------------
     Lemmas
     --------------------------------------------------------------------- */

  /** Renaming is idempotent: a name that was renamed ends in ".pdf", not
      in ".docx". */
  lemma PdfNameIdempotent(filePath: string)
    ensures PdfName(PdfName(filePath)) == PdfName(filePath)
  {
    var r := PdfName(filePath);
    if EndsWithIgnoreCase(filePath, ".docx") {
      assert r[|r| - 1] == 'f';
      assert ToLower(r)[|r| - 1] == 'f';
      assert ToLower(".docx")[4] == 'x';
    }
  }

  // The examples below take their literal text as a parameter fixed by a
  // `requires`: Dafny unfolds functions applied to literal strings without
  // bound, and the parameter keeps each proof to the steps it names.
  /** A lower-case ".docx" becomes ".pdf". */
  lemma PdfNameLowerDocx(f: string)
    requires f == "sow.docx"
    ensures PdfName(f) == "sow.pdf"
  {
    assert ToLower(".docx") == ".docx";
    assert ToLower(f)[3..] == ".docx";
    assert f[..3] == "sow";
  }

  /** So does an upper-case ".DOCX": the test ignores case. */
  lemma PdfNameUpperDocx(f: string)
    requires f == "SOW.DOCX"
    ensures PdfName(f) == "SOW.pdf"
  {
    assert ToLower(".docx") == ".docx";
    assert ToLower(f)[3..] == ".docx";
    assert f[..3] == "SOW";
  }

  /** Any other name is kept. */
  lemma PdfNameOtherKept(f: string)
    requires f == "notes.txt"
    ensures PdfName(f) == f
  {
    assert ToLower(f)[8] == 't' && ToLower(".docx")[4] == 'x';
  }

  /** A missing path is refused before the filesystem, the cache or
      LibreOffice is looked at. */
  lemma MissingPathFirst(filePath: Option<string>, cache: Option<Info>, existing: set<string>,
                         env: ConvertEnv)
    requires !Truthy(filePath)
    ensures Handle(Body(filePath), cache, existing, env)
            == Outcome(Fail(400, PathRequired), cache, existing, false, [])
  {
  }

  /** A missing DOCX is refused with nothing changed. */
  lemma MissingDocx(f: string, cache: Option<Info>, existing: set<string>, env: ConvertEnv)
    requires f != "" && DocxPath(env.cwd, f) !in existing
    ensures var r := Handle(Body(Some(f)), cache, existing, env);
            r.reply.Status() == 404 && r.cache == cache && r.existing == existing
            && !r.detected && r.conversions == []
  {
  }

  /** An existing PDF is returned without detection or conversion. */
  lemma ExistingPdfNoWork(f: string, cache: Option<Info>, existing: set<string>, env: ConvertEnv)
    requires f != "" && DocxPath(env.cwd, f) in existing && PdfPath(env.cwd, f) in existing
    ensures var r := Handle(Body(Some(f)), cache, existing, env);
            r.reply == Ok(PdfName(f), AlreadyExists) && r.cache == cache
            && !r.detected && r.conversions == []
  {
  }

  /** Repeating a request that succeeded succeeds again with no work. */
  lemma RepeatAfterSuccess(request: ConvertRequest, cache: Option<Info>, existing: set<string>,
                           env: ConvertEnv)
    requires Handle(request, cache, existing, env).reply.Ok?
    ensures var r := Handle(request, cache, existing, env);
            var again := Handle(request, r.cache, r.existing, env);
            again.reply == Ok(r.reply.payload, AlreadyExists)
            && again.cache == r.cache && again.existing == r.existing
            && !again.detected && again.conversions == []
  {
    var r := Handle(request, cache, existing, env);
    SucceededRequest(request, cache, existing, env);
    ExistingPdfNoWork(request.filePath.value, r.cache, r.existing, env);
  }

  /** A request that succeeded named a file whose DOCX and PDF both exist
      afterwards. */
  lemma SucceededRequest(request: ConvertRequest, cache: Option<Info>, existing: set<string>,
                         env: ConvertEnv)
    requires Handle(request, cache, existing, env).reply.Ok?
    ensures request.Body? && request.filePath.Some? && request.filePath.value != ""
    ensures request == Body(Some(request.filePath.value))
    ensures var r := Handle(request, cache, existing, env);
            DocxPath(env.cwd, request.filePath.value) in r.existing
            && PdfPath(env.cwd, request.filePath.value) in r.existing
  {
    var r := Handle(request, cache, existing, env);
    assert r.reply.Status() == 200;
  }

  /** A cached record is reused: a request with a cache never detects. */
  lemma CacheReused(request: ConvertRequest, info: Info, existing: set<string>, env: ConvertEnv)
    ensures !Handle(request, Some(info), existing, env).detected
  {
  }

  /** When detection finds nothing, the reply is 500 and the empty record
      is cached. */
  lemma UnavailableIsCached(f: string, existing: set<string>, env: ConvertEnv)
    requires f != "" && DocxPath(env.cwd, f) in existing
    requires PdfPath(env.cwd, f) !in existing + {ConvertedDir(env.cwd)}
    requires !Detect(env.platform, env.home, existing + {ConvertedDir(env.cwd)}, env.run).available
    ensures Handle(Body(Some(f)), None, existing, env)
            == Outcome(Fail(500, NotInstalled), Some(NotFound), existing + {ConvertedDir(env.cwd)}, true, [])
  {
  }

  /** A cached unavailable record answers 500 without detecting again. */
  lemma CachedUnavailable(f: string, info: Info, existing: set<string>, env: ConvertEnv)
    requires f != "" && DocxPath(env.cwd, f) in existing
    requires PdfPath(env.cwd, f) !in existing + {ConvertedDir(env.cwd)}
    requires !info.available
    ensures Handle(Body(Some(f)), Some(info), existing, env)
            == Outcome(Fail(500, NotInstalled), Some(info), existing + {ConvertedDir(env.cwd)}, false, [])
  {
  }

  /** When detection finds nothing, the reply is 500 and the empty record
      stays cached, so the next request fails the same way without
      detecting again. */
  lemma UnavailableStaysCached(f: string, existing: set<string>, env: ConvertEnv)
    requires f != "" && DocxPath(env.cwd, f) in existing
    requires PdfPath(env.cwd, f) !in existing + {ConvertedDir(env.cwd)}
    requires !Detect(env.platform, env.home, existing + {ConvertedDir(env.cwd)}, env.run).available
    ensures var r := Handle(Body(Some(f)), None, existing, env);
            r.reply == Fail(500, NotInstalled) && r.detected && r.cache == Some(NotFound)
    ensures var r := Handle(Body(Some(f)), None, existing, env);
            var again := Handle(Body(Some(f)), r.cache, r.existing, env);
            again.reply == Fail(500, NotInstalled) && !again.detected && again.cache == r.cache
  {
    var dirs := existing + {ConvertedDir(env.cwd)};
    UnavailableIsCached(f, existing, env);
    assert dirs + {ConvertedDir(env.cwd)} == dirs;
    CachedUnavailable(f, NotFound, dirs, env);
  }

  /** A body that does not parse clears the cache and answers 500. */
  lemma MalformedClearsCache(cache: Option<Info>, existing: set<string>, env: ConvertEnv)
    ensures var r := Handle(Malformed, cache, existing, env);
            r.reply.Status() == 500 && r.cache.None? && r.existing == existing
  {
  }

  /** A conversion that throws clears the cache and answers 500. */
  lemma ThrowClearsCache(f: string, cache: Option<Info>, existing: set<string>, env: ConvertEnv)
    requires f != "" && DocxPath(env.cwd, f) in existing
    requires PdfPath(env.cwd, f) !in existing + {ConvertedDir(env.cwd)}
    requires var info := if cache.None? then Detect(env.platform, env.home, existing + {ConvertedDir(env.cwd)}, env.run)
                         else cache.value;
             info.available
             && env.convert(ConvertCommand(env.platform, info.path, DocxPath(env.cwd, f), ConvertedDir(env.cwd)).0)
                == ConversionThrew
    ensures var r := Handle(Body(Some(f)), cache, existing, env);
            r.reply == Fail(500, ExecutionFailed) && r.cache.None? && |r.conversions| == 1
  {
  }

  /** Once the conversion has run, success is reported exactly when it
      left the PDF behind, and the record stays cached either way. */
  lemma SuccessIffPdfCreated(f: string, cache: Option<Info>, existing: set<string>, env: ConvertEnv,
                             created: bool)
    requires f != "" && DocxPath(env.cwd, f) in existing
    requires PdfPath(env.cwd, f) !in existing + {ConvertedDir(env.cwd)}
    requires var info := if cache.None? then Detect(env.platform, env.home, existing + {ConvertedDir(env.cwd)}, env.run)
                         else cache.value;
             info.available
             && env.convert(ConvertCommand(env.platform, info.path, DocxPath(env.cwd, f), ConvertedDir(env.cwd)).0)
                == ConversionRan(created)
    ensures var r := Handle(Body(Some(f)), cache, existing, env);
            (r.reply.Ok? <==> created)
            && (r.reply.Ok? <==> PdfPath(env.cwd, f) in r.existing)
            && r.cache.Some? && r.cache.value.available && |r.conversions| == 1
  {
  }
}

=== FILE: delete_route.dfy ===
/**
  The delete route (`app/api/delete/route.ts`): the filename check, the
  joined and normalized target, the existence check, the containment
  check, and the unlink. The filesystem is the set of existing paths;
  whether `unlink` succeeds on a path is an oracle.

  The containment test as written is a raw string-prefix test, which a
  sibling directory whose name extends "docs" passes. `Delete` models it as
  written; `DeleteInsideDocs` is the segment-wise test evidently intended.
 */
module DeleteRoute {
  import opened Common
  import opened Strings
  import opened Paths
  import DocumentPaths

  const FilenameRequired := "Filename is required"
  const FileNotFound := "File not found"
  const InvalidPath := "Invalid file path"
  const Deleted := "File deleted successfully"
  const DeleteFailed := "Error deleting file"

  /** A request's reply and the filesystem it leaves. */
  datatype DeleteOutcome = DeleteOutcome(reply: Response<()>, existing: set<string>)

  /** `docsPath`: the working directory joined with "docs", normalized. */
  function DocsPath(cwd: string): string
  {
    DocumentPaths.DocsDir(cwd)
  }

  /** `path.join(docsPath, filename)`, normalized. */
  function Target(cwd: string, filename: string): string
  {
    JoinNormalized(DocsPath(cwd), filename)
  }

  /** The containment test as written: `filePath.startsWith(docsPath)`. */
  predicate PrefixContained(cwd: string, p: string)
  {
    StartsWith(p, DocsPath(cwd))
  }

  /** The containment test evidently intended: strictly below the docs
      directory, segment-wise. */
  predicate InsideDocs(cwd: string, p: string)
  {
    StartsWith(p, DocsPath(cwd) + "/")
  }

  /** The handler's steps for a given containment test `accepts`. */
  function DeleteWith(filename: Option<string>, cwd: string, existing: set<string>,
                      unlinks: string -> bool, accepts: string -> bool): (r: DeleteOutcome)
    ensures r.reply.Status() == 400 || r.reply.Status() == 404 || r.reply.Status() == 500 || r.reply.Ok?
    ensures r.reply.Ok? <==>
              Truthy(filename) && Target(cwd, filename.value) in existing
              && accepts(Target(cwd, filename.value)) && unlinks(Target(cwd, filename.value))
    ensures r.reply.Ok? ==> r.existing == existing - {Target(cwd, filename.value)}
    ensures !r.reply.Ok? ==> r.existing == existing
    ensures r.reply.Status() == 404 <==> Truthy(filename) && Target(cwd, filename.value) !in existing
  {
    if !Truthy(filename) then DeleteOutcome(Fail(400, FilenameRequired), existing)
    else
      var target := Target(cwd, filename.value);
      if target !in existing then DeleteOutcome(Fail(404, FileNotFound), existing)
      else if !accepts(target) then DeleteOutcome(Fail(400, InvalidPath), existing)
      else if !unlinks(target) then DeleteOutcome(Fail(500, DeleteFailed), existing)
      else DeleteOutcome(Ok((), Deleted), existing - {target})
  }

  /** `DELETE` as written, with the string-prefix containment test. */
  function Delete(filename: Option<string>, cwd: string, existing: set<string>,
                  unlinks: string -> bool): (r: DeleteOutcome)
    ensures r.existing != existing ==>
              Truthy(filename) && PrefixContained(cwd, Target(cwd, filename.value))
              && r.existing == existing - {Target(cwd, filename.value)}
    ensures r.reply.Ok? <==>
              Truthy(filename) && Target(cwd, filename.value) in existing
              && PrefixContained(cwd, Target(cwd, filename.value)) && unlinks(Target(cwd, filename.value))
  {
    DeleteWith(filename, cwd, existing, unlinks, p => PrefixContained(cwd, p))
  }

  /** `DELETE` with the segment-wise containment test: only a path strictly
      inside the docs directory is ever removed. */
  function DeleteInsideDocs(filename: Option<string>, cwd: string, existing: set<string>,
                            unlinks: string -> bool): (r: DeleteOutcome)
    ensures r.existing != existing ==>
              Truthy(filename) && InsideDocs(cwd, Target(cwd, filename.value))
              && r.existing == existing - {Target(cwd, filename.value)}
    ensures r.reply.Ok? <==>
              Truthy(filename) && Target(cwd, filename.value) in existing
              && InsideDocs(cwd, Target(cwd, filename.value)) && unlinks(Target(cwd, filename.value))
  {
    DeleteWith(filename, cwd, existing, unlinks, p => InsideDocs(cwd, p))
  }

  /* ---------------------------------------------------------------------
     Lemmas
     --------------------------------------------------------------------- */

  /** A missing filename is refused before anything else. */
  lemma MissingFilenameFirst(filename: Option<string>, cwd: string, existing: set<string>,
                             unlinks: string -> bool)
    requires !Truthy(filename)
    ensures Delete(filename, cwd, existing, unlinks) == DeleteOutcome(Fail(400, FilenameRequired), existing)
  {
  }

  /** Existence is checked first: a missing path outside the docs directory
      is a 404, not a 400. */
  lemma ExistenceBeforeContainment(filename: string, cwd: string, existing: set<string>,
                                   unlinks: string -> bool)
    requires filename != "" && Target(cwd, filename) !in existing
    requires !PrefixContained(cwd, Target(cwd, filename))
    ensures Delete(Some(filename), cwd, existing, unlinks).reply == Fail(404, FileNotFound)
  {
  }

  /** An existing path that fails the prefix test is refused with 400. */
  lemma OutsideRefused(filename: string, cwd: string, existing: set<string>, unlinks: string -> bool)
    requires filename != "" && Target(cwd, filename) in existing
    requires !PrefixContained(cwd, Target(cwd, filename))
    ensures Delete(Some(filename), cwd, existing, unlinks) == DeleteOutcome(Fail(400, InvalidPath), existing)
  {
  }

  /** Success is reported only after the unlink: a failing unlink is a 500
      and leaves the file. */
  lemma UnlinkFailureIs500(filename: string, cwd: string, existing: set<string>, unlinks: string -> bool)
    requires filename != "" && Target(cwd, filename) in existing
    requires PrefixContained(cwd, Target(cwd, filename)) && !unlinks(Target(cwd, filename))
    ensures Delete(Some(filename), cwd, existing, unlinks) == DeleteOutcome(Fail(500, DeleteFailed), existing)
  {
  }

  /** Inside the docs directory implies passing the prefix test, so the
      corrected handler only ever refuses more. */
  lemma InsideImpliesPrefix(cwd: string, p: string)
    requires InsideDocs(cwd, p)
    ensures PrefixContained(cwd, p)
  {
    assert p[..|DocsPath(cwd)|] == p[..|DocsPath(cwd)| + 1][..|DocsPath(cwd)|];
  }

  /** Where the corrected handler deletes, the handler as written deletes
      the same file. */
  lemma CorrectedAgreesWhenInside(filename: Option<string>, cwd: string, existing: set<string>,
                                  unlinks: string -> bool)
    requires DeleteInsideDocs(filename, cwd, existing, unlinks).reply.Ok?
    ensures Delete(filename, cwd, existing, unlinks) == DeleteInsideDocs(filename, cwd, existing, unlinks)
  {
    InsideImpliesPrefix(cwd, Target(cwd, filename.value));
  }

  /** A plain filename from a working directory of plain segments names
      the file "docs/filename" itself: normalizing changes nothing, and the
      target passes both containment tests. */
  lemma PlainNameTarget(segs: seq<string>, name: string)
    requires AllPlain(segs) && IsPlainSegment(name)
    ensures Target(Rooted(segs), name) == Join(DocsPath(Rooted(segs)), name)
    ensures InsideDocs(Rooted(segs), Target(Rooted(segs), name))
    ensures PrefixContained(Rooted(segs), Target(Rooted(segs), name))
  {
    var docs := segs + ["docs"];
    DocumentPaths.DocsDirPlain(segs);
    assert AllPlain(docs);
    NormalizeJoinPlain(docs, name);
    var d := DocsPath(Rooted(segs));
    assert d == Rooted(docs);
    var t := Join(d, name);
    assert t[..|d| + 1] == d + "/";
    InsideImpliesPrefix(Rooted(segs), t);
  }

  /** At the root directory the docs directory is "/docs", and a plain
      filename there is deleted like anywhere else. */
  lemma RootWorkingDirectory(name: string, existing: set<string>, unlinks: string -> bool)
    requires IsPlainSegment(name) && "/docs/" + name in existing && unlinks("/docs/" + name)
    ensures Delete(Some(name), "/", existing, unlinks)
            == DeleteOutcome(Ok((), Deleted), existing - {"/docs/" + name})
  {
    var segs: seq<string> := [];
    assert Rooted(segs) == "/";
    PlainNameTarget(segs, name);
    DocumentPaths.DocsDirPlain(segs);
    assert DocsPath("/") == "/docs" by {
      assert segs + ["docs"] == ["docs"];
      assert Rooted(["docs"]) == "/docs";
    }
    var t := Target("/", name);
    assert t == "/docs/" + name;
    assert PrefixContained("/", t);
  }

  /** The text after the docs directory in the sibling request. */
  function SiblingTail(name: string): string
  {
    "docs" + ['/'] + (".." + ['/'] + ("docs-x" + ['/'] + name))
  }

  lemma SiblingSplit(name: string)
    requires IsPlainSegment(name)
    ensures Split(SiblingTail(name), '/') == ["docs", "..", "docs-x", name]
  {
    SplitConcat("docs", '/', ".." + ['/'] + ("docs-x" + ['/'] + name));
    SplitConcat("..", '/', "docs-x" + ['/'] + name);
    SplitConcat("docs-x", '/', name);
    SplitNoSeparator("docs", '/');
    SplitNoSeparator("..", '/');
    SplitNoSeparator("docs-x", '/');
    SplitNoSeparator(name, '/');
  }

  lemma SiblingResolve(segs: seq<string>, name: string)
    requires AllPlain(segs) && IsPlainSegment(name)
    ensures ResolveSegments([], [""] + segs + ["docs", "..", "docs-x", name]) == segs + ["docs-x", name]
  {
    var tail := ["docs", "..", "docs-x", name];
    ResolveSegmentsConcat([], [""] + segs, tail);
    ResolvePlainSegments([], segs);
    assert ResolveSegments([], [""] + segs) == ResolveSegments(Step([], ""), segs);
    assert Step([], "") == [] && [] + segs == segs;
    var a := segs + ["docs"];
    var b := segs + ["docs-x"];
    assert a[..|a| - 1] == segs;
    assert ResolveSegments(segs, tail) == ResolveSegments(a, ["..", "docs-x", name]);
    assert ResolveSegments(a, ["..", "docs-x", name]) == ResolveSegments(segs, ["docs-x", name]);
    assert ResolveSegments(segs, ["docs-x", name]) == ResolveSegments(b, [name]);
    assert ResolveSegments(b, [name]) == ResolveSegments(b + [name], []);
    assert b + [name] == segs + ["docs-x", name];
  }

  lemma SiblingRooted(segs: seq<string>, name: string)
    requires segs != []
    ensures Rooted(segs + ["docs-x", name]) == Join(Join(Rooted(segs), "docs-x"), name)
  {
    JoinWithAppend(segs, "docs-x", "/");
    JoinWithAppend(segs + ["docs-x"], name, "/");
    assert segs + ["docs-x"] + [name] == segs + ["docs-x", name];
  }

  /** `"../docs-x/" + name` from a working directory of plain segments
      normalizes into the sibling directory "docs-x". */
  lemma SiblingTarget(segs: seq<string>, name: string)
    requires segs != [] && AllPlain(segs) && IsPlainSegment(name)
    ensures Target(Rooted(segs), "../docs-x/" + name) == Join(Join(Rooted(segs), "docs-x"), name)
  {
    DocumentPaths.DocsDirPlain(segs);
    var cwd := Rooted(segs);
    var p := Join(DocsPath(cwd), "../docs-x/" + name);
    assert p == cwd + ['/'] + SiblingTail(name);
    SplitConcat(cwd, '/', SiblingTail(name));
    SiblingSplit(name);
    SplitRooted(segs);
    assert Split(p, '/') == [""] + segs + ["docs", "..", "docs-x", name];
    SiblingResolve(segs, name);
    assert Resolve(p) == Rooted(segs + ["docs-x", name]);
    assert !EndsWith(p, "/") by {
      assert p[|p| - 1] == name[|name| - 1];
      assert name[|name| - 1] in name;
    }
    SiblingRooted(segs, name);
  }

  /** As written, an existing file in the sibling directory "docs-x" passes
      the containment test and is deleted. */
  lemma SiblingDeleted(segs: seq<string>, name: string, existing: set<string>, unlinks: string -> bool)
    requires segs != [] && AllPlain(segs) && IsPlainSegment(name)
    requires Join(Join(Rooted(segs), "docs-x"), name) in existing
    requires unlinks(Join(Join(Rooted(segs), "docs-x"), name))
    ensures var r := Delete(Some("../docs-x/" + name), Rooted(segs), existing, unlinks);
            r.reply.Ok? && r.existing == existing - {Join(Join(Rooted(segs), "docs-x"), name)}
  {
    DocumentPaths.DocsDirPlain(segs);
    var cwd := Rooted(segs);
    SiblingTarget(segs, name);
    var t := Join(Join(cwd, "docs-x"), name);
    assert t[..|DocsPath(cwd)|] == DocsPath(cwd);
  }

  /** The corrected test refuses the same request. */
  lemma SiblingRefusedInsideDocs(segs: seq<string>, name: string, existing: set<string>,
                                 unlinks: string -> bool)
    requires segs != [] && AllPlain(segs) && IsPlainSegment(name)
    requires Join(Join(Rooted(segs), "docs-x"), name) in existing
    ensures DeleteInsideDocs(Some("../docs-x/" + name), Rooted(segs), existing, unlinks)
            == DeleteOutcome(Fail(400, InvalidPath), existing)
  {
    DocumentPaths.DocsDirPlain(segs);
    var cwd := Rooted(segs);
    SiblingTarget(segs, name);
    var t := Join(Join(cwd, "docs-x"), name);
    assert t[|DocsPath(cwd)|] == '-';
    assert (DocsPath(cwd) + "/")[|DocsPath(cwd)|] == '/';
  }
}

=== FILE: document_paths.dfy ===
/**
  The configurable document directory layout (`lib/document-paths.ts`).
  Environment variables are parameters; the filesystem is the set of paths
  that exist.
 */
module DocumentPaths {
  import opened Common
  import opened Strings
  import opened Paths

  /** The six environment variables, unset or set. */
  datatype PathEnv = PathEnv(
    documentsPath: Option<string>,
    inputFolder: Option<string>,
    generatedSowsFolder: Option<string>,
    convertedPdfFolder: Option<string>,
    convertedDocxFolder: Option<string>,
    tempFolder: Option<string>
  )

  const UnsetEnv := PathEnv(None, None, None, None, None, None)

  const DefaultDocumentsPath := "./docs"
  const DefaultInputFolder := "input"
  const DefaultGeneratedSowsFolder := "generated_sows"
  const DefaultConvertedPdfFolder := "converted_to_pdf"
  const DefaultConvertedDocxFolder := "converted_to_docx"
  const DefaultTempFolder := "temp"

  /** `process.env.X || default`: an unset or empty variable gives the
      default. */
  function Setting(v: Option<string>, default: string): (r: string)
    ensures Truthy(v) ==> r == v.value
    ensures !Truthy(v) ==> r == default
  {
    if Truthy(v) then v.value else default
  }

  datatype Layout = Layout(
    base: string,
    input: string,
    generatedSows: string,
    convertedPdf: string,
    convertedDocx: string,
    temp: string
  )

  /** `resolvePath`: a path starting with "/" is kept as it is; any other is
      resolved against the working directory (the "./" and "../" branch and
      the bare relative branch run the same call). */
  function ResolvePath(cwd: string, relativePath: string): (r: string)
    ensures StartsWith(r, "/")
    ensures StartsWith(relativePath, "/") ==> r == relativePath
  {
    if StartsWith(relativePath, "./") || StartsWith(relativePath, "../") then
      Resolve(Join(cwd, relativePath))
    else if !StartsWith(relativePath, "/") then
      Resolve(Join(cwd, relativePath))
    else
      relativePath
  }

  /** `path.join(process.cwd(), "docs")`, which the file, delete and
      conversion routes build directly rather than through the layout. */
  function DocsDir(cwd: string): string
  {
    JoinNormalized(cwd, "docs")
  }

  /** `getDocumentPaths`: the base directory and its five sub-directories. */
  function GetDocumentPaths(cwd: string, env: PathEnv): (r: Layout)
  {
    var base := ResolvePath(cwd, Setting(env.documentsPath, DefaultDocumentsPath));
    Layout(
      base,
      JoinNormalized(base, Setting(env.inputFolder, DefaultInputFolder)),
      JoinNormalized(base, Setting(env.generatedSowsFolder, DefaultGeneratedSowsFolder)),
      JoinNormalized(base, Setting(env.convertedPdfFolder, DefaultConvertedPdfFolder)),
      JoinNormalized(base, Setting(env.convertedDocxFolder, DefaultConvertedDocxFolder)),
      JoinNormalized(base, Setting(env.tempFolder, DefaultTempFolder)))
  }

  /** The directories `ensureDocumentDirectories` visits, in its order. */
  function Directories(l: Layout): seq<string>
  {
    [l.base, l.input, l.generatedSows, l.convertedPdf, l.convertedDocx, l.temp]
  }

  /** The filesystem after every listed directory has been made to exist. */
  function WithDirectories(existing: set<string>, dirs: seq<string>): (r: set<string>)
    ensures forall d :: d in r <==> d in existing || d in dirs
  {
    existing + set d | d in dirs
  }

  /** The loop of `ensureDocumentDirectories` over any list: a directory is
      created only when it does not exist yet. `created` lists the
      directories made, in the order they were made. */
  method EnsureDirectories(dirs: seq<string>, existing: set<string>)
    returns (after: set<string>, created: seq<string>)
    ensures after == WithDirectories(existing, dirs)
    ensures forall d :: d in created <==> d in dirs && d !in existing
    ensures forall a, b :: 0 <= a < b < |created| ==> created[a] != created[b]
  {
    after := existing;
    created := [];
    var i := 0;
    while i < |dirs|
      invariant 0 <= i <= |dirs|
      invariant forall d :: d in after <==> d in existing || d in dirs[..i]
      invariant forall d :: d in created <==> d in dirs[..i] && d !in existing
      invariant forall a, b :: 0 <= a < b < |created| ==> created[a] != created[b]
    {
      assert dirs[..i + 1] == dirs[..i] + [dirs[i]];
      if dirs[i] !in after {
        created := created + [dirs[i]];
        after := after + {dirs[i]};
      }
      i := i + 1;
    }
    assert dirs[..i] == dirs;
  }

  /** `ensureDocumentDirectories` over the configured layout: afterwards all
      six directories exist, and nothing that existed before is touched. */
  method EnsureDocumentDirectories(cwd: string, env: PathEnv, existing: set<string>)
    returns (after: set<string>, created: seq<string>)
    ensures existing <= after
    ensures forall d :: d in Directories(GetDocumentPaths(cwd, env)) ==> d in after
    ensures forall d :: d in after - existing ==> d in Directories(GetDocumentPaths(cwd, env))
    ensures forall d :: d in created ==> d !in existing
  {
    after, created := EnsureDirectories(Directories(GetDocumentPaths(cwd, env)), existing);
  }

  /* ---------------------------------------------------------------------
     Lemmas
     --------------------------------------------------------------------- */

  /** A "./" prefix resolves like the bare relative path. */
  lemma ResolvePathDotPrefix(cwd: string, rel: string)
    requires !StartsWith(rel, "/")
    ensures ResolvePath(cwd, "./" + rel) == ResolvePath(cwd, rel)
  {
    assert StartsWith("./" + rel, "./");
    ResolveDotPrefix(cwd, rel);
  }

  /** A plain relative name resolves to the working directory joined with
      it, when the working directory is already normal. */
  lemma ResolvePathPlain(cwdSegs: seq<string>, rel: string)
    requires AllPlain(cwdSegs) && IsPlainSegment(rel)
    ensures ResolvePath(Rooted(cwdSegs), rel) == Rooted(cwdSegs + [rel])
  {
    PlainNotAbsolute(rel);
    ResolveJoinRooted(cwdSegs, rel);
  }

  /** For a working directory of plain segments, the root included, the
      docs directory is the working directory with one more segment "docs";
      below the root that is the plain join. */
  lemma DocsDirPlain(cwdSegs: seq<string>)
    requires AllPlain(cwdSegs)
    ensures DocsDir(Rooted(cwdSegs)) == Rooted(cwdSegs + ["docs"])
    ensures cwdSegs != [] ==> DocsDir(Rooted(cwdSegs)) == Join(Rooted(cwdSegs), "docs")
  {
    assert IsPlainSegment("docs");
    NormalizeJoinPlain(cwdSegs, "docs");
  }

  /** At the root directory the docs directory is "/docs", not "//docs". */
  lemma DocsDirAtRoot()
    ensures DocsDir("/") == "/docs"
  {
    var segs: seq<string> := [];
    assert Rooted(segs) == "/";
    DocsDirPlain(segs);
    assert segs + ["docs"] == ["docs"];
    assert Rooted(["docs"]) == "/docs";
  }

  /** Each sub-directory is the base joined with its folder, so the base is
      a prefix of all five, whenever the base is normal and the folder is a
      plain name. */
  lemma SubdirectoryOfBase(baseSegs: seq<string>, folder: string)
    requires AllPlain(baseSegs) && baseSegs != [] && IsPlainSegment(folder)
    ensures JoinNormalized(Rooted(baseSegs), folder) == Join(Rooted(baseSegs), folder)
    ensures StartsWith(JoinNormalized(Rooted(baseSegs), folder), Rooted(baseSegs))
  {
    NormalizeJoinPlain(baseSegs, folder);
  }

  /** With no variable set, the base is `cwd/docs` for a normal working
      directory `cwd`. */
  lemma DefaultBase(cwdSegs: seq<string>)
    requires AllPlain(cwdSegs) && cwdSegs != []
    ensures GetDocumentPaths(Rooted(cwdSegs), UnsetEnv).base == Rooted(cwdSegs + ["docs"])
    ensures Rooted(cwdSegs + ["docs"]) == Join(Rooted(cwdSegs), "docs")
  {
    var cwd := Rooted(cwdSegs);
    assert IsPlainSegment("docs");
    PlainNotAbsolute("docs");
    assert "./docs" == "./" + "docs";
    ResolvePathDotPrefix(cwd, "docs");
    ResolvePathPlain(cwdSegs, "docs");
    NormalizeJoinPlain(cwdSegs, "docs");
  }

  lemma DefaultFoldersPlain()
    ensures IsPlainSegment(DefaultInputFolder)
    ensures IsPlainSegment(DefaultGeneratedSowsFolder)
    ensures IsPlainSegment(DefaultConvertedPdfFolder)
    ensures IsPlainSegment(DefaultConvertedDocxFolder)
    ensures IsPlainSegment(DefaultTempFolder)
  {
  }

  /** A folder below a plain directory `dir` of the working directory is
      `cwd/dir/folder`, with no normalization needed. */
  lemma DefaultSubdirectory(cwdSegs: seq<string>, dir: string, folder: string, sub: string)
    requires AllPlain(cwdSegs) && cwdSegs != [] && IsPlainSegment(dir) && IsPlainSegment(folder)
    requires sub == JoinNormalized(Rooted(cwdSegs + [dir]), folder)
    ensures sub == Join(Join(Rooted(cwdSegs), dir), folder)
  {
    var dirSegs := cwdSegs + [dir];
    assert AllPlain(dirSegs) by {
      forall k | 0 <= k < |dirSegs|
        ensures IsPlainSegment(dirSegs[k])
      {
        if k < |cwdSegs| {
          assert dirSegs[k] == cwdSegs[k];
        }
      }
    }
    SubdirectoryOfBase(dirSegs, folder);
    NormalizeJoinPlain(cwdSegs, dir);
  }

  /** With no variable set and a normal working directory `cwd`, the layout
      is `cwd/docs` and its five default sub-directories. */
  lemma DefaultLayout(cwdSegs: seq<string>)
    requires AllPlain(cwdSegs) && cwdSegs != []
    ensures GetDocumentPaths(Rooted(cwdSegs), UnsetEnv).base == Join(Rooted(cwdSegs), "docs")
    ensures GetDocumentPaths(Rooted(cwdSegs), UnsetEnv).input
            == Join(Join(Rooted(cwdSegs), "docs"), "input")
    ensures GetDocumentPaths(Rooted(cwdSegs), UnsetEnv).generatedSows
            == Join(Join(Rooted(cwdSegs), "docs"), "generated_sows")
    ensures GetDocumentPaths(Rooted(cwdSegs), UnsetEnv).convertedPdf
            == Join(Join(Rooted(cwdSegs), "docs"), "converted_to_pdf")
    ensures GetDocumentPaths(Rooted(cwdSegs), UnsetEnv).convertedDocx
            == Join(Join(Rooted(cwdSegs), "docs"), "converted_to_docx")
    ensures GetDocumentPaths(Rooted(cwdSegs), UnsetEnv).temp
            == Join(Join(Rooted(cwdSegs), "docs"), "temp")
  {
    var l := GetDocumentPaths(Rooted(cwdSegs), UnsetEnv);
    DefaultBase(cwdSegs);
    DefaultFoldersPlain();
    assert IsPlainSegment("docs");
    assert l.input == JoinNormalized(Rooted(cwdSegs + ["docs"]), DefaultInputFolder);
    assert l.generatedSows == JoinNormalized(Rooted(cwdSegs + ["docs"]), DefaultGeneratedSowsFolder);
    assert l.convertedPdf == JoinNormalized(Rooted(cwdSegs + ["docs"]), DefaultConvertedPdfFolder);
    assert l.convertedDocx == JoinNormalized(Rooted(cwdSegs + ["docs"]), DefaultConvertedDocxFolder);
    assert l.temp == JoinNormalized(Rooted(cwdSegs + ["docs"]), DefaultTempFolder);
    DefaultSubdirectory(cwdSegs, "docs", DefaultInputFolder, l.input);
    DefaultSubdirectory(cwdSegs, "docs", DefaultGeneratedSowsFolder, l.generatedSows);
    DefaultSubdirectory(cwdSegs, "docs", DefaultConvertedPdfFolder, l.convertedPdf);
    DefaultSubdirectory(cwdSegs, "docs", DefaultConvertedDocxFolder, l.convertedDocx);
    DefaultSubdirectory(cwdSegs, "docs", DefaultTempFolder, l.temp);
  }
}

=== FILE: files.dfy ===
/**
  The file record the routes and the wizard exchange, and the size label
  they show (`components/wizard.tsx`, `FileData`).
 */
module Files {
  import opened Strings

  /** One listed or uploaded document. `fileType` is the source's `type`
      field; `lastModified` is a date string the model treats as opaque. */
  datatype FileData = FileData(
    name: string,
    path: string,
    size: string,
    lastModified: string,
    fileType: string
  )

  /** `Math.round(bytes / 1024)` for a non-negative byte count: the nearest
      whole number of kilobytes, halves rounded up. */
  function KilobytesRounded(bytes: nat): (kb: nat)
    ensures kb * 1024 - 512 <= bytes < kb * 1024 + 512
  {
    (bytes + 512) / 1024
  }

  /** Rounding has exactly one answer. */
  lemma KilobytesRoundedUnique(bytes: nat, kb: nat)
    requires kb * 1024 - 512 <= bytes < kb * 1024 + 512
    ensures kb == KilobytesRounded(bytes)
  {
  }

  /** The label `${Math.round(size / 1024)} KB`. */
  function SizeLabel(bytes: nat): (r: string)
    ensures EndsWith(r, " KB") && |r| > 3
  {
    NatToString(KilobytesRounded(bytes)) + " KB"
  }

  /** The number in a size label reads back as the rounded kilobytes. */
  lemma SizeLabelReadsBack(bytes: nat)
    ensures var text := SizeLabel(bytes);
            AllDigits(text[..|text| - 3])
            && ParseDigits(text[..|text| - 3]) == KilobytesRounded(bytes)
  {
    var text := SizeLabel(bytes);
    assert text[..|text| - 3] == NatToString(KilobytesRounded(bytes));
    ParseNatToString(KilobytesRounded(bytes));
  }
}

=== FILE: files_route.dfy ===
/**
  The presentation listing (`app/api/files/route.ts`): the names in the
  docs directory that end in ".pptx", in directory order, each with its
  public path, size label and date. Reading the directory and `stat` are
  oracles; the filesystem is the set of existing paths.
 */
module FilesRoute {
  import opened Common
  import opened Strings
  import opened Paths
  import opened Files
  import DocumentPaths

  /** What `stat` reports: the size in bytes and the modification time as
      ISO text. */
  datatype Stat = Stat(size: nat, mtime: string)

  const ReadFailed := "Error reading files"

  /** `file.toLowerCase().endsWith(".pptx")`. */
  predicate IsPresentation(name: string)
  {
    EndsWithIgnoreCase(name, ".pptx")
  }

  /** The filter over the directory listing, keeping the order. */
  function Presentations(names: seq<string>): (r: seq<string>)
    ensures |r| <= |names|
    ensures forall k :: 0 <= k < |r| ==> IsPresentation(r[k])
    ensures forall x :: x in r <==> x in names && IsPresentation(x)
  {
    if names == [] then []
    else (if IsPresentation(names[0]) then [names[0]] else []) + Presentations(names[1..])
  }

  /** The record listed for one presentation. */
  function Listed(name: string, stat: Stat): FileData
  {
    FileData(name, "/docs/" + name, SizeLabel(stat.size), Split(stat.mtime, 'T')[0], "presentation")
  }

  /** `Promise.all` over the `stat` calls: one failure fails the listing. */
  function StatAll(dir: string, names: seq<string>, stat: string -> Option<Stat>): (r: Option<seq<FileData>>)
    ensures r.Some? <==> forall k :: 0 <= k < |names| ==> stat(Join(dir, names[k])).Some?
    ensures r.Some? ==>
              |r.value| == |names|
              && forall k :: 0 <= k < |names| ==> r.value[k] == Listed(names[k], stat(Join(dir, names[k])).value)
  {
    if names == [] then Some([])
    else
      var info := stat(Join(dir, names[0]));
      var rest := StatAll(dir, names[1..], stat);
      if info.None? || rest.None? then None
      else Some([Listed(names[0], info.value)] + rest.value)
  }

  /** `GET`: an empty list when the docs directory is missing, otherwise
      the presentations; a failed read or `stat` answers 500. */
  function Get(cwd: string, existing: set<string>, entries: Option<seq<string>>,
               stat: string -> Option<Stat>): (r: Response<seq<FileData>>)
    ensures DocumentPaths.DocsDir(cwd) !in existing ==> r == Ok([], "")
    ensures r.Fail? ==> r == Fail(500, ReadFailed)
    ensures r.Ok? && DocumentPaths.DocsDir(cwd) in existing ==>
              entries.Some?
              && var names := Presentations(entries.value);
              |r.payload| == |names|
              && forall k :: 0 <= k < |names| ==>
                   r.payload[k].name == names[k]
                   && r.payload[k].path == "/docs/" + names[k]
                   && r.payload[k].fileType == "presentation"
                   && stat(Join(DocumentPaths.DocsDir(cwd), names[k])).Some?
                   && r.payload[k].size == SizeLabel(stat(Join(DocumentPaths.DocsDir(cwd), names[k])).value.size)
  {
    var docs := DocumentPaths.DocsDir(cwd);
    if docs !in existing then Ok([], "")
    else if entries.None? then Fail(500, ReadFailed)
    else
      match StatAll(docs, Presentations(entries.value), stat)
      case None => Fail(500, ReadFailed)
      case Some(listed) => Ok(listed, "")
  }

  /* ---------------------------------------------------------------------
     Lemmas
     --------------------------------------------------------------------- */

  /** The filter keeps directory order: filtering a concatenation
      concatenates the filtered parts. */
  lemma {:induction false} PresentationsConcat(a: seq<string>, b: seq<string>)
    ensures Presentations(a + b) == Presentations(a) + Presentations(b)
    decreases |a|
  {
    if a == [] {
      assert a + b == b;
    } else {
      assert (a + b)[0] == a[0] && (a + b)[1..] == a[1..] + b;
      PresentationsConcat(a[1..], b);
    }
  }

  /** A listing of presentations only is kept whole. */
  lemma {:induction false} PresentationsOfPresentations(names: seq<string>)
    requires forall k :: 0 <= k < |names| ==> IsPresentation(names[k])
    ensures Presentations(names) == names
    decreases |names|
  {
    if names != [] {
      PresentationsOfPresentations(names[1..]);
    }
  }

  /** Filtering twice is filtering once. */
  lemma PresentationsIdempotent(names: seq<string>)
    ensures Presentations(Presentations(names)) == Presentations(names)
  {
    PresentationsOfPresentations(Presentations(names));
  }

  // The examples below take their literal text as a parameter fixed by a
  // `requires`: Dafny unfolds functions applied to literal strings without
  // bound, and the parameter keeps each proof to the steps it names.
  /** The test ignores case but needs the extension at the very end. */
  lemma PresentationExamples(upper: string, backup: string)
    requires upper == "Deck.PPTX" && backup == "a.pptx.bak"
    ensures IsPresentation(upper)
    ensures !IsPresentation(backup)
  {
    assert ToLower(".pptx") == ".pptx";
    assert ToLower(upper)[4..] == ".pptx";
    assert ToLower(backup)[|backup| - 1] == 'k';
  }

  /** Without a docs directory nothing is read. */
  lemma MissingDirectoryIsEmpty(cwd: string, existing: set<string>, entries: Option<seq<string>>,
                                stat: string -> Option<Stat>)
    requires DocumentPaths.DocsDir(cwd) !in existing
    ensures Get(cwd, existing, entries, stat).Ok?
    ensures Get(cwd, existing, entries, stat).payload == []
  {
  }

  /** When every `stat` succeeds the listing succeeds, and its paths all
      point under "/docs/". */
  lemma ListingSucceeds(cwd: string, existing: set<string>, entries: seq<string>,
                        stat: string -> Option<Stat>)
    requires DocumentPaths.DocsDir(cwd) in existing
    requires forall x :: x in entries ==> stat(Join(DocumentPaths.DocsDir(cwd), x)).Some?
    ensures var r := Get(cwd, existing, Some(entries), stat);
            r.Ok? && forall k :: 0 <= k < |r.payload| ==>
                       StartsWith(r.payload[k].path, "/docs/") && IsPresentation(r.payload[k].name)
  {
    var names := Presentations(entries);
    assert forall k :: 0 <= k < |names| ==> names[k] in entries;
  }
}

=== FILE: generate_sow.dfy ===
/**
  The SOW generation route (`app/api/generate-sow/route.ts`): request
  validation, the call to the external generator, passing its status
  through, and the name the generated document is stored under. `fetch`
  is an oracle from the call made to what came back; the filesystem is the
  set of existing paths; the clock is the ISO timestamp text it gave.
 */
module GenerateSow {
  import opened Common
  import opened Strings
  import opened Paths
  import opened DocumentPaths

  /** The body: not JSON, or an object with the two fields, each possibly
      absent. */
  datatype SowRequest = Malformed | Body(contractType: Option<string>, selectedDocuments: Option<seq<string>>)

  datatype Header = Header(name: string, value: string)

  /** The JSON body sent upstream: `{contract_type, documents}`. */
  datatype ApiRequest = ApiRequest(contractType: string, documents: seq<string>)

  /** One `fetch` call: URL, headers in order, and body. The method is
      always POST. */
  datatype Call = Call(url: string, headers: seq<Header>, body: ApiRequest)

  /** The fields of the upstream JSON reply the route reads. */
  datatype ApiReply = ApiReply(docxContent: Option<string>, filename: Option<string>)

  /** What `fetch` did: it threw, or it answered with a status, a status
      text, a body text, and that body parsed as JSON when it is JSON. */
  datatype Upstream =
    | FetchThrew
    | Replied(status: int, statusText: string, text: string, json: Option<ApiReply>)

  /** `NEXT_PUBLIC_API_ENDPOINT` and `NEXT_PUBLIC_API_KEY`. */
  datatype ApiConfig = ApiConfig(endpoint: Option<string>, apiKey: Option<string>)

  datatype SowEnv = SowEnv(
    cwd: string,
    paths: PathEnv,
    config: ApiConfig,
    timestamp: string,
    fetch: Call -> Upstream
  )

  /** A request's reply, the filesystem it leaves, and the calls it made. */
  datatype SowOutcome = SowOutcome(reply: Response<string>, existing: set<string>, calls: seq<Call>)

  const RequiredFields := "Contract type and selected documents are required"
  const EndpointMissing := "API endpoint not configured"
  const InvalidReply := "Invalid API response: missing docx_content or filename"
  const Generated := "SOW generated successfully (regenerated)"
  const GenerateFailed := "Error generating SOW"

  const ContentType := Header("Content-Type", "application/json")

  /** The request headers: the content type, and a bearer token exactly
      when a key is configured. */
  function Headers(apiKey: Option<string>): (r: seq<Header>)
    ensures |r| >= 1 && r[0] == ContentType
    ensures Truthy(apiKey) ==> r == [ContentType, Header("Authorization", "Bearer " + apiKey.value)]
    ensures !Truthy(apiKey) ==> r == [ContentType]
  {
    if Truthy(apiKey) then [ContentType, Header("Authorization", "Bearer " + apiKey.value)]
    else [ContentType]
  }

  /** `response.ok`: a 2xx status. */
  predicate IsOk(status: int)
  {
    200 <= status <= 299
  }

  /** A status `NextResponse.json` accepts for a reply with a body: the
      Fetch Standard's `Response` constructor throws a RangeError outside
      200..599 and a TypeError for a null-body status, of which 304 is the
      only one that is not 2xx or 1xx. */
  predicate Relayable(status: int)
  {
    200 <= status <= 599 && status != 304
  }

  /** `toISOString().replace(/[:.]/g, "-")`. */
  function TimestampSuffix(iso: string): (r: string)
    ensures |r| == |iso|
    ensures forall i :: 0 <= i < |iso| ==> r[i] == (if iso[i] in {':', '.'} then '-' else iso[i])
    ensures ':' !in r && '.' !in r
  {
    ReplaceChars(iso, {':', '.'}, '-')
  }

  /** The stored name: the upstream name without one trailing ".docx", an
      underscore, the timestamp, and ".docx". */
  function UniqueFilename(filename: string, iso: string): (r: string)
    ensures StartsWith(r, StripSuffixIgnoreCase(filename, ".docx") + "_")
    ensures EndsWith(r, ".docx")
    ensures |r| == |StripSuffixIgnoreCase(filename, ".docx")| + |iso| + 6
  {
    StripSuffixIgnoreCase(filename, ".docx") + "_" + TimestampSuffix(iso) + ".docx"
  }

  /** `POST`: validation, directories, endpoint, the call, the reply checks
      and the write. */
  function Handle(request: SowRequest, existing: set<string>, env: SowEnv): (r: SowOutcome)
    ensures r.calls == [] && r.reply.Status() == 400 <==>
              request.Body? && (!Truthy(request.contractType) || request.selectedDocuments.None?
                                || |request.selectedDocuments.value| == 0)
    ensures existing <= r.existing
    ensures |r.calls| <= 1
    ensures r.calls != [] ==>
              request.Body? && Truthy(request.contractType) && request.selectedDocuments.Some?
              && Truthy(env.config.endpoint)
              && r.calls[0] == Call(env.config.endpoint.value, Headers(env.config.apiKey),
                                    ApiRequest(request.contractType.value, request.selectedDocuments.value))
    ensures r.reply.Ok? ==>
              r.calls != [] && EndsWith(r.reply.payload, ".docx")
              && Join(GetDocumentPaths(env.cwd, env.paths).generatedSows, r.reply.payload) in r.existing
    ensures r.reply.Fail? ==> Relayable(r.reply.Status()) && !IsOk(r.reply.Status())
  {
    match request
    case Malformed => SowOutcome(Fail(500, GenerateFailed), existing, [])
    case Body(contractType, documents) =>
      if !Truthy(contractType) || documents.None? || |documents.value| == 0 then
        SowOutcome(Fail(400, RequiredFields), existing, [])
      else
        var layout := GetDocumentPaths(env.cwd, env.paths);
        var dirs := WithDirectories(existing, Directories(layout));
        if !Truthy(env.config.endpoint) then SowOutcome(Fail(500, EndpointMissing), dirs, [])
        else
          var call := Call(env.config.endpoint.value, Headers(env.config.apiKey),
                           ApiRequest(contractType.value, documents.value));
          match env.fetch(call)
          case FetchThrew => SowOutcome(Fail(500, GenerateFailed), dirs, [call])
          case Replied(status, statusText, _, json) =>
            if !IsOk(status) then
              if Relayable(status) then
                SowOutcome(Fail(status, "API Error: " + IntToString(status) + " " + statusText), dirs, [call])
              else
                // building the relayed reply throws; the catch answers 500
                SowOutcome(Fail(500, GenerateFailed), dirs, [call])
            else if json.None? then SowOutcome(Fail(500, GenerateFailed), dirs, [call])
            else if !Truthy(json.value.docxContent) || !Truthy(json.value.filename) then
              SowOutcome(Fail(500, InvalidReply), dirs, [call])
            else
              var name := UniqueFilename(json.value.filename.value, env.timestamp);
              SowOutcome(Ok(name, Generated), dirs + {Join(layout.generatedSows, name)}, [call])
  }

  /* ---------------------------------------------------------------------
     Lemmas
     --------------------------------------------------------------------- */

  /** The Authorization header is sent exactly when a key is configured. */
  lemma AuthorizationIffKey(apiKey: Option<string>)
    ensures (exists k :: 0 <= k < |Headers(apiKey)| && Headers(apiKey)[k].name == "Authorization")
            <==> Truthy(apiKey)
  {
    assert ContentType.name[0] == 'C';
    if Truthy(apiKey) {
      assert Headers(apiKey)[1].name == "Authorization";
    }
  }

  /** The stored name reads back: stripping its ".docx" gives the stripped
      upstream name, an underscore and the timestamp suffix. */
  lemma UniqueFilenameParts(filename: string, iso: string)
    ensures var r := UniqueFilename(filename, iso);
            var base := StripSuffixIgnoreCase(filename, ".docx");
            StripSuffixIgnoreCase(r, ".docx") == base + "_" + TimestampSuffix(iso)
            && r[|base| + 1..|r| - 5] == TimestampSuffix(iso)
  {
    var base := StripSuffixIgnoreCase(filename, ".docx");
    var head := base + "_" + TimestampSuffix(iso);
    StripAppendedSuffix(head, ".docx");
    assert UniqueFilename(filename, iso) == head + ".docx";
    assert head[|base| + 1..] == TimestampSuffix(iso);
  }

  /** Replacing the separators twice changes nothing more. */
  lemma TimestampSuffixIdempotent(iso: string)
    ensures TimestampSuffix(TimestampSuffix(iso)) == TimestampSuffix(iso)
  {
  }

  // The examples below take their literal text as a parameter fixed by a
  // `requires`: Dafny unfolds functions applied to literal strings without
  // bound, and the parameter keeps each proof to the steps it names.
  /** A ".docx" upstream name, in any case, loses that extension. */
  lemma UpperCaseDocxStripped(filename: string, iso: string)
    requires filename == "SOW.DOCX" && iso == "T1:2.3"
    ensures UniqueFilename(filename, iso) == "SOW_T1-2-3.docx"
  {
    UpperCaseDocxSuffix(filename);
    ExampleTimestamp(iso);
  }

  lemma UpperCaseDocxSuffix(filename: string)
    requires filename == "SOW.DOCX"
    ensures StripSuffixIgnoreCase(filename, ".docx") == "SOW"
  {
    assert ToLower(".docx") == ".docx";
    assert ToLower(filename)[3..] == ".docx";
  }

  lemma ExampleTimestamp(iso: string)
    requires iso == "T1:2.3"
    ensures TimestampSuffix(iso) == "T1-2-3"
  {
    assert TimestampSuffix(iso) == ReplaceChars(iso, {':', '.'}, '-');
  }

  /** Any other upstream name is kept whole. */
  lemma OtherNameKept(filename: string, iso: string)
    requires filename == "draft" && iso == "T1:2"
    ensures UniqueFilename(filename, iso) == "draft_T1-2.docx"
  {
    assert |filename| == 5 && ToLower(filename)[0] == 'd';
    assert StripSuffixIgnoreCase(filename, ".docx") == filename;
    assert TimestampSuffix(iso) == "T1-2";
  }

  /** A request that fails validation changes nothing and calls nobody. */
  lemma ValidationFirst(contractType: Option<string>, documents: Option<seq<string>>,
                        existing: set<string>, env: SowEnv)
    requires !Truthy(contractType) || documents.None? || |documents.value| == 0
    ensures Handle(Body(contractType, documents), existing, env)
            == SowOutcome(Fail(400, RequiredFields), existing, [])
  {
  }

  /** Without an endpoint no call is made, but the directories have been
      created already. */
  lemma MissingEndpointNoCall(contractType: string, documents: seq<string>, existing: set<string>,
                              env: SowEnv)
    requires contractType != "" && documents != [] && !Truthy(env.config.endpoint)
    ensures var r := Handle(Body(Some(contractType), Some(documents)), existing, env);
            r.reply == Fail(500, EndpointMissing) && r.calls == []
            && r.existing == WithDirectories(existing, Directories(GetDocumentPaths(env.cwd, env.paths)))
  {
  }

  /** A non-2xx upstream status that a reply can carry is the reply's
      status. */
  lemma StatusPassesThrough(contractType: string, documents: seq<string>, existing: set<string>,
                            env: SowEnv, status: int, statusText: string, text: string,
                            json: Option<ApiReply>)
    requires contractType != "" && documents != [] && Truthy(env.config.endpoint)
    requires env.fetch(Call(env.config.endpoint.value, Headers(env.config.apiKey),
                            ApiRequest(contractType, documents)))
             == Replied(status, statusText, text, json)
    requires !IsOk(status) && Relayable(status)
    ensures Handle(Body(Some(contractType), Some(documents)), existing, env).reply.Status() == status
  {
  }

  /** A 304, or a status outside 200..599, cannot be relayed: the reply is
      the catch's 500. */
  lemma UnrelayableStatusFails(contractType: string, documents: seq<string>, existing: set<string>,
                               env: SowEnv, status: int, statusText: string, text: string,
                               json: Option<ApiReply>)
    requires contractType != "" && documents != [] && Truthy(env.config.endpoint)
    requires env.fetch(Call(env.config.endpoint.value, Headers(env.config.apiKey),
                            ApiRequest(contractType, documents)))
             == Replied(status, statusText, text, json)
    requires !IsOk(status) && !Relayable(status)
    ensures Handle(Body(Some(contractType), Some(documents)), existing, env).reply == Fail(500, GenerateFailed)
  {
  }

  /** A 2xx reply without content or name is a 500; with both, the
      document is stored under its unique name. */
  lemma ReplyDecides(contractType: string, documents: seq<string>, existing: set<string>,
                     env: SowEnv, status: int, statusText: string, text: string, reply: ApiReply)
    requires contractType != "" && documents != [] && Truthy(env.config.endpoint)
    requires env.fetch(Call(env.config.endpoint.value, Headers(env.config.apiKey),
                            ApiRequest(contractType, documents)))
             == Replied(status, statusText, text, Some(reply))
    requires IsOk(status)
    ensures var r := Handle(Body(Some(contractType), Some(documents)), existing, env);
            (r.reply.Ok? <==> Truthy(reply.docxContent) && Truthy(reply.filename))
            && (!r.reply.Ok? ==> r.reply == Fail(500, InvalidReply))
            && (r.reply.Ok? ==> r.reply.payload == UniqueFilename(reply.filename.value, env.timestamp))
  {
  }
}

=== FILE: libreoffice.dfy ===
/**
  Locating and running LibreOffice (`lib/libreoffice-utils.ts`). Running a
  command is an oracle `run` from the command line to what the process
  reported; the filesystem is the set of paths that exist.
 */
module LibreOffice {
  import opened Common
  import opened Strings

  /** `os.platform()`, with every platform the search has no list for
      folded into `Unsupported`. */
  datatype Platform = Darwin | Linux | Win32 | Unsupported

  /** What detection found: where LibreOffice is, what it said about its
      version, and whether it is usable. */
  datatype Info = Info(path: string, version: Option<string>, available: bool)

  /** The outcome of running a command: it threw, or it printed `stdout`. */
  datatype ExecResult = Threw | Output(stdout: string)

  const NotFound := Info("", None, false)

  /** The command tried first, through the search path. */
  const PathProbe := "libreoffice --version"

  const WindowsUserInstall := "AppData\\Local\\Programs\\LibreOffice\\program\\soffice.exe"

  /** The installation paths tried for each platform, in order. `home` is
      `os.homedir()`; on Windows `path.join` separates with a backslash. */
  function Candidates(platform: Platform, home: string): (r: seq<string>)
    ensures platform == Unsupported <==> r == []
    ensures forall k :: 0 <= k < |r| ==> r[k] != ""
  {
    match platform
    case Darwin => [
      "/Applications/LibreOffice.app/Contents/MacOS/soffice",
      "/usr/local/bin/libreoffice",
      "/opt/homebrew/bin/libreoffice",
      "/usr/bin/libreoffice"]
    case Linux => [
      "/usr/bin/libreoffice",
      "/usr/local/bin/libreoffice",
      "/opt/libreoffice/program/soffice",
      "/snap/bin/libreoffice"]
    case Win32 => [
      "C:\\Program Files\\LibreOffice\\program\\soffice.exe",
      "C:\\Program Files (x86)\\LibreOffice\\program\\soffice.exe",
      home + "\\" + WindowsUserInstall]
    case Unsupported => []
  }

  /** `"path"`: a path in double quotes. */
  function Quote(s: string): (r: string)
    ensures |r| == |s| + 2 && r[0] == '"' && r[|r| - 1] == '"' && r[1..|r| - 1] == s
  {
    "\"" + s + "\""
  }

  /** The version query for an installation path (the same on every
      platform). */
  function VersionCommand(path: string): string
  {
    Quote(path) + " --version"
  }

  /** A run that printed something mentioning LibreOffice. */
  predicate Identifies(r: ExecResult)
  {
    r.Output? && Contains(r.stdout, "LibreOffice")
  }

  /** What detection records for an accepted run of `path`. */
  function Found(path: string, r: ExecResult): (info: Info)
    requires r.Output?
    ensures info.available && info.path == path
  {
    Info(path, Some(Trim(r.stdout)), true)
  }

  /** A candidate that detection accepts: it exists and its version query
      identifies LibreOffice. */
  predicate Usable(path: string, existing: set<string>, run: string -> ExecResult)
  {
    path in existing && Identifies(run(VersionCommand(path)))
  }

  /** The loop over the candidate paths: the first usable one wins;
      missing paths are not run, and runs that throw or print something
      else are skipped. */
  function Search(paths: seq<string>, existing: set<string>, run: string -> ExecResult): (r: Info)
    ensures !r.available ==> r == NotFound
    ensures r.available ==> r.path in paths && Usable(r.path, existing, run)
                            && r == Found(r.path, run(VersionCommand(r.path)))
    decreases |paths|
  {
    if paths == [] then NotFound
    else if Usable(paths[0], existing, run) then
      Found(paths[0], run(VersionCommand(paths[0])))
    else Search(paths[1..], existing, run)
  }

  /** `detectLibreOffice`: the search path first, then the platform's
      candidates in order. */
  function Detect(platform: Platform, home: string, existing: set<string>,
                  run: string -> ExecResult): (r: Info)
    ensures Identifies(run(PathProbe)) ==> r == Found("libreoffice", run(PathProbe))
    ensures !Identifies(run(PathProbe)) ==> r == Search(Candidates(platform, home), existing, run)
    ensures r.available ==> r.path != ""
    ensures !r.available ==> r == NotFound
  {
    var first := run(PathProbe);
    if Identifies(first) then Found("libreoffice", first)
    else Search(Candidates(platform, home), existing, run)
  }

  /** `options.timeout || 30000`: an absent or zero timeout is 30 seconds. */
  function Timeout(requested: Option<int>): (ms: int)
    ensures requested.Some? && requested.value != 0 ==> ms == requested.value
    ensures ms == 30000 <==> requested.None? || requested.value in {0, 30000}
  {
    if requested.None? || requested.value == 0 then 30000 else requested.value
  }

  /** The command line `executeLibreOffice` runs. The Windows branch and
      the other branch build the same string. */
  function Command(platform: Platform, path: string, args: seq<string>): (r: string)
    ensures StartsWith(r, Quote(path) + " ")
    ensures r[|path| + 3..] == JoinWith(args, " ")
  {
    if platform == Win32 then Quote(path) + " " + JoinWith(args, " ")
    else Quote(path) + " " + JoinWith(args, " ")
  }

  /** The arguments `convertDocxToPdf` passes, with both paths quoted. */
  function ConvertArgs(inputPath: string, outputDir: string): (r: seq<string>)
    ensures |r| == 6
    ensures r[..4] == ["--headless", "--convert-to", "pdf", "--outdir"]
    ensures r[4] == Quote(outputDir) && r[5] == Quote(inputPath)
  {
    ["--headless", "--convert-to", "pdf", "--outdir", Quote(outputDir), Quote(inputPath)]
  }

  /** The timeout `convertDocxToPdf` asks for. */
  const ConvertTimeout := 30000

  /** `convertDocxToPdf`: the command it runs and its timeout. */
  function ConvertCommand(platform: Platform, path: string, inputPath: string, outputDir: string): (r: (string, int))
    ensures r.0 == Command(platform, path, ConvertArgs(inputPath, outputDir))
    ensures r.1 == 30000
  {
    (Command(platform, path, ConvertArgs(inputPath, outputDir)), Timeout(Some(ConvertTimeout)))
  }

  /* ---------------------------------------------------------------------
     Lemmas
     --------------------------------------------------------------------- */

  /** The search returns the first usable candidate, and fails only when
      none is usable. */
  lemma {:induction false} SearchFirstMatch(paths: seq<string>, existing: set<string>,
                                            run: string -> ExecResult)
    ensures var r := Search(paths, existing, run);
            (!r.available <==> forall k :: 0 <= k < |paths| ==> !Usable(paths[k], existing, run))
            && (r.available ==>
                  exists k :: 0 <= k < |paths| && r.path == paths[k]
                    && Usable(paths[k], existing, run)
                    && forall j :: 0 <= j < k ==> !Usable(paths[j], existing, run))
    decreases |paths|
  {
    if paths != [] && !Usable(paths[0], existing, run) {
      SearchFirstMatch(paths[1..], existing, run);
      var r := Search(paths, existing, run);
      assert forall k :: 1 <= k < |paths| ==> paths[k] == paths[1..][k - 1];
      if r.available {
        var k :| 0 <= k < |paths[1..]| && r.path == paths[1..][k]
                 && Usable(paths[1..][k], existing, run)
                 && forall j :: 0 <= j < k ==> !Usable(paths[1..][j], existing, run);
        assert r.path == paths[k + 1];
        assert forall j :: 0 <= j < k + 1 ==> !Usable(paths[j], existing, run);
      }
    } else if paths != [] {
      var r := Search(paths, existing, run);
      assert r.path == paths[0];
    }
  }

  /** Every successful detection names a path; a failed one is exactly the
      empty record. */
  lemma DetectResultShape(platform: Platform, home: string, existing: set<string>,
                          run: string -> ExecResult)
    ensures var r := Detect(platform, home, existing, run);
            (r.available ==> r.path != "" && r.version.Some?)
            && (!r.available ==> r.path == "" && r.version.None?)
  {
  }

  /** Detection succeeds exactly when the search path or some candidate
      identifies LibreOffice. */
  lemma DetectAvailableIff(platform: Platform, home: string, existing: set<string>,
                           run: string -> ExecResult)
    ensures Detect(platform, home, existing, run).available <==>
              Identifies(run(PathProbe))
              || exists k :: 0 <= k < |Candidates(platform, home)|
                             && Usable(Candidates(platform, home)[k], existing, run)
  {
    SearchFirstMatch(Candidates(platform, home), existing, run);
  }

  /** On a platform without a list only the search path is tried. */
  lemma UnsupportedOnlyTriesPath(home: string, existing: set<string>, run: string -> ExecResult)
    ensures Detect(Unsupported, home, existing, run).available <==> Identifies(run(PathProbe))
    ensures !Identifies(run(PathProbe)) ==> Detect(Unsupported, home, existing, run) == NotFound
  {
  }

  /** Only existing candidates matter: runs of missing paths are never
      consulted. */
  lemma {:induction false} SearchIgnoresMissing(paths: seq<string>, existing: set<string>,
                                                run1: string -> ExecResult, run2: string -> ExecResult)
    requires forall k :: 0 <= k < |paths| && paths[k] in existing ==>
               run1(VersionCommand(paths[k])) == run2(VersionCommand(paths[k]))
    ensures Search(paths, existing, run1) == Search(paths, existing, run2)
    decreases |paths|
  {
    if paths != [] {
      SearchIgnoresMissing(paths[1..], existing, run1, run2);
    }
  }

  /** A path present in the earlier part of the list shadows the rest. */
  lemma {:induction false} SearchConcat(a: seq<string>, b: seq<string>, existing: set<string>,
                                        run: string -> ExecResult)
    ensures Search(a + b, existing, run) ==
              (if Search(a, existing, run).available then Search(a, existing, run)
               else Search(b, existing, run))
    decreases |a|
  {
    if a == [] {
      assert a + b == b;
    } else {
      assert (a + b)[0] == a[0] && (a + b)[1..] == a[1..] + b;
      SearchConcat(a[1..], b, existing, run);
    }
  }

  /** The command reads back: the quoted path, one space, the arguments
      joined by single spaces; the platform makes no difference. */
  lemma CommandLayout(platform: Platform, path: string, args: seq<string>)
    ensures Command(platform, path, args) == Command(Linux, path, args)
    ensures Command(platform, path, args)[..|path| + 2] == Quote(path)
    ensures Command(platform, path, args)[|path| + 2] == ' '
  {
  }
}

=== FILE: paths.dfy ===
/**
  POSIX path arithmetic of Node's `path` module, for the absolute paths the
  application builds from the working directory.

  `Join` is the plain concatenation `path.join` performs for a segment that
  needs no normalization; `Normalize` and `Resolve` are the full
  normalizations of `path.normalize` and `path.resolve`, which resolve
  ".", ".." and repeated separators. The lemmas at the end say when the two
  agree.
 */
module Paths {
  import opened Strings

  /** `path.join(dir, name)` for a name free of "/", "." and "..". */
  function Join(dir: string, name: string): (r: string)
    ensures StartsWith(r, dir) && EndsWith(r, name)
    ensures |r| == |dir| + |name| + 1 && r[|dir|] == '/'
  {
    dir + "/" + name
  }

  /** Different names in one directory give different paths. */
  lemma JoinInjective(dir: string, x: string, y: string)
    requires Join(dir, x) == Join(dir, y)
    ensures x == y
  {
    assert x == Join(dir, x)[|dir| + 1..];
    assert y == Join(dir, y)[|dir| + 1..];
  }

  /** A segment normalization keeps unchanged. */
  predicate IsPlainSegment(seg: string)
  {
    seg != "" && seg != "." && seg != ".." && '/' !in seg
  }

  lemma PlainNotAbsolute(seg: string)
    requires IsPlainSegment(seg)
    ensures !StartsWith(seg, "/")
  {
    assert seg[0] in seg;
    assert seg[..1] == [seg[0]];
  }

  predicate AllPlain(segs: seq<string>)
  {
    forall k :: 0 <= k < |segs| ==> IsPlainSegment(segs[k])
  }

  /** The absolute path whose segments are `segs`. */
  function Rooted(segs: seq<string>): (r: string)
    ensures StartsWith(r, "/")
  {
    "/" + JoinWith(segs, "/")
  }

  /** One step of normalization: empty and "." segments vanish, ".." removes
      the previous segment (and stays at the root), others are kept. */
  function Step(stack: seq<string>, seg: string): seq<string>
  {
    if seg == "" || seg == "." then stack
    else if seg == ".." then (if |stack| > 0 then stack[..|stack| - 1] else stack)
    else stack + [seg]
  }

  function ResolveSegments(stack: seq<string>, segs: seq<string>): seq<string>
    decreases |segs|
  {
    if segs == [] then stack else ResolveSegments(Step(stack, segs[0]), segs[1..])
  }

  /** `path.resolve` of an absolute path: segments resolved, no trailing
      separator. */
  function Resolve(p: string): (r: string)
  {
    Rooted(ResolveSegments([], Split(p, '/')))
  }

  /** `path.normalize` of an absolute path: as `Resolve`, but a trailing
      separator survives unless the result is the root. */
  function Normalize(p: string): (r: string)
  {
    var q := Resolve(p);
    if EndsWith(p, "/") && q != "/" then q + "/" else q
  }

  /** `path.join(dir, name)` in full: an empty name is skipped, then the
      result is normalized. */
  function JoinNormalized(dir: string, name: string): string
  {
    Normalize(if name == "" then dir else Join(dir, name))
  }

  /* ---------------------------------------------------------------------
     Lemmas
     --------------------------------------------------------------------- */

  lemma {:induction false} ResolveSegmentsConcat(stack: seq<string>, a: seq<string>, b: seq<string>)
    ensures ResolveSegments(stack, a + b) == ResolveSegments(ResolveSegments(stack, a), b)
    decreases |a|
  {
    if a != [] {
      assert (a + b)[0] == a[0] && (a + b)[1..] == a[1..] + b;
      ResolveSegmentsConcat(Step(stack, a[0]), a[1..], b);
    } else {
      assert a + b == b;
    }
  }

  /** Plain segments are pushed as they are. */
  lemma {:induction false} ResolvePlainSegments(stack: seq<string>, segs: seq<string>)
    requires AllPlain(segs)
    ensures ResolveSegments(stack, segs) == stack + segs
    decreases |segs|
  {
    if segs != [] {
      ResolvePlainSegments(stack + [segs[0]], segs[1..]);
      assert stack + [segs[0]] + segs[1..] == stack + segs;
    }
  }

  /** Resolution only ever produces plain segments. */
  lemma {:induction false} ResolveSegmentsPlain(stack: seq<string>, segs: seq<string>)
    requires AllPlain(stack)
    requires forall k :: 0 <= k < |segs| ==> '/' !in segs[k]
    ensures AllPlain(ResolveSegments(stack, segs))
    decreases |segs|
  {
    if segs != [] {
      ResolveSegmentsPlain(Step(stack, segs[0]), segs[1..]);
    }
  }

  /** Every resolved path is the rooted form of plain segments. */
  lemma ResolveIsRooted(p: string)
    ensures exists segs :: AllPlain(segs) && Resolve(p) == Rooted(segs)
  {
    var segs := ResolveSegments([], Split(p, '/'));
    ResolveSegmentsPlain([], Split(p, '/'));
    assert Resolve(p) == Rooted(segs);
  }

  lemma JoinWithAppend(segs: seq<string>, last: string, sep: string)
    requires |segs| >= 1
    ensures JoinWith(segs + [last], sep) == JoinWith(segs, sep) + sep + last
    decreases |segs|
  {
    if |segs| > 1 {
      assert (segs + [last])[1..] == segs[1..] + [last];
      JoinWithAppend(segs[1..], last, sep);
    }
  }

  /** The segments of a rooted path, as `split("/")` sees them. */
  lemma SplitRooted(segs: seq<string>)
    requires AllPlain(segs)
    ensures Split(Rooted(segs), '/') == [""] + (if segs == [] then [""] else segs)
  {
    assert Rooted(segs) == [] + ['/'] + JoinWith(segs, "/");
    SplitConcat([], '/', JoinWith(segs, "/"));
    if segs != [] {
      SplitJoin(segs, '/');
    }
  }

  /** A rooted path of plain segments is already resolved. */
  lemma ResolveRooted(segs: seq<string>)
    requires AllPlain(segs)
    ensures Resolve(Rooted(segs)) == Rooted(segs)
  {
    SplitRooted(segs);
    var parts := [""] + (if segs == [] then [""] else segs);
    if segs == [] {
      assert parts == ["", ""] && parts[1..] == [""] && parts[1..][1..] == [];
      assert ResolveSegments([], parts) == ResolveSegments([], parts[1..]);
      assert ResolveSegments([], parts[1..]) == ResolveSegments([], []);
    } else {
      ResolvePlainSegments([], segs);
      assert Step([], "") == [] && [] + segs == segs;
      assert parts[0] == "" && parts[1..] == segs;
      assert ResolveSegments([], parts) == ResolveSegments(Step([], ""), segs);
      assert Split(Rooted(segs), '/') == parts;
      assert Resolve(Rooted(segs)) == Rooted(ResolveSegments([], parts));
    }
  }

  /** The segments `split("/")` finds in a plain segment joined onto a
      rooted path. */
  lemma SplitJoinRooted(segs: seq<string>, name: string)
    requires AllPlain(segs) && IsPlainSegment(name)
    ensures Split(Join(Rooted(segs), name), '/')
            == [""] + (if segs == [] then [""] else segs) + [name]
  {
    assert Join(Rooted(segs), name) == Rooted(segs) + ['/'] + name;
    SplitConcat(Rooted(segs), '/', name);
    SplitRooted(segs);
    SplitNoSeparator(name, '/');
  }

  lemma ResolveJoinRooted(segs: seq<string>, name: string)
    requires AllPlain(segs) && IsPlainSegment(name)
    ensures Resolve(Join(Rooted(segs), name)) == Rooted(segs + [name])
  {
    SplitJoinRooted(segs, name);
    var parts := [""] + (if segs == [] then [""] else segs) + [name];
    if segs == [] {
      assert parts == ["", "", name] && parts[1..] == ["", name] && parts[1..][1..] == [name];
      assert ResolveSegments([], parts) == ResolveSegments([], parts[1..]);
      assert ResolveSegments([], parts[1..]) == ResolveSegments([], [name]);
      assert [name][1..] == [];
      assert ResolveSegments([], [name]) == ResolveSegments([name], []);
      assert JoinWith([name], "/") == name;
    } else {
      assert parts == [""] + (segs + [name]);
      assert parts[0] == "" && parts[1..] == segs + [name];
      assert ResolveSegments([], parts) == ResolveSegments(Step([], ""), segs + [name]);
      ResolvePlainSegments([], segs + [name]);
      assert Step([], "") == [] && [] + (segs + [name]) == segs + [name];
    }
  }

  /** Joining a plain segment onto a rooted path of plain segments needs no
      normalization: `path.join` is the concatenation `Join` there. */
  lemma NormalizeJoinPlain(segs: seq<string>, name: string)
    requires AllPlain(segs) && IsPlainSegment(name)
    ensures Normalize(Join(Rooted(segs), name)) == Rooted(segs + [name])
    ensures segs != [] ==> Join(Rooted(segs), name) == Rooted(segs + [name])
  {
    var p := Join(Rooted(segs), name);
    ResolveJoinRooted(segs, name);
    assert !EndsWith(p, "/") by {
      assert p[|p| - 1] == name[|name| - 1];
      assert name[|name| - 1] in name;
    }
    if segs != [] {
      JoinWithAppend(segs, name, "/");
    }
  }

  /** A "./" in front of a relative path changes nothing after resolution. */
  lemma {:induction false} ResolveDotPrefix(dir: string, rel: string)
    ensures Resolve(Join(dir, "./" + rel)) == Resolve(Join(dir, rel))
  {
    assert Join(dir, "./" + rel) == dir + ['/'] + ("." + ['/'] + rel);
    assert Join(dir, rel) == dir + ['/'] + rel;
    SplitConcat(dir, '/', "." + ['/'] + rel);
    SplitConcat(".", '/', rel);
    SplitConcat(dir, '/', rel);
    SplitNoSeparator(".", '/');
    var a := Split(dir, '/');
    var b := Split(rel, '/');
    assert Split(Join(dir, "./" + rel), '/') == a + (["."] + b);
    ResolveSegmentsConcat([], a, ["."] + b);
    ResolveSegmentsConcat([], a, b);
  }
}

=== FILE: process_docx.dfy ===
/**
  The DOCX reading route (`app/api/process-docx/route.ts`): its request
  checks and the tail of `htmlToMarkdown`, which removes the remaining
  tags, decodes six entities, collapses blank lines and trims. Mammoth and
  the heading, emphasis, list, link and table rewrites before the tail are
  oracles; the filesystem is the set of existing paths.
 */
module ProcessDocx {
  import opened Common
  import opened Strings
  import opened Paths
  import ConvertToPdf

  /* ---------------------------------------------------------------------
     Removing tags: `.replace(/<[^>]*>/g, "")`
     --------------------------------------------------------------------- */

  /** What follows the first `c` in `s`. */
  function AfterFirst(s: string, c: char): (r: string)
    requires c in s
    ensures |r| < |s| && r == s[|s| - |r|..]
    ensures s[|s| - |r| - 1] == c && c !in s[..|s| - |r| - 1]
    decreases |s|
  {
    if s[0] == c then s[1..] else AfterFirst(s[1..], c)
  }

  /** No "<" is followed, anywhere later, by a ">": no tag is left. */
  predicate NoTag(s: string)
  {
    forall i, j :: 0 <= i < j < |s| && s[i] == '<' ==> s[j] != '>'
  }

  /** Every "<" up to the next ">" is removed; a "<" with no ">" after it is
      kept, as the regex finds no match there. */
  function StripTags(s: string): (r: string)
    ensures NoTag(r)
    ensures forall k :: 0 <= k < |r| ==> r[k] in s
    decreases |s|
  {
    if s == [] then []
    else if s[0] == '<' && '>' in s[1..] then
      var rest := AfterFirst(s[1..], '>');
      assert forall k :: 0 <= k < |rest| ==> rest[k] in s by {
        assert forall k :: 0 <= k < |rest| ==> rest[k] == s[|s| - |rest| + k];
      }
      StripTags(rest)
    else
      var tail := StripTags(s[1..]);
      assert forall k :: 0 <= k < |tail| ==> tail[k] in s by {
        assert forall x :: x in s[1..] ==> x in s;
      }
      [s[0]] + tail
  }

  /** Text without a tag is kept as it is. */
  lemma {:induction false} StripTagsOfTagless(s: string)
    requires NoTag(s)
    ensures StripTags(s) == s
    decreases |s|
  {
    if s != [] {
      if s[0] == '<' {
        assert '>' !in s[1..] by {
          assert forall j :: 1 <= j < |s| ==> s[j] != '>';
        }
      }
      assert NoTag(s[1..]) by {
        forall i, j | 0 <= i < j < |s[1..]| && s[1..][i] == '<'
          ensures s[1..][j] != '>'
        {
          assert s[i + 1] == '<';
        }
      }
      StripTagsOfTagless(s[1..]);
    }
  }

  /** Removing tags twice is removing them once. */
  lemma StripTagsIdempotent(s: string)
    ensures StripTags(StripTags(s)) == StripTags(s)
  {
    StripTagsOfTagless(StripTags(s));
  }

  /* ---------------------------------------------------------------------
     Decoding entities, in the order the source applies them
     --------------------------------------------------------------------- */

  function DecodeEntities(s: string): (r: string)
    ensures |r| <= |s|
  {
    var nbsp := ReplaceAll(s, "&nbsp;", " ");
    var amp := ReplaceAll(nbsp, "&amp;", "&");
    var lt := ReplaceAll(amp, "&lt;", "<");
    var gt := ReplaceAll(lt, "&gt;", ">");
    var quot := ReplaceAll(gt, "&quot;", "\"");
    ReplaceAll(quot, "&#39;", "'")
  }

  /** Text without "&" is not changed by decoding. */
  lemma DecodeWithoutAmpersand(s: string)
    requires '&' !in s
    ensures DecodeEntities(s) == s
  {
    NotContainsFirstChar(s, "&nbsp;");
    ReplaceAllAbsent(s, "&nbsp;", " ");
    NotContainsFirstChar(s, "&amp;");
    ReplaceAllAbsent(s, "&amp;", "&");
    NotContainsFirstChar(s, "&lt;");
    ReplaceAllAbsent(s, "&lt;", "<");
    NotContainsFirstChar(s, "&gt;");
    ReplaceAllAbsent(s, "&gt;", ">");
    NotContainsFirstChar(s, "&quot;");
    ReplaceAllAbsent(s, "&quot;", "\"");
    NotContainsFirstChar(s, "&#39;");
    ReplaceAllAbsent(s, "&#39;", "'");
  }

  /* ---------------------------------------------------------------------
     Collapsing blank lines: `.replace(/\n\s*\n\s*\n/g, "\n\n")`
     --------------------------------------------------------------------- */

  /** Where the regex's match at a line feed ends: just after the last line
      feed of the white-space run at the start of `s`, or 0 when the run
      holds none. White space after that line feed is not part of the
      match, because the pattern ends with `\n`. */
  function ThroughLastNewline(s: string): (n: nat)
    ensures n <= |s|
    ensures forall k :: 0 <= k < n ==> IsSpace(s[k])
    ensures n > 0 ==> s[n - 1] == '\n'
    ensures LeadNewlines(s) <= n
    ensures LeadNewlines(s[n..]) == 0
    decreases |s|
  {
    if s != [] && IsSpace(s[0]) then
      var m := ThroughLastNewline(s[1..]);
      assert s[1..][0..] == s[1..];
      assert s[1 + m..] == s[1..][m..];
      if m > 0 then 1 + m
      else if s[0] == '\n' then 1
      else 0
    else
      assert s[0..] == s;
      0
  }

  /** How many line feeds the white-space run at the start of `s` holds. */
  function LeadNewlines(s: string): nat
    decreases |s|
  {
    if s != [] && IsSpace(s[0]) then (if s[0] == '\n' then 1 else 0) + LeadNewlines(s[1..]) else 0
  }

  /** No white-space run holds three line feeds: the regex finds no match. */
  predicate Clean(s: string)
  {
    forall i :: 0 <= i < |s| ==> LeadNewlines(s[i..]) < 3
  }

  /** A match starts at a line feed whose run holds at least three line
      feeds and ends just after the run's last line feed; it becomes one
      blank line, and the white space after it is kept. */
  function Collapse(s: string): (r: string)
    ensures |r| <= |s|
    decreases |s|
  {
    if s == [] then []
    else if s[0] == '\n' && LeadNewlines(s) >= 3 then "\n\n" + Collapse(s[ThroughLastNewline(s)..])
    else [s[0]] + Collapse(s[1..])
  }

  // The examples below take their literal text as a parameter fixed by a
  // `requires`: Dafny unfolds functions applied to literal strings without
  // bound, and the parameter keeps each proof to the steps it names.
  /** The match takes the line feeds but not the space that follows the
      last of them. */
  lemma CollapseKeepsTrailingSpace(s: string)
    requires s == "a\n\n\n b"
    ensures Collapse(s) == "a\n\n b"
  {
    var t := s[1..];
    var t1, t2, t3, t4 := t[1..], t[2..], t[3..], t[4..];
    assert t == "\n\n\n b" && t1 == "\n\n b" && t2 == "\n b" && t3 == " b" && t4 == "b";
    assert t[1..] == t1 && t1[1..] == t2 && t2[1..] == t3 && t3[1..] == t4 && t4[1..] == [];
    assert IsSpace('\n') && IsSpace(' ') && !IsSpace('b');
    assert LeadNewlines(t4) == 0;
    assert LeadNewlines(t3) == 0;
    assert LeadNewlines(t2) == 1;
    assert LeadNewlines(t1) == 2;
    assert LeadNewlines(t) == 3;
    assert ThroughLastNewline(t4) == 0;
    assert ThroughLastNewline(t3) == 0;
    assert ThroughLastNewline(t2) == 1;
    assert ThroughLastNewline(t1) == 2;
    assert ThroughLastNewline(t) == 3;
    assert Collapse(t4) == "b";
    assert Collapse(t3) == " b";
    assert Collapse(t) == "\n\n b";
  }

  /** The run at the start of a collapsed text holds at most as many line
      feeds as before, and never more than two. */
  lemma {:induction false} CollapseLead(s: string)
    ensures LeadNewlines(Collapse(s)) <= LeadNewlines(s)
    ensures LeadNewlines(Collapse(s)) <= 2
    decreases |s|
  {
    if s == [] {
    } else if s[0] == '\n' && LeadNewlines(s) >= 3 {
      var t := s[ThroughLastNewline(s)..];
      var c := Collapse(t);
      CollapseLead(t);
      var r := "\n\n" + c;
      assert r[1..] == "\n" + c && r[1..][1..] == c;
      assert LeadNewlines(c) == 0;
    } else {
      CollapseLead(s[1..]);
      var r := [s[0]] + Collapse(s[1..]);
      assert r[1..] == Collapse(s[1..]);
    }
  }

  /** Collapsing leaves no run of three line feeds. */
  lemma {:induction false} CollapseIsClean(s: string)
    ensures Clean(Collapse(s))
    decreases |s|
  {
    if s == [] {
    } else if s[0] == '\n' && LeadNewlines(s) >= 3 {
      var t := s[ThroughLastNewline(s)..];
      var c := Collapse(t);
      CollapseIsClean(t);
      CollapseLead(t);
      var n := ['\n'] + c;
      assert n[1..] == c;
      ConsClean('\n', c);
      assert ['\n'] + n == "\n\n" + c && (['\n'] + n)[1..] == n;
      ConsClean('\n', n);
    } else {
      var c := Collapse(s[1..]);
      CollapseIsClean(s[1..]);
      CollapseLead(s[1..]);
      assert ([s[0]] + c)[1..] == c;
      ConsClean(s[0], c);
    }
  }

  /** One more character in front of clean text keeps it clean when the
      run it starts holds fewer than three line feeds. */
  lemma ConsClean(x: char, c: string)
    requires Clean(c) && LeadNewlines([x] + c) < 3
    ensures Clean([x] + c)
  {
    var r := [x] + c;
    forall i | 0 <= i < |r|
      ensures LeadNewlines(r[i..]) < 3
    {
      if i == 0 {
        assert r[0..] == r;
      } else {
        assert r[i..] == c[i - 1..];
      }
    }
  }

  /** Clean text is not changed. */
  lemma {:induction false} CollapseOfClean(s: string)
    requires Clean(s)
    ensures Collapse(s) == s
    decreases |s|
  {
    if s != [] {
      assert s[0..] == s;
      assert Clean(s[1..]) by {
        forall i | 0 <= i < |s[1..]|
          ensures LeadNewlines(s[1..][i..]) < 3
        {
          assert s[1..][i..] == s[i + 1..];
        }
      }
      CollapseOfClean(s[1..]);
    }
  }

  /** Collapsing twice is collapsing once. */
  lemma CollapseIdempotent(s: string)
    ensures Collapse(Collapse(s)) == Collapse(s)
  {
    CollapseIsClean(s);
    CollapseOfClean(Collapse(s));
  }

  /* ---------------------------------------------------------------------
     The tail of htmlToMarkdown
     --------------------------------------------------------------------- */

  /** A prefix's leading run holds no more line feeds than the whole. */
  lemma {:induction false} LeadNewlinesPrefix(s: string, n: nat)
    requires n <= |s|
    ensures LeadNewlines(s[..n]) <= LeadNewlines(s)
    decreases n
  {
    if n > 0 {
      assert s[..n][1..] == s[1..][..n - 1];
      LeadNewlinesPrefix(s[1..], n - 1);
    }
  }

  /** A piece cut out of clean text is clean. */
  lemma CleanSlice(s: string, a: nat, b: nat)
    requires Clean(s) && a <= b <= |s|
    ensures Clean(s[a..b])
  {
    var t := s[a..b];
    forall i | 0 <= i < |t|
      ensures LeadNewlines(t[i..]) < 3
    {
      assert t[i..] == s[a + i..][..b - a - i];
      LeadNewlinesPrefix(s[a + i..], b - a - i);
    }
  }

  /** `.replace(/^\s+|\s+$/g, "")` followed by `.trim()` after the earlier
      steps: the text without its tags, decoded, collapsed, and trimmed. */
  function Tail(html: string): (r: string)
    ensures r == [] || (!IsSpace(r[0]) && !IsSpace(r[|r| - 1]))
    ensures Clean(r)
  {
    var collapsed := Collapse(DecodeEntities(StripTags(html)));
    CollapseIsClean(DecodeEntities(StripTags(html)));
    TrimKeepsClean(collapsed);
    Trim(Trim(collapsed))
  }

  /** Trimming clean text keeps it clean and leaves no space at either
      end. */
  lemma TrimKeepsClean(s: string)
    requires Clean(s)
    ensures var r := Trim(Trim(s));
            (r == [] || (!IsSpace(r[0]) && !IsSpace(r[|r| - 1]))) && Clean(r)
  {
    var t := TrimStart(s);
    CleanSlice(s, |s| - |t|, |s|);
    var trimmed := TrimEnd(t);
    CleanSlice(t, 0, |trimmed|);
    TrimIdempotent(s);
  }

  /** Plain text that is already tag-free, free of entities, clean and
      trimmed comes out of the tail unchanged. */
  lemma TailOfPlainText(t: string)
    requires NoTag(t) && '&' !in t && Clean(t)
    requires t == [] || (!IsSpace(t[0]) && !IsSpace(t[|t| - 1]))
    ensures Tail(t) == t
  {
    StripTagsOfTagless(t);
    DecodeWithoutAmpersand(t);
    CollapseOfClean(t);
    TrimStartOfTrimmed(t);
    TrimEndOfTrimmed(t);
  }

  /** The final `.trim()` changes nothing: the regex already trimmed. */
  lemma TailIsTrimmed(html: string)
    ensures Trim(Tail(html)) == Tail(html)
  {
    TrimStartOfTrimmed(Tail(html));
    TrimEndOfTrimmed(Tail(html));
  }

  /** Tags are removed before entities are decoded, so an escaped tag
      survives as the text of a tag. */
  lemma EscapedTagKept(s: string)
    requires s == "&lt;b&gt;"
    ensures StripTags(s) == s
  {
    assert '<' !in s by {
      assert forall k :: 0 <= k < |s| ==> s[k] != '<';
    }
    StripTagsOfTagless(s);
  }

  /** The first two decoding steps leave an escaped tag alone. */
  lemma EscapedTagNoNbspAmp(s: string)
    requires s == "&lt;b&gt;"
    ensures ReplaceAll(ReplaceAll(s, "&nbsp;", " "), "&amp;", "&") == s
  {
    assert 'n' !in s && 'a' !in s by {
      assert forall k :: 0 <= k < |s| ==> s[k] in {'&', 'l', 't', ';', 'b', 'g'};
    }
    NotContainsChar(s, "&nbsp;", 1);
    ReplaceAllAbsent(s, "&nbsp;", " ");
    NotContainsChar(s, "&amp;", 1);
    ReplaceAllAbsent(s, "&amp;", "&");
  }

  /** The "&lt;" and "&gt;" steps turn it into the text of a tag. */
  lemma EscapedTagLtGt(s: string)
    requires s == "&lt;b&gt;"
    ensures ReplaceAll(ReplaceAll(s, "&lt;", "<"), "&gt;", ">") == "<b>"
  {
    EscapedLt(s);
    EscapedGt("<b&gt;");
  }

  lemma EscapedLt(s: string)
    requires s == "&lt;b&gt;"
    ensures ReplaceAll(s, "&lt;", "<") == "<b&gt;"
  {
    var tail := "b&gt;";
    assert s == "&lt;" + tail;
    ReplaceAllAtMatch("&lt;", tail, "<");
    NotContainsChar(tail, "&lt;", 1);
    ReplaceAllAbsent(tail, "&lt;", "<");
  }

  lemma EscapedGt(t: string)
    requires t == "<b&gt;"
    ensures ReplaceAll(t, "&gt;", ">") == "<b>"
  {
    var tail := "b&gt;";
    assert t == ['<'] + tail && t[0] != "&gt;"[0];
    ReplaceAllSkip('<', tail, "&gt;", ">");
    assert tail == ['b'] + "&gt;" && tail[0] != "&gt;"[0];
    ReplaceAllSkip('b', "&gt;", "&gt;", ">");
    ReplaceAllAtMatch("&gt;", "", ">");
  }

  /** The last two steps leave the tag's text alone. */
  lemma TagTextNoQuotApos(g: string)
    requires g == "<b>"
    ensures ReplaceAll(ReplaceAll(g, "&quot;", "\""), "&#39;", "'") == g
  {
    assert 'q' !in g && '#' !in g;
    NotContainsChar(g, "&quot;", 1);
    ReplaceAllAbsent(g, "&quot;", "\"");
    NotContainsChar(g, "&#39;", 1);
    ReplaceAllAbsent(g, "&#39;", "'");
  }

  /** ... and decoding then turns it into a tag's text. */
  lemma EscapedTagDecoded(s: string)
    requires s == "&lt;b&gt;"
    ensures DecodeEntities(s) == "<b>"
  {
    EscapedTagNoNbspAmp(s);
    EscapedTagLtGt(s);
    TagTextNoQuotApos("<b>");
  }

  /** "&amp;" is decoded before "&lt;", so "&amp;lt;" is decoded twice. */
  lemma DoubleDecoding(s: string)
    requires s == "&amp;lt;"
    ensures DecodeEntities(s) == "<"
  {
    assert 'n' !in s by {
      assert forall k :: 0 <= k < |s| ==> s[k] != 'n';
    }
    NotContainsChar(s, "&nbsp;", 1);
    ReplaceAllAbsent(s, "&nbsp;", " ");
    assert s == "&amp;" + "lt;";
    ReplaceAllAtMatch("&amp;", "lt;", "&");
    NotContainsChar("lt;", "&amp;", 0);
    ReplaceAllAbsent("lt;", "&amp;", "&");
    assert "&" + "lt;" == "&lt;" + "";
    ReplaceAllAtMatch("&lt;", "", "<");
    NotContainsChar("<", "&gt;", 0);
    ReplaceAllAbsent("<", "&gt;", ">");
    NotContainsChar("<", "&quot;", 0);
    ReplaceAllAbsent("<", "&quot;", "\"");
    NotContainsChar("<", "&#39;", 0);
    ReplaceAllAbsent("<", "&#39;", "'");
  }

  /* ---------------------------------------------------------------------
     The route
     --------------------------------------------------------------------- */

  /** The body: not JSON, or an object with or without `filePath`. */
  datatype ProcessRequest = Malformed | Body(filePath: Option<string>)

  /** What mammoth did with the file: it threw, or it produced HTML and
      its messages. */
  datatype MammothResult = MammothThrew | Html(value: string, messages: seq<string>)

  datatype ProcessEnv = ProcessEnv(
    cwd: string,
    mammoth: string -> MammothResult,
    heads: string -> string
  )

  const PathRequired := "File path is required"
  const FileNotFound := "File not found"
  const ProcessFailed := "Error processing DOCX file"
  const Processed := ""

  /** The file the route reads. */
  function FullPath(cwd: string, filePath: string): string
  {
    JoinNormalized(ConvertToPdf.GeneratedSowsDir(cwd), filePath)
  }

  /** `htmlToMarkdown`: the rewrites of lines 56 to 99 (the `heads`
      oracle), then the modelled tail. */
  function HtmlToMarkdown(html: string, heads: string -> string): (r: string)
    ensures Clean(r) && Trim(r) == r
  {
    TailIsTrimmed(heads(html));
    Tail(heads(html))
  }

  /** `POST`: the Markdown and mammoth's messages. */
  function Handle(request: ProcessRequest, existing: set<string>, env: ProcessEnv)
    : (r: Response<(string, seq<string>)>)
    ensures r.Status() == 400 <==> request.Body? && !Truthy(request.filePath)
    ensures r.Status() == 404 <==>
              request.Body? && Truthy(request.filePath) && FullPath(env.cwd, request.filePath.value) !in existing
    ensures r.Status() == 500 <==>
              request.Malformed?
              || (request.Body? && Truthy(request.filePath)
                  && FullPath(env.cwd, request.filePath.value) in existing
                  && env.mammoth(FullPath(env.cwd, request.filePath.value)).MammothThrew?)
    ensures r.Ok? <==>
              request.Body? && Truthy(request.filePath)
              && FullPath(env.cwd, request.filePath.value) in existing
              && env.mammoth(FullPath(env.cwd, request.filePath.value)).Html?
    ensures r.Ok? ==>
              var h := env.mammoth(FullPath(env.cwd, request.filePath.value));
              r.payload == (HtmlToMarkdown(h.value, env.heads), h.messages)
              && Clean(r.payload.0) && Trim(r.payload.0) == r.payload.0
    ensures r.Fail? ==> r.Status() in {400, 404, 500}
  {
    match request
    case Malformed => Fail(500, ProcessFailed)
    case Body(filePath) =>
      if !Truthy(filePath) then Fail(400, PathRequired)
      else
        var full := FullPath(env.cwd, filePath.value);
        if full !in existing then Fail(404, FileNotFound)
        else
          match env.mammoth(full)
          case MammothThrew => Fail(500, ProcessFailed)
          case Html(value, messages) =>
            Ok((HtmlToMarkdown(value, env.heads), messages), Processed)
  }

  /** A missing path is refused before the filesystem is looked at, and an
      absent file before mammoth runs. */
  lemma ChecksInOrder(filePath: Option<string>, existing: set<string>, env: ProcessEnv)
    ensures !Truthy(filePath) ==> Handle(Body(filePath), existing, env) == Fail(400, PathRequired)
    ensures Truthy(filePath) && FullPath(env.cwd, filePath.value) !in existing ==>
              Handle(Body(filePath), existing, env) == Fail(404, FileNotFound)
  {
  }
}

=== FILE: proposals_selection.dfy ===
/**
  The second wizard step (`components/proposals-selection-step.tsx`): the
  list of available documents, selecting and unselecting them, the local
  upload, refreshing the list, and the generation guard and progress
  counter. Timers are replaced by explicit ticks.
 */
module ProposalsSelection {
  import opened Common
  import opened Strings
  import opened Files
  import opened Wizard
  import Upload

  /** The documents listed before anything is uploaded. */
  const InitialDocs: seq<FileData> := [
    FileData("propuesta_comercial.pptx", "/docs/propuesta_comercial.pptx",
      "2.4 MB", "2024-01-15", "presentation")
  ]

  /** The step's own state next to the shared wizard data. */
  datatype StepState = StepState(
    available: seq<FileData>,
    data: WizardData,
    generating: bool,
    progress: int
  )

  /** The state the step is mounted with. */
  function Mount(data: WizardData): StepState
  {
    StepState(InitialDocs, data, false, 0)
  }

  /** Whether a file's checkbox is ticked: some selected entry has its
      path. */
  predicate IsChecked(data: WizardData, path: string)
  {
    exists k :: 0 <= k < |data.selectedFiles| && data.selectedFiles[k].path == path
  }

  /** `filter((f) => f.path !== path)`. */
  function RemovePath(files: seq<FileData>, path: string): (r: seq<FileData>)
    ensures |r| <= |files|
    ensures forall f :: f in r <==> f in files && f.path != path
    decreases |files|
  {
    if files == [] then []
    else (if files[0].path != path then [files[0]] else []) + RemovePath(files[1..], path)
  }

  /** `handleFileSelect`: checking appends the file, without looking for a
      duplicate; unchecking drops every entry with its path. No other field
      changes. */
  function SelectFile(data: WizardData, file: FileData, checked: bool): (r: WizardData)
    ensures checked ==> r.selectedFiles == data.selectedFiles + [file]
    ensures checked ==> |r.selectedFiles| == |data.selectedFiles| + 1
    ensures !checked ==> !IsChecked(r, file.path)
    ensures !checked ==> forall f :: f in r.selectedFiles <==> f in data.selectedFiles && f.path != file.path
    ensures r.(selectedFiles := data.selectedFiles) == data
  {
    if checked then data.(selectedFiles := data.selectedFiles + [file])
    else
      var r := data.(selectedFiles := RemovePath(data.selectedFiles, file.path));
      assert !IsChecked(r, file.path) by {
        forall k | 0 <= k < |r.selectedFiles|
          ensures r.selectedFiles[k].path != file.path
        {
          assert r.selectedFiles[k] in r.selectedFiles;
        }
      }
      r
  }

  /** `getFileType` of this component: unlike the upload route, it files
      PDFs under "document". */
  function FileTypeOf(name: string): (r: string)
    ensures r in {"document", "spreadsheet", "presentation", "file"}
  {
    match Upload.FileExtension(name)
    case "pdf" => "document"
    case "docx" => "document"
    case "doc" => "document"
    case "xlsx" => "spreadsheet"
    case "xls" => "spreadsheet"
    case "pptx" => "presentation"
    case "ppt" => "presentation"
    case _ => "file"
  }

  /** The file the input element hands over. */
  datatype LocalFile = LocalFile(name: string, size: nat)

  /** The record `handleFileUpload` builds for a local file. */
  function UploadedRecord(file: LocalFile, today: string): (r: FileData)
    ensures r.name == file.name && r.path == "/docs/" + file.name
    ensures r.size == SizeLabel(file.size) && r.lastModified == today
  {
    FileData(file.name, "/docs/" + file.name, SizeLabel(file.size), today, FileTypeOf(file.name))
  }

  /** `handleFileUpload`: with no file nothing happens; otherwise the same
      new record ends both the available list and `uploadedFiles`. */
  function UploadLocal(s: StepState, file: Option<LocalFile>, today: string): (r: StepState)
    ensures file.None? ==> r == s
    ensures file.Some? ==>
              r.available == s.available + [UploadedRecord(file.value, today)]
              && r.data.uploadedFiles == s.data.uploadedFiles + [UploadedRecord(file.value, today)]
    ensures r.data.(uploadedFiles := s.data.uploadedFiles) == s.data
    ensures r.generating == s.generating && r.progress == s.progress
  {
    match file
    case None => s
    case Some(f) =>
      var record := UploadedRecord(f, today);
      s.(available := s.available + [record],
         data := s.data.(uploadedFiles := s.data.uploadedFiles + [record]))
  }

  /** `refreshFileList`. */
  function Refresh(s: StepState): (r: StepState)
    ensures r.(available := s.available) == s
  {
    s.(available := InitialDocs + s.data.uploadedFiles)
  }

  /** The available list holds the initial documents followed by every
      upload, in upload order. */
  predicate Consistent(s: StepState)
  {
    s.available == InitialDocs + s.data.uploadedFiles
  }

  /** `handleGenerate`: with nothing selected nothing happens; otherwise
      generation starts from 0. */
  function HandleGenerate(s: StepState): (r: StepState)
    ensures s.data.selectedFiles == [] ==> r == s
    ensures s.data.selectedFiles != [] ==> r.generating && r.progress == 0
    ensures r.data == s.data && r.available == s.available
  {
    if |s.data.selectedFiles| == 0 then s
    else s.(generating := true, progress := 0)
  }

  /** `disabled={selectedFiles.length === 0 || isGenerating}`. */
  predicate GenerateDisabled(s: StepState)
  {
    |s.data.selectedFiles| == 0 || s.generating
  }

  /** The progress updater: 2 more below 100, and 100 (with the wizard moved
      on) at or above it. */
  function ProgressTick(p: int): (r: int)
    ensures p >= 100 ==> r == 100
    ensures p < 100 ==> r == p + 2 && r > p
  {
    if p >= 100 then 100 else p + 2
  }

  /** Whether a tick sees a value that stops the timer and calls `onNext`. */
  predicate Finishes(p: int)
  {
    p >= 100
  }

  /** The progress after `n` ticks. */
  function Ticks(p: int, n: nat): int
    decreases n
  {
    if n == 0 then p else Ticks(ProgressTick(p), n - 1)
  }

  /* ---------------------------------------------------------------------
     Lemmas
     --------------------------------------------------------------------- */

  /** Removing by path distributes over concatenation, so the survivors
      keep their relative order. */
  lemma {:induction false} RemovePathConcat(a: seq<FileData>, b: seq<FileData>, path: string)
    ensures RemovePath(a + b, path) == RemovePath(a, path) + RemovePath(b, path)
    decreases |a|
  {
    if a == [] {
      assert a + b == b;
    } else {
      assert (a + b)[0] == a[0] && (a + b)[1..] == a[1..] + b;
      RemovePathConcat(a[1..], b, path);
    }
  }

  /** Removing twice is removing once. */
  lemma {:induction false} RemovePathIdempotent(files: seq<FileData>, path: string)
    ensures RemovePath(RemovePath(files, path), path) == RemovePath(files, path)
    decreases |files|
  {
    if files != [] {
      var head := if files[0].path != path then [files[0]] else [];
      RemovePathConcat(head, RemovePath(files[1..], path), path);
      RemovePathIdempotent(files[1..], path);
      if files[0].path != path {
        assert head[1..] == [];
      }
    }
  }

  /** Entries with other paths survive untouched. */
  lemma {:induction false} RemovePathKeepsOthers(files: seq<FileData>, path: string)
    requires forall k :: 0 <= k < |files| ==> files[k].path != path
    ensures RemovePath(files, path) == files
    decreases |files|
  {
    if files != [] {
      RemovePathKeepsOthers(files[1..], path);
      assert [files[0]] + files[1..] == files;
    }
  }

  /** Checking and then unchecking a file is the same as only unchecking it:
      the appended entry goes with every other entry of that path. */
  lemma SelectThenUnselect(data: WizardData, file: FileData)
    ensures SelectFile(SelectFile(data, file, true), file, false) == SelectFile(data, file, false)
  {
    RemovePathConcat(data.selectedFiles, [file], file.path);
    assert [file][1..] == [];
  }

  /** Checking a file leaves every other box as it was. */
  lemma CheckKeepsOthers(data: WizardData, file: FileData, other: string)
    requires other != file.path
    ensures IsChecked(SelectFile(data, file, true), other) <==> IsChecked(data, other)
  {
    var r := SelectFile(data, file, true);
    if IsChecked(data, other) {
      var k :| 0 <= k < |data.selectedFiles| && data.selectedFiles[k].path == other;
      assert r.selectedFiles[k].path == other;
    }
    if IsChecked(r, other) {
      var k :| 0 <= k < |r.selectedFiles| && r.selectedFiles[k].path == other;
      assert k < |data.selectedFiles| && data.selectedFiles[k].path == other;
    }
  }

  /** Unchecking a file leaves every other box as it was. */
  lemma UncheckKeepsOthers(data: WizardData, file: FileData, other: string)
    requires other != file.path
    ensures IsChecked(SelectFile(data, file, false), other) <==> IsChecked(data, other)
  {
    var u := SelectFile(data, file, false);
    if IsChecked(data, other) {
      var k :| 0 <= k < |data.selectedFiles| && data.selectedFiles[k].path == other;
      assert data.selectedFiles[k] in u.selectedFiles;
      var j :| 0 <= j < |u.selectedFiles| && u.selectedFiles[j] == data.selectedFiles[k];
      assert u.selectedFiles[j].path == other;
    }
    if IsChecked(u, other) {
      var k :| 0 <= k < |u.selectedFiles| && u.selectedFiles[k].path == other;
      assert u.selectedFiles[k] in data.selectedFiles;
      var j :| 0 <= j < |data.selectedFiles| && data.selectedFiles[j] == u.selectedFiles[k];
      assert data.selectedFiles[j].path == other;
    }
  }

  /** Checking a file ticks its box and leaves every other box as it was. */
  lemma SelectChecks(data: WizardData, file: FileData, other: string)
    ensures IsChecked(SelectFile(data, file, true), file.path)
    ensures other != file.path ==>
              (IsChecked(SelectFile(data, file, true), other) <==> IsChecked(data, other))
    ensures other != file.path ==>
              (IsChecked(SelectFile(data, file, false), other) <==> IsChecked(data, other))
  {
    var r := SelectFile(data, file, true);
    assert r.selectedFiles[|data.selectedFiles|].path == file.path;
    if other != file.path {
      CheckKeepsOthers(data, file, other);
      UncheckKeepsOthers(data, file, other);
    }
  }

  /** The component's file type and the upload route's agree on every name
      except those ending in ".pdf", which the route calls "pdf". */
  lemma ClientAndServerTypes(name: string)
    ensures Upload.FileExtension(name) != "pdf" ==>
              FileTypeOf(name) == Upload.FileType(Upload.FileExtension(name))
    ensures Upload.FileExtension(name) == "pdf" ==>
              FileTypeOf(name) == "document" && Upload.FileType(Upload.FileExtension(name)) == "pdf"
  {
    Upload.FileExtensionIsLower(name);
  }

  /** A freshly mounted step lists only the initial documents, which is
      consistent exactly while nothing has been uploaded; `Refresh` repairs
      it. */
  lemma MountConsistency(data: WizardData)
    ensures Consistent(Mount(data)) <==> data.uploadedFiles == []
    ensures Consistent(Refresh(Mount(data)))
  {
    if data.uploadedFiles == [] {
      assert InitialDocs + data.uploadedFiles == InitialDocs;
    } else {
      assert |InitialDocs + data.uploadedFiles| > |InitialDocs|;
    }
  }

  /** Every handler keeps the available list consistent with the uploads,
      and `Refresh` makes any state consistent and is idempotent. */
  lemma HandlersPreserveConsistency(s: StepState, file: Option<LocalFile>, today: string,
                                    f: FileData, checked: bool, value: string)
    ensures Consistent(Refresh(s)) && Refresh(Refresh(s)) == Refresh(s)
    ensures Consistent(s) ==> Consistent(UploadLocal(s, file, today))
    ensures Consistent(s) ==> Consistent(s.(data := SelectFile(s.data, f, checked)))
    ensures Consistent(s) ==> Consistent(HandleGenerate(s))
  {
    if file.Some? {
      var record := UploadedRecord(file.value, today);
      assert InitialDocs + (s.data.uploadedFiles + [record])
             == (InitialDocs + s.data.uploadedFiles) + [record];
    }
  }

  /** The initial state is consistent. */
  lemma InitialConsistent()
    ensures Consistent(Mount(InitialData))
  {
    assert InitialDocs + [] == InitialDocs;
  }

  /** The Generate button is disabled whenever the guard would do nothing. */
  lemma GenerateGuard(s: StepState)
    ensures s.data.selectedFiles == [] ==> GenerateDisabled(s) && HandleGenerate(s) == s
    ensures !GenerateDisabled(s) ==> HandleGenerate(s).generating
  {
  }

  /** From an even value at most 100, ticks add 2 each and stop at 100. */
  lemma {:induction false} TicksFromEven(p: int, n: nat)
    requires 0 <= p <= 100 && p % 2 == 0
    ensures Ticks(p, n) == if p + 2 * n <= 100 then p + 2 * n else 100
    decreases n
  {
    if n > 0 {
      TicksFromEven(ProgressTick(p), n - 1);
    }
  }

  /** Starting from 0, the first fifty ticks climb to exactly 100 without
      finishing, and the fifty-first finishes and moves the wizard on. */
  lemma ProgressLandsOnHundred()
    ensures forall k: nat :: k < 50 ==> Ticks(0, k) == 2 * k && !Finishes(Ticks(0, k))
    ensures Ticks(0, 50) == 100 && Finishes(Ticks(0, 50))
    ensures forall n: nat :: Ticks(0, n) <= 100
  {
    forall k: nat | k < 50
      ensures Ticks(0, k) == 2 * k
    {
      TicksFromEven(0, k);
    }
    TicksFromEven(0, 50);
    forall n: nat
      ensures Ticks(0, n) <= 100
    {
      TicksFromEven(0, n);
    }
  }
}

=== FILE: sow_report.dfy ===
/**
  The text helpers of the third wizard step (`components/sow-report-step.tsx`):
  the title-cased contract model, the document bullet lists, the footer's
  document count, and the description and pricing tables.
 */
module SowReport {
  import opened Common
  import opened Strings
  import opened Files
  import opened Wizard
  import opened ContractSelection

  /* ---------------------------------------------------------------------
     Contract model label
     --------------------------------------------------------------------- */

  /** `word.charAt(0).toUpperCase() + word.slice(1)`; an empty word stays
      empty. */
  function Capitalize(word: string): (r: string)
    ensures |r| == |word|
    ensures word != [] ==> r[0] == UpperChar(word[0]) && r[1..] == word[1..]
  {
    if word == [] then [] else [UpperChar(word[0])] + word[1..]
  }

  function CapitalizeAll(words: seq<string>): (r: seq<string>)
    ensures |r| == |words|
    ensures forall k :: 0 <= k < |r| ==> r[k] == Capitalize(words[k])
  {
    seq(|words|, k requires 0 <= k < |words| => Capitalize(words[k]))
  }

  const NotSpecified := "Not specified"

  /** The contract model as the report shows it: the id split on "-", each
      word capitalized, joined with " "; no type gives "Not specified". */
  function ContractLabel(contractType: Option<string>): (r: string)
    ensures !Truthy(contractType) ==> r == NotSpecified
  {
    if Truthy(contractType) then
      JoinWith(CapitalizeAll(Split(contractType.value, '-')), " ")
    else NotSpecified
  }

  /** What title-casing puts at position `i` of `s`: a space for a "-", the
      upper-case letter at the start of a word, the character itself
      elsewhere. `atStart` says whether position 0 starts a word. */
  function TitleChar(s: string, i: nat, atStart: bool): char
    requires i < |s|
  {
    if s[i] == '-' then ' '
    else if (if i == 0 then atStart else s[i - 1] == '-') then UpperChar(s[i])
    else s[i]
  }

  /** Title-casing one character at a time: a reference definition. */
  function TitleFrom(s: string, atStart: bool): (r: string)
    ensures |r| == |s|
    ensures forall i :: 0 <= i < |s| ==> r[i] == TitleChar(s, i, atStart)
    decreases |s|
  {
    if s == [] then []
    else
      var c := if s[0] == '-' then ' ' else if atStart then UpperChar(s[0]) else s[0];
      var rest := TitleFrom(s[1..], s[0] == '-');
      var r := [c] + rest;
      assert forall i :: 1 <= i < |s| ==> r[i] == rest[i - 1] && s[1..][i - 1] == s[i];
      r
  }

  /** The words of `parts` joined with " ", the first one capitalized only
      when `capFirst`, all the others capitalized. */
  function Words(parts: seq<string>, capFirst: bool): string
    requires |parts| >= 1
  {
    JoinWith([if capFirst then Capitalize(parts[0]) else parts[0]] + CapitalizeAll(parts[1..]), " ")
  }

  /* ---------------------------------------------------------------------
     Bullet lists and sections
     --------------------------------------------------------------------- */

  /** `- ${file.name}`. */
  function Bullet(file: FileData): string
  {
    "- " + file.name
  }

  function BulletLines(files: seq<FileData>): (r: seq<string>)
    ensures |r| == |files|
    ensures forall k :: 0 <= k < |r| ==> r[k] == Bullet(files[k])
  {
    seq(|files|, k requires 0 <= k < |files| => Bullet(files[k]))
  }

  /** `files.map((file) => `- ${file.name}`).join("\n")`. */
  function Bullets(files: seq<FileData>): string
  {
    JoinWith(BulletLines(files), "\n")
  }

  const UploadedHeader := "\n\n### Newly Uploaded Documents\n"

  /** The section listing the uploads, or nothing when there are none. */
  function UploadedSection(uploaded: seq<FileData>): (r: string)
    ensures r == "" <==> uploaded == []
    ensures uploaded != [] ==> StartsWith(r, UploadedHeader)
  {
    if |uploaded| > 0 then UploadedHeader + Bullets(uploaded) else ""
  }

  /** The reference-documents part of the report: the selected files, then
      the upload section. */
  function ReferenceDocuments(data: WizardData): string
  {
    Bullets(data.selectedFiles) + UploadedSection(data.uploadedFiles)
  }

  const FooterLead := "*This SOW was generated using the EY SOW Creator Wizard based on "

  /** The report's closing line. */
  function Footer(data: WizardData): (r: string)
    ensures StartsWith(r, FooterLead)
  {
    FooterLead + NatToString(|data.selectedFiles|) + " selected document(s) and "
    + ContractLabel(data.selectedContractType) + " contract model.*"
  }

  /* ---------------------------------------------------------------------
     Lemmas
     --------------------------------------------------------------------- */

  /** The word-wise definition and the character-wise one agree. */
  lemma {:induction false} WordsIsTitleFrom(s: string, atStart: bool)
    ensures Words(Split(s, '-'), atStart) == TitleFrom(s, atStart)
    decreases |s|
  {
    var parts := Split(s, '-');
    if s == [] {
      assert parts == [""];
    } else {
      var rest := Split(s[1..], '-');
      WordsIsTitleFrom(s[1..], s[0] == '-');
      if s[0] == '-' {
        assert parts == [""] + rest;
        var first := if atStart then Capitalize("") else "";
        assert first == "";
        var tail := CapitalizeAll(parts[1..]);
        assert parts[1..] == rest;
        assert CapitalizeAll(rest) == [Capitalize(rest[0])] + CapitalizeAll(rest[1..]);
        assert [first] + tail == [""] + ([Capitalize(rest[0])] + CapitalizeAll(rest[1..]));
      } else {
        var word := [s[0]] + rest[0];
        assert parts == [word] + rest[1..];
        var c := if atStart then UpperChar(s[0]) else s[0];
        var first := if atStart then Capitalize(word) else word;
        assert first == [c] + rest[0];
        assert parts[1..] == rest[1..];
        JoinPrependToFirst(c, [rest[0]] + CapitalizeAll(rest[1..]), " ");
        assert ([rest[0]] + CapitalizeAll(rest[1..]))[1..] == CapitalizeAll(rest[1..]);
        assert [first] + CapitalizeAll(parts[1..])
               == [[c] + ([rest[0]] + CapitalizeAll(rest[1..]))[0]]
                  + ([rest[0]] + CapitalizeAll(rest[1..]))[1..];
      }
    }
  }

  /** The label is the id with every "-" turned into a space and the first
      letter of every word upper-cased; nothing else changes, and the
      length is kept. */
  lemma ContractLabelByCharacter(contractType: Option<string>)
    requires Truthy(contractType)
    ensures var t := contractType.value;
            var r := ContractLabel(contractType);
            |r| == |t|
            && (forall i :: 0 <= i < |t| ==> r[i] == TitleChar(t, i, true))
  {
    var t := contractType.value;
    WordsIsTitleFrom(t, true);
    var parts := Split(t, '-');
    assert CapitalizeAll(parts) == [Capitalize(parts[0])] + CapitalizeAll(parts[1..]);
  }

  /** For an id without spaces, the label has one word per "-"-separated
      part of the id, each the capitalized part. */
  lemma ContractLabelWords(contractType: Option<string>)
    requires Truthy(contractType) && ' ' !in contractType.value
    ensures Split(ContractLabel(contractType), ' ') == CapitalizeAll(Split(contractType.value, '-'))
    ensures |Split(ContractLabel(contractType), ' ')| == |Split(contractType.value, '-')|
  {
    var words := CapitalizeAll(Split(contractType.value, '-'));
    forall k | 0 <= k < |words|
      ensures ' ' !in words[k]
    {
      var w := Split(contractType.value, '-')[k];
      assert forall j :: 0 <= j < |w| ==> w[j] in contractType.value by {
        forall j | 0 <= j < |w|
          ensures w[j] in contractType.value
        {
          SplitPieceChars(contractType.value, '-', k, j);
        }
      }
    }
    SplitJoin(words, ' ');
  }

  /** Every character of a piece of a split occurs in the split string. */
  lemma {:induction false} SplitPieceChars(s: string, c: char, k: nat, j: nat)
    requires k < |Split(s, c)| && j < |Split(s, c)[k]|
    ensures Split(s, c)[k][j] in s
    decreases |s|
  {
    if s != [] {
      var rest := Split(s[1..], c);
      if s[0] == c {
        SplitPieceChars(s[1..], c, k - 1, j);
      } else if k == 0 && j == 0 {
      } else if k == 0 {
        SplitPieceChars(s[1..], c, 0, j - 1);
      } else {
        SplitPieceChars(s[1..], c, k, j);
      }
    }
  }

  /** The label of an id given by its "-"-free words. */
  lemma LabelOfWords(id: string, words: seq<string>, caps: seq<string>, text: string)
    requires |words| >= 1 && forall k :: 0 <= k < |words| ==> '-' !in words[k]
    requires id == JoinWith(words, "-") && id != ""
    requires caps == CapitalizeAll(words) && text == JoinWith(caps, " ")
    ensures ContractLabel(Some(id)) == text
  {
    assert "-" == ['-'];
    SplitJoin(words, '-');
    assert Split(id, '-') == words;
    assert Truthy(Some(id));
  }

  /** One "- name" line per file, in order, for names without line
      breaks; no files give the empty text. */
  lemma BulletsAreLines(files: seq<FileData>)
    requires forall k :: 0 <= k < |files| ==> '\n' !in files[k].name
    ensures files == [] ==> Bullets(files) == ""
    ensures files != [] ==> Split(Bullets(files), '\n') == BulletLines(files)
  {
    if files != [] {
      var lines := BulletLines(files);
      forall k | 0 <= k < |lines|
        ensures '\n' !in lines[k]
      {
        assert lines[k] == "- " + files[k].name;
      }
      SplitJoin(lines, '\n');
    }
  }

  /** A line of the bullet list gives back the file's name. */
  lemma BulletNames(files: seq<FileData>, k: nat)
    requires k < |files|
    ensures StartsWith(BulletLines(files)[k], "- ")
    ensures BulletLines(files)[k][2..] == files[k].name
  {
  }

  /** The upload section is the header followed by exactly the bullet
      list of the uploads. */
  lemma UploadedSectionContents(uploaded: seq<FileData>)
    requires uploaded != []
    ensures UploadedSection(uploaded)[|UploadedHeader|..] == Bullets(uploaded)
  {
  }

  /** With no uploads, the reference documents are just the selected
      bullets. */
  lemma ReferenceWithoutUploads(data: WizardData)
    requires data.uploadedFiles == []
    ensures ReferenceDocuments(data) == Bullets(data.selectedFiles)
  {
    assert Bullets(data.selectedFiles) + "" == Bullets(data.selectedFiles);
  }

  /** The number in the footer reads back as the count of selected files,
      and it is followed by a space. */
  lemma FooterCount(data: WizardData)
    ensures var r := Footer(data);
            var n := NatToString(|data.selectedFiles|);
            |FooterLead| + |n| < |r|
            && r[|FooterLead|..|FooterLead| + |n|] == n
            && AllDigits(n)
            && ParseDigits(n) == |data.selectedFiles|
            && r[|FooterLead| + |n|] == ' '
  {
    ParseNatToString(|data.selectedFiles|);
  }
}

/**
  The labels the report shows for the three offered contract models.
 */
module SowReportLabels {
  import opened Common
  import opened Strings
  import opened ContractSelection
  import opened SowReport

  /** Capitalizing a word whose first letter is lower-case ASCII. */
  lemma CapitalizeWord(c: char, rest: string, upper: char)
    requires IsLowerAscii(c) && c as int - upper as int == 32
    ensures Capitalize([c] + rest) == [upper] + rest
  {
    assert ([c] + rest)[1..] == rest;
  }

  /** The words of an id, their capitalized forms, and the label they
      join to. */
  lemma FixedPriceWords()
    ensures JoinWith(["fixed", "price"], "-") == FixedPrice
    ensures CapitalizeAll(["fixed", "price"]) == ["Fixed", "Price"]
    ensures JoinWith(["Fixed", "Price"], " ") == "Fixed Price"
  {
    CapitalizeTwoWords('f', "ixed", 'F', 'p', "rice", 'P');
    assert ['f'] + "ixed" == "fixed" && ['p'] + "rice" == "price";
    assert ['F'] + "ixed" == "Fixed" && ['P'] + "rice" == "Price";
    JoinTwo("fixed", "price", "-");
    JoinTwo("Fixed", "Price", " ");
  }

  /** Capitalizing two words whose first letters are lower-case ASCII. */
  lemma CapitalizeTwoWords(c: char, rest: string, upper: char, d: char, rest2: string, upper2: char)
    requires IsLowerAscii(c) && c as int - upper as int == 32
    requires IsLowerAscii(d) && d as int - upper2 as int == 32
    ensures CapitalizeAll([[c] + rest, [d] + rest2]) == [[upper] + rest, [upper2] + rest2]
  {
    var caps := CapitalizeAll([[c] + rest, [d] + rest2]);
    assert caps[0] == [upper] + rest by { CapitalizeWord(c, rest, upper); }
    assert caps[1] == [upper2] + rest2 by { CapitalizeWord(d, rest2, upper2); }
  }

  lemma JoinTwo(a: string, b: string, sep: string)
    ensures JoinWith([a, b], sep) == a + sep + b
  {
    assert [a, b][1..] == [b];
    assert JoinWith([b], sep) == b;
  }

  lemma TimeAndMaterialsWords()
    ensures JoinWith(["time", "and", "materials"], "-") == TimeAndMaterials
    ensures CapitalizeAll(["time", "and", "materials"]) == ["Time", "And", "Materials"]
    ensures JoinWith(["Time", "And", "Materials"], " ") == "Time And Materials"
  {
    TimeAndMaterialsCaps();
    TimeAndMaterialsJoined();
    TimeAndMaterialsTitle();
  }

  lemma TimeAndMaterialsJoined()
    ensures JoinWith(["time", "and", "materials"], "-") == TimeAndMaterials
  {
    JoinThree("time", "and", "materials", "-");
  }

  lemma TimeAndMaterialsTitle()
    ensures JoinWith(["Time", "And", "Materials"], " ") == "Time And Materials"
  {
    JoinThree("Time", "And", "Materials", " ");
  }

  lemma JoinThree(a: string, b: string, c: string, sep: string)
    ensures JoinWith([a, b, c], sep) == a + sep + b + sep + c
  {
    assert [a, b, c][1..] == [b, c];
    assert [b, c][1..] == [c];
    assert JoinWith([c], sep) == c;
    assert JoinWith([b, c], sep) == b + sep + c;
    assert JoinWith([a, b, c], sep) == a + sep + (b + sep + c);
  }

  lemma TimeAndMaterialsCaps()
    ensures CapitalizeAll(["time", "and", "materials"]) == ["Time", "And", "Materials"]
  {
    var c := CapitalizeAll(["time", "and", "materials"]);
    assert c[0] == "Time" by { CapitalizeWord('t', "ime", 'T'); }
    assert c[1] == "And" by { CapitalizeWord('a', "nd", 'A'); }
    assert c[2] == "Materials" by { CapitalizeWord('m', "aterials", 'M'); }
  }

  lemma StaffAugmentationWords()
    ensures JoinWith(["staff", "augmentation"], "-") == StaffAugmentation
    ensures CapitalizeAll(["staff", "augmentation"]) == ["Staff", "Augmentation"]
    ensures JoinWith(["Staff", "Augmentation"], " ") == "Staff Augmentation"
  {
    CapitalizeTwoWords('s', "taff", 'S', 'a', "ugmentation", 'A');
    assert ['s'] + "taff" == "staff" && ['a'] + "ugmentation" == "augmentation";
    assert ['S'] + "taff" == "Staff" && ['A'] + "ugmentation" == "Augmentation";
    StaffAugmentationJoined();
    StaffAugmentationTitle();
  }

  lemma StaffAugmentationJoined()
    ensures JoinWith(["staff", "augmentation"], "-") == StaffAugmentation
  {
    JoinTwo("staff", "augmentation", "-");
  }

  lemma StaffAugmentationTitle()
    ensures JoinWith(["Staff", "Augmentation"], " ") == "Staff Augmentation"
  {
    JoinTwo("Staff", "Augmentation", " ");
  }

  /** The three offered ids read as the report shows them. Note that the
      report writes "Time And Materials" where the selection step shows
      "Time and Materials". */
  lemma OfferedLabels(id: string)
    ensures id == FixedPrice ==> ContractLabel(Some(id)) == "Fixed Price"
    ensures id == TimeAndMaterials ==> ContractLabel(Some(id)) == "Time And Materials"
    ensures id == StaffAugmentation ==> ContractLabel(Some(id)) == "Staff Augmentation"
  {
    if id == FixedPrice {
      FixedPriceLabel(id);
    } else if id == TimeAndMaterials {
      TimeAndMaterialsLabel(id);
    } else if id == StaffAugmentation {
      StaffAugmentationLabel(id);
    }
  }

  lemma FixedPriceLabel(id: string)
    requires id == FixedPrice
    ensures ContractLabel(Some(id)) == "Fixed Price"
  {
    FixedPriceWords();
    LabelOfWords(id, ["fixed", "price"], ["Fixed", "Price"], "Fixed Price");
  }

  lemma TimeAndMaterialsLabel(id: string)
    requires id == TimeAndMaterials
    ensures ContractLabel(Some(id)) == "Time And Materials"
  {
    TimeAndMaterialsWords();
    LabelOfWords(id, ["time", "and", "materials"], ["Time", "And", "Materials"], "Time And Materials");
  }

  lemma StaffAugmentationLabel(id: string)
    requires id == StaffAugmentation
    ensures ContractLabel(Some(id)) == "Staff Augmentation"
  {
    StaffAugmentationWords();
    LabelOfWords(id, ["staff", "augmentation"], ["Staff", "Augmentation"], "Staff Augmentation");
  }
}

=== FILE: sow_tables.dfy ===
/**
  The fixed texts of the report (`components/sow-report-step.tsx`,
  `getContractDescription` and `getPricingStructure`): one description and
  one pricing text per offered contract model, and a default sentence for
  any other value.
 */
module SowTables {
  import opened Common
  import opened Strings
  import opened ContractSelection

  const DefaultDescription := "Contract model details to be defined."
  const DefaultPricing := "Pricing structure to be determined based on selected contract model."

  /** What every known model's description opens with. */
  const DescriptionLead := "\n**Description:** "

  /** The header line a pricing text opens with for a model name. */
  function PricingHeader(name: string): string
  {
    "\n**" + name + " Model:**\n"
  }

  const FixedPriceText :=
    "Total" + " project cost is determined upfront and remains fixed regardless of actual resources used. This model provides cost certainty and transfers delivery risk to EY.\n\n"
    + "**Benefits:**\n- Predictable budget and costs\n- Clear scope and deliverables\n"
    + "- Risk transfer to service provider\n- Simplified contract management"

  const TimeAndMaterialsText :=
    "Billing" + " is based on actual time spent and materials used during the project. This model provides flexibility for evolving requirements and scope changes.\n\n"
    + "**Benefits:**\n- Flexibility for changing requirements\n- Pay for actual work performed\n"
    + "- Easier scope modifications\n- Transparent cost tracking"

  const StaffAugmentationText :=
    "EY" + " resources are provided at agreed hourly/daily/monthly rates to supplement the client's existing team. This model provides access to specialized skills and expertise.\n\n"
    + "**Benefits:**\n- Access to specialized expertise\n- Scalable resource allocation\n"
    + "- Integration with existing teams\n- Knowledge transfer opportunities"

  const FixedPriceDescription := DescriptionLead + FixedPriceText
  const TimeAndMaterialsDescription := DescriptionLead + TimeAndMaterialsText
  const StaffAugmentationDescription := DescriptionLead + StaffAugmentationText

  /** A pricing text: the model's header, then its terms. */
  function Pricing(name: string, terms: string): (r: string)
    ensures StartsWith(r, PricingHeader(name))
    ensures r[|PricingHeader(name)|..] == terms
  {
    PricingHeader(name) + terms
  }

  const FixedPricePricing := Pricing("Fixed Price",
    "- Total project cost: $XXX,XXX (to be determined based on final scope)\n"
    + "- Payment schedule: 20% upon contract signing, 30% at design completion, 30% at implementation completion, 20% upon final acceptance\n"
    + "- No additional charges for scope within agreed parameters\n"
    + "- Change requests will be handled through formal change control process")

  const TimeAndMaterialsPricing := Pricing("Time and Materials",
    "- Senior Consultant: $XXX per hour\n- Consultant: $XXX per hour\n"
    + "- Junior Consultant: $XXX per hour\n- Project Manager: $XXX per hour\n"
    + "- Materials and expenses at cost plus 10% markup\n- Monthly invoicing based on actual hours worked")

  const StaffAugmentationPricing := Pricing("Staff Augmentation",
    "- Senior Resource: $XXX per day/month\n"
    + "- Mid-level Resource: $XXX per day/month\n- Junior Resource: $XXX per day/month\n"
    + "- Minimum commitment: 3 months\n- 30-day notice for resource changes\n"
    + "- Monthly invoicing in advance")

  /** Whether a value is one of the offered ids. */
  predicate IsOffered(contractType: Option<string>)
  {
    contractType.Some? && contractType.value in {FixedPrice, TimeAndMaterials, StaffAugmentation}
  }

  /** `getContractDescription`: the offered ids get a text opening with the
      description lead; anything else, including none, the default. */
  function ContractDescription(contractType: Option<string>): (r: string)
    ensures IsOffered(contractType) ==> StartsWith(r, DescriptionLead)
    ensures !IsOffered(contractType) ==> r == DefaultDescription
  {
    if contractType == Some(FixedPrice) then FixedPriceDescription
    else if contractType == Some(TimeAndMaterials) then TimeAndMaterialsDescription
    else if contractType == Some(StaffAugmentation) then StaffAugmentationDescription
    else DefaultDescription
  }

  /** `getPricingStructure`: each offered id gets a text opening with the
      name the selection step shows for it; anything else the default. */
  function PricingStructure(contractType: Option<string>): (r: string)
    ensures forall k :: 0 <= k < |ContractTypes| && contractType == Some(ContractTypes[k].id) ==>
              StartsWith(r, PricingHeader(ContractTypes[k].name))
    ensures !IsOffered(contractType) ==> r == DefaultPricing
  {
    if contractType == Some(FixedPrice) then FixedPricePricing
    else if contractType == Some(TimeAndMaterials) then TimeAndMaterialsPricing
    else if contractType == Some(StaffAugmentation) then StaffAugmentationPricing
    else DefaultPricing
  }

  /* ---------------------------------------------------------------------
     Lemmas
     --------------------------------------------------------------------- */

  /** The offered ids are exactly the three fixed strings, so the
      defaults are reached by every other value. */
  lemma OfferedIds(contractType: Option<string>)
    ensures IsOffered(contractType) <==>
              contractType in {Some(FixedPrice), Some(TimeAndMaterials), Some(StaffAugmentation)}
  {
  }

  /** The default sentences are never confused with an offered model's
      text. */
  lemma DefaultsAreDistinct(contractType: Option<string>)
    ensures ContractDescription(contractType) == DefaultDescription <==> !IsOffered(contractType)
  {
    assert DefaultDescription[0] != DescriptionLead[0];
  }

  /** Different offered ids get different pricing texts: the headers name
      different models. */
  lemma PricingDistinguishesIds(a: nat, b: nat)
    requires a < b < |ContractTypes|
    ensures PricingStructure(Some(ContractTypes[a].id)) != PricingStructure(Some(ContractTypes[b].id))
  {
    var x := ContractTypes[a].name;
    var y := ContractTypes[b].name;
    var p := PricingStructure(Some(ContractTypes[a].id));
    var q := PricingStructure(Some(ContractTypes[b].id));
    assert x[0] != y[0];
    HeaderInitial(x, p);
    HeaderInitial(y, q);
  }

  /** A text opening with a model's header shows the model's initial at a
      fixed position. */
  lemma HeaderInitial(name: string, r: string)
    requires name != "" && StartsWith(r, PricingHeader(name))
    ensures |r| > 3 && r[3] == name[0]
  {
    assert r[3] == r[..|PricingHeader(name)|][3];
  }

  /** Different offered ids get different descriptions: they differ in the
      first word after the lead. */
  lemma DescriptionsDistinguishIds(a: nat, b: nat)
    requires a < b < |ContractTypes|
    ensures ContractDescription(Some(ContractTypes[a].id)) != ContractDescription(Some(ContractTypes[b].id))
  {
    var n := |DescriptionLead|;
    assert FixedPriceDescription[n] == FixedPriceText[0] == 'T';
    assert TimeAndMaterialsDescription[n] == TimeAndMaterialsText[0] == 'B';
    assert StaffAugmentationDescription[n] == StaffAugmentationText[0] == 'E';
  }
}

=== FILE: strings.dfy ===
/**
  String helpers with the meaning JavaScript gives the corresponding
  built-ins, restricted to what the application uses. Case mapping covers
  ASCII letters only; whitespace is the set JavaScript's `\s` and `trim()`
  agree on.
 */
module Strings {

  /* ---------------------------------------------------------------------
     Characters
     --------------------------------------------------------------------- */

  predicate IsUpperAscii(c: char) { 'A' <= c <= 'Z' }

  predicate IsLowerAscii(c: char) { 'a' <= c <= 'z' }

  predicate IsDigit(c: char) { '0' <= c <= '9' }

  /** `String.prototype.toLowerCase` on one character (ASCII letters only). */
  function LowerChar(c: char): (r: char)
    ensures !IsUpperAscii(r)
    ensures IsUpperAscii(c) ==> IsLowerAscii(r) && r as int - c as int == 32
    ensures !IsUpperAscii(c) ==> r == c
  {
    if IsUpperAscii(c) then (c as int + 32) as char else c
  }

  /** `String.prototype.toUpperCase` on one character (ASCII letters only). */
  function UpperChar(c: char): (r: char)
    ensures !IsLowerAscii(r)
    ensures IsLowerAscii(c) ==> IsUpperAscii(r) && c as int - r as int == 32
    ensures !IsLowerAscii(c) ==> r == c
  {
    if IsLowerAscii(c) then (c as int - 32) as char else c
  }

  /** The characters matched by `\s` and removed by `trim()`: white space
      and line terminators of ECMAScript. */
  predicate IsSpace(c: char)
  {
    || c == '\t' || c == '\n' || c == '\U{B}' || c == '\U{C}' || c == '\r'
    || c == ' ' || c == '\U{A0}' || c == '\U{1680}'
    || ('\U{2000}' <= c <= '\U{200A}')
    || c == '\U{2028}' || c == '\U{2029}' || c == '\U{202F}'
    || c == '\U{205F}' || c == '\U{3000}' || c == '\U{FEFF}'
  }

  function ToLower(s: string): (r: string)
    ensures |r| == |s|
    ensures forall i :: 0 <= i < |s| ==> r[i] == LowerChar(s[i])
  {
    seq(|s|, i requires 0 <= i < |s| => LowerChar(s[i]))
  }

  function ToUpper(s: string): (r: string)
    ensures |r| == |s|
    ensures forall i :: 0 <= i < |s| ==> r[i] == UpperChar(s[i])
  {
    seq(|s|, i requires 0 <= i < |s| => UpperChar(s[i]))
  }

  /** Lower-casing twice is lower-casing once. */
  lemma ToLowerIdempotent(s: string)
    ensures ToLower(ToLower(s)) == ToLower(s)
  {
  }

  /* ---------------------------------------------------------------------
     Prefixes, suffixes, substrings
     --------------------------------------------------------------------- */

  predicate StartsWith(s: string, prefix: string)
  {
    |prefix| <= |s| && s[..|prefix|] == prefix
  }

  predicate EndsWith(s: string, suffix: string)
  {
    |suffix| <= |s| && s[|s| - |suffix|..] == suffix
  }

  /** `s.toLowerCase().endsWith(suffix)` for a lower-case `suffix`, which is
      also what a case-insensitive regex anchored with `$` tests. */
  predicate EndsWithIgnoreCase(s: string, suffix: string)
  {
    EndsWith(ToLower(s), ToLower(suffix))
  }

  /** `s.replace(/suffix$/i, "")`: one trailing `suffix`, in any case, is
      removed; a string without it is kept. */
  function StripSuffixIgnoreCase(s: string, suffix: string): (r: string)
    ensures EndsWithIgnoreCase(s, suffix) ==>
              |r| == |s| - |suffix| && r == s[..|r|] && ToLower(s[|r|..]) == ToLower(suffix)
    ensures !EndsWithIgnoreCase(s, suffix) ==> r == s
  {
    if EndsWithIgnoreCase(s, suffix) then s[..|s| - |suffix|] else s
  }

  /** Stripping a suffix that was just appended gives back the head. */
  lemma StripAppendedSuffix(head: string, suffix: string)
    ensures StripSuffixIgnoreCase(head + suffix, suffix) == head
  {
    var s := head + suffix;
    assert s[|head|..] == suffix;
    assert ToLower(s)[|head|..] == ToLower(suffix);
    assert EndsWithIgnoreCase(s, suffix);
    assert s[..|head|] == head;
  }

  /** `s.includes(sub)`. */
  predicate Contains(s: string, sub: string)
    decreases |s|
  {
    StartsWith(s, sub) || (s != [] && Contains(s[1..], sub))
  }

  lemma ContainsAt(s: string, sub: string, i: nat)
    requires i + |sub| <= |s| && s[i..i + |sub|] == sub
    ensures Contains(s, sub)
    decreases i
  {
    if i > 0 {
      assert s[1..][i - 1..i - 1 + |sub|] == s[i..i + |sub|];
      ContainsAt(s[1..], sub, i - 1);
    }
  }

  /** Appending text never hides an occurrence. */
  lemma ContainsPrefixOf(s: string, t: string, sub: string)
    requires Contains(s, sub)
    ensures Contains(s + t, sub)
    decreases |s|
  {
    if StartsWith(s, sub) {
      assert (s + t)[..|sub|] == s[..|sub|];
    } else {
      assert (s + t)[1..] == s[1..] + t;
      ContainsPrefixOf(s[1..], t, sub);
    }
  }

  /* ---------------------------------------------------------------------
     Trimming
     --------------------------------------------------------------------- */

  function TrimStart(s: string): (r: string)
    ensures |r| <= |s| && r == s[|s| - |r|..]
    ensures r == [] || !IsSpace(r[0])
    ensures forall i :: 0 <= i < |s| - |r| ==> IsSpace(s[i])
    decreases |s|
  {
    if s != [] && IsSpace(s[0]) then TrimStart(s[1..]) else s
  }

  function TrimEnd(s: string): (r: string)
    ensures |r| <= |s| && r == s[..|r|]
    ensures r == [] || !IsSpace(r[|r| - 1])
    ensures forall i :: |r| <= i < |s| ==> IsSpace(s[i])
    decreases |s|
  {
    if s != [] && IsSpace(s[|s| - 1]) then TrimEnd(s[..|s| - 1]) else s
  }

  /** `String.prototype.trim`. */
  function Trim(s: string): (r: string)
    ensures r == [] || (!IsSpace(r[0]) && !IsSpace(r[|r| - 1]))
  {
    TrimEnd(TrimStart(s))
  }

  lemma TrimStartOfTrimmed(s: string)
    requires s == [] || !IsSpace(s[0])
    ensures TrimStart(s) == s
  {
  }

  lemma TrimEndOfTrimmed(s: string)
    requires s == [] || !IsSpace(s[|s| - 1])
    ensures TrimEnd(s) == s
  {
  }

  /** Trimming twice is trimming once. */
  lemma TrimIdempotent(s: string)
    ensures Trim(Trim(s)) == Trim(s)
  {
    var t := Trim(s);
    TrimStartOfTrimmed(t);
    TrimEndOfTrimmed(t);
  }

  /* ---------------------------------------------------------------------
     Split and join
     --------------------------------------------------------------------- */

  /** `s.split(c)` for a one-character separator: always at least one piece;
      an empty string gives one empty piece. */
  function Split(s: string, c: char): (r: seq<string>)
    ensures |r| >= 1
    ensures forall k :: 0 <= k < |r| ==> c !in r[k]
    decreases |s|
  {
    if s == [] then [""]
    else
      var rest := Split(s[1..], c);
      if s[0] == c then [""] + rest
      else [[s[0]] + rest[0]] + rest[1..]
  }

  /** `parts.join(sep)`. */
  function JoinWith(parts: seq<string>, sep: string): (r: string)
    decreases |parts|
  {
    if |parts| == 0 then ""
    else if |parts| == 1 then parts[0]
    else parts[0] + sep + JoinWith(parts[1..], sep)
  }

  /** A string free of the separator is one piece. */
  lemma SplitNoSeparator(s: string, c: char)
    requires c !in s
    ensures Split(s, c) == [s]
    decreases |s|
  {
    if s != [] {
      assert c !in s[1..] && s[0] != c;
      SplitNoSeparator(s[1..], c);
      assert [s[0]] + s[1..] == s;
    }
  }

  /** Splitting distributes over a separator occurrence. */
  lemma {:induction false} SplitConcat(a: string, c: char, b: string)
    ensures Split(a + [c] + b, c) == Split(a, c) + Split(b, c)
    decreases |a|
  {
    if a == [] {
      assert [c] + b == a + [c] + b;
      assert ([c] + b)[1..] == b;
    } else {
      var s := a + [c] + b;
      assert s[0] == a[0];
      assert s[1..] == a[1..] + [c] + b;
      SplitConcat(a[1..], c, b);
    }
  }

  lemma JoinPrependToFirst(x: char, parts: seq<string>, sep: string)
    requires |parts| >= 1
    ensures JoinWith([[x] + parts[0]] + parts[1..], sep) == [x] + JoinWith(parts, sep)
  {
    var ps := [[x] + parts[0]] + parts[1..];
    if |parts| > 1 {
      assert ps[1..] == parts[1..];
    }
  }

  /** Joining the pieces back with the separator restores the string. */
  lemma {:induction false} JoinSplit(s: string, c: char)
    ensures JoinWith(Split(s, c), [c]) == s
    decreases |s|
  {
    if s != [] {
      var rest := Split(s[1..], c);
      JoinSplit(s[1..], c);
      if s[0] == c {
        assert ([""] + rest)[1..] == rest;
      } else {
        JoinPrependToFirst(s[0], rest, [c]);
      }
    }
  }

  /** Splitting a join of separator-free pieces gives the pieces back. */
  lemma {:induction false} SplitJoin(parts: seq<string>, c: char)
    requires |parts| >= 1
    requires forall k :: 0 <= k < |parts| ==> c !in parts[k]
    ensures Split(JoinWith(parts, [c]), c) == parts
    decreases |parts|
  {
    if |parts| == 1 {
      SplitNoSeparator(parts[0], c);
    } else {
      SplitJoin(parts[1..], c);
      SplitConcat(parts[0], c, JoinWith(parts[1..], [c]));
      SplitNoSeparator(parts[0], c);
      assert parts == [parts[0]] + parts[1..];
    }
  }

  /** The number of pieces is one more than the number of separators. */
  lemma {:induction false} SplitCount(s: string, c: char)
    ensures |Split(s, c)| == multiset(s)[c] + 1
    decreases |s|
  {
    if s != [] {
      SplitCount(s[1..], c);
      assert s == [s[0]] + s[1..];
      assert multiset(s) == multiset{s[0]} + multiset(s[1..]);
    }
  }

  /* ---------------------------------------------------------------------
     Searching from the end
     --------------------------------------------------------------------- */

  /** `s.lastIndexOf(c)`: -1 when absent. */
  function LastIndexOf(s: string, c: char): (r: int)
    ensures -1 <= r < |s|
    ensures r == -1 <==> c !in s
    ensures r >= 0 ==> s[r] == c && c !in s[r + 1..]
    decreases |s|
  {
    if s == [] then -1
    else if s[|s| - 1] == c then |s| - 1
    else
      var r := LastIndexOf(s[..|s| - 1], c);
      assert s == s[..|s| - 1] + [s[|s| - 1]];
      r
  }

  /** The last occurrence is the one with no occurrence after it. */
  lemma LastIndexOfUnique(s: string, c: char, i: nat)
    requires i < |s| && s[i] == c && c !in s[i + 1..]
    ensures LastIndexOf(s, c) == i
  {
    assert s[i] in s;
  }

  /** The last piece of a split is the text after the last separator, or the
      whole string when there is none. */
  lemma {:induction false} LastPieceOfSplit(s: string, c: char)
    ensures var parts := Split(s, c);
            parts[|parts| - 1] == s[LastIndexOf(s, c) + 1..]
    decreases |s|
  {
    if c !in s {
      SplitNoSeparator(s, c);
    } else {
      var i := LastIndexOf(s, c);
      assert s == s[..i] + [c] + s[i + 1..];
      SplitConcat(s[..i], c, s[i + 1..]);
      SplitNoSeparator(s[i + 1..], c);
    }
  }

  /* ---------------------------------------------------------------------
     Decimal numbers
     --------------------------------------------------------------------- */

  function DigitChar(d: nat): (r: char)
    requires d < 10
    ensures IsDigit(r) && r as int - '0' as int == d
  {
    (d + '0' as int) as char
  }

  /** The decimal text of a natural number, as template literals print it. */
  function NatToString(n: nat): (r: string)
    ensures |r| >= 1
    ensures forall i :: 0 <= i < |r| ==> IsDigit(r[i])
  {
    if n < 10 then [DigitChar(n)] else NatToString(n / 10) + [DigitChar(n % 10)]
  }

  /** The decimal text of an integer, with a leading "-" when negative. */
  function IntToString(i: int): (r: string)
    ensures |r| >= 1
    ensures i < 0 <==> r[0] == '-'
  {
    if i < 0 then "-" + NatToString(-i) else NatToString(i)
  }

  predicate AllDigits(s: string)
  {
    forall i :: 0 <= i < |s| ==> IsDigit(s[i])
  }

  /** The value of a string of decimal digits. */
  function ParseDigits(s: string): nat
    requires AllDigits(s)
    decreases |s|
  {
    if s == [] then 0
    else ParseDigits(s[..|s| - 1]) * 10 + (s[|s| - 1] as int - '0' as int)
  }

  /** Printing then parsing a natural number gives it back. */
  lemma {:induction false} ParseNatToString(n: nat)
    ensures ParseDigits(NatToString(n)) == n
  {
    if n >= 10 {
      var s := NatToString(n);
      assert s[..|s| - 1] == NatToString(n / 10);
      ParseNatToString(n / 10);
    }
  }

  /** Different numbers print differently. */
  lemma NatToStringInjective(m: nat, n: nat)
    requires NatToString(m) == NatToString(n)
    ensures m == n
  {
    ParseNatToString(m);
    ParseNatToString(n);
  }

  /* ---------------------------------------------------------------------
     Global literal replacement
     --------------------------------------------------------------------- */

  /** `s.replace(/pat/g, rep)` for a literal pattern: scans left to right and
      replaces non-overlapping occurrences; the replacement text is not
      re-scanned. */
  function ReplaceAll(s: string, pat: string, rep: string): (r: string)
    requires |pat| > 0
    ensures |rep| <= |pat| ==> |r| <= |s|
    decreases |s|
  {
    if StartsWith(s, pat) then rep + ReplaceAll(s[|pat|..], pat, rep)
    else if s == [] then []
    else [s[0]] + ReplaceAll(s[1..], pat, rep)
  }

  /** Without an occurrence of the pattern nothing is replaced. */
  lemma {:induction false} ReplaceAllAbsent(s: string, pat: string, rep: string)
    requires |pat| > 0 && !Contains(s, pat)
    ensures ReplaceAll(s, pat, rep) == s
    decreases |s|
  {
    if s != [] {
      ReplaceAllAbsent(s[1..], pat, rep);
    }
  }

  /** A string without a given character contains no pattern that starts
      with it. */
  lemma {:induction false} NotContainsFirstChar(s: string, pat: string)
    requires |pat| > 0 && pat[0] !in s
    ensures !Contains(s, pat)
    decreases |s|
  {
    if s != [] {
      assert pat[0] !in s[1..];
      NotContainsFirstChar(s[1..], pat);
    }
  }

  /** A string missing any one character of a pattern does not contain
      it. */
  lemma {:induction false} NotContainsChar(s: string, pat: string, k: nat)
    requires k < |pat| && pat[k] !in s
    ensures !Contains(s, pat)
    decreases |s|
  {
    if s != [] {
      if |pat| <= |s| {
        assert s[..|pat|][k] == s[k] && s[k] in s;
      }
      assert pat[k] !in s[1..];
      NotContainsChar(s[1..], pat, k);
    }
  }

  /** An occurrence at the front is replaced and the scan resumes after
      it. */
  lemma ReplaceAllAtMatch(pat: string, rest: string, rep: string)
    requires |pat| > 0
    ensures ReplaceAll(pat + rest, pat, rep) == rep + ReplaceAll(rest, pat, rep)
  {
    assert (pat + rest)[..|pat|] == pat;
    assert (pat + rest)[|pat|..] == rest;
  }

  /** A character that does not start an occurrence is kept. */
  lemma ReplaceAllSkip(c: char, rest: string, pat: string, rep: string)
    requires |pat| > 0 && !StartsWith([c] + rest, pat)
    ensures ReplaceAll([c] + rest, pat, rep) == [c] + ReplaceAll(rest, pat, rep)
  {
    assert ([c] + rest)[1..] == rest;
  }

  /** Replace every character of `from` by `to` (`s.replace(/[...]/g, to)`). */
  function ReplaceChars(s: string, from: set<char>, to: char): (r: string)
    ensures |r| == |s|
    ensures forall i :: 0 <= i < |s| ==> r[i] == (if s[i] in from then to else s[i])
  {
    seq(|s|, i requires 0 <= i < |s| => if s[i] in from then to else s[i])
  }
}

=== FILE: upload.dfy ===
/**
  The upload route (`app/api/upload/route.ts`): validation of the received
  file, the collision-free file name, and the returned `FileData`. The
  filesystem is the set of existing paths; writing a file adds its path.
 */
module Upload {
  import opened Common
  import opened Strings
  import opened Paths
  import opened Files
  import opened DocumentPaths

  /** The multipart `file` field: its name and its size in bytes. */
  datatype UploadedFile = UploadedFile(name: string, size: nat)

  /** The body of the request: unreadable as a form, or a form with or
      without a `file` field. */
  datatype UploadRequest = Unreadable | Form(file: Option<UploadedFile>)

  /** What `Number.parseInt` produced from the size setting. */
  datatype SizeLimit = Megabytes(mb: int) | NotANumber

  /** The upload settings: the raw allowed-extensions variable, and the
      parsed size limit when the size variable is set and non-empty. */
  datatype UploadConfig = UploadConfig(
    allowedExtensions: Option<string>,
    maxFileSizeMB: Option<SizeLimit>
  )

  datatype UploadEnv = UploadEnv(
    cwd: string,
    paths: PathEnv,
    config: UploadConfig,
    today: string
  )

  const DefaultMaxFileSizeMB := 50

  /** `NEXT_PUBLIC_ALLOWED_FILE_EXTENSIONS?.split(",").map(trim, lower) || ["pptx"]`. */
  function AllowedExtensions(v: Option<string>): (r: seq<string>)
    ensures v.None? ==> r == ["pptx"]
    ensures v.Some? ==> |r| == |Split(v.value, ',')|
    ensures v.Some? ==> forall k :: 0 <= k < |r| ==> r[k] == ToLower(Trim(Split(v.value, ',')[k]))
  {
    match v
    case None => ["pptx"]
    case Some(s) =>
      var parts := Split(s, ',');
      seq(|parts|, k requires 0 <= k < |parts| => ToLower(Trim(parts[k])))
  }

  /** `parseInt(NEXT_PUBLIC_MAX_FILE_SIZE_MB || "50")`. */
  function MaxFileSizeMB(v: Option<SizeLimit>): SizeLimit
  {
    match v
    case None => Megabytes(DefaultMaxFileSizeMB)
    case Some(l) => l
  }

  /** `file.size > maxFileSizeMB * 1024 * 1024`; a comparison with NaN is
      false, so a limit that does not parse rejects nothing. */
  predicate ExceedsLimit(size: nat, limit: SizeLimit)
  {
    match limit
    case Megabytes(mb) => size > mb * 1024 * 1024
    case NotANumber => false
  }

  /** `file.name.split(".").pop()?.toLowerCase()`. */
  function FileExtension(name: string): (r: string)
    ensures '.' !in r
  {
    var parts := Split(name, '.');
    ToLower(parts[|parts| - 1])
  }

  /** `getFileType`, on any spelling of an extension. */
  function FileType(extension: string): string
  {
    match ToLower(extension)
    case "pptx" => "presentation"
    case "ppt" => "presentation"
    case "pdf" => "pdf"
    case "docx" => "document"
    case "doc" => "document"
    case "xlsx" => "spreadsheet"
    case "xls" => "spreadsheet"
    case _ => "file"
  }

  /** The text before the last ".", and the rest from that "." on, as
      `substring(0, lastIndexOf("."))` and `substring(lastIndexOf("."))`
      compute them. Without a "." the index is -1, which `substring` clamps
      to 0: the base is empty and the whole name is the extension. */
  function SplitName(name: string): (r: (string, string))
    ensures r.0 + r.1 == name
    ensures '.' in name ==> |r.1| >= 1 && r.1[0] == '.' && '.' !in r.1[1..]
    ensures '.' !in name ==> r.0 == ""
  {
    var i := LastIndexOf(name, '.');
    if i < 0 then ("", name) else (name[..i], name[i..])
  }

  /** The `k`-th alternative name `${nameWithoutExt}_${k}${extension}`. */
  function Candidate(name: string, k: nat): string
  {
    var (base, ext) := SplitName(name);
    base + "_" + NatToString(k) + ext
  }

  /** The name tried after `k` collisions: the original name first, then
      the alternatives `_1`, `_2`, ... */
  function NameAt(name: string, k: nat): string
  {
    if k == 0 then name else Candidate(name, k)
  }

  /** The path probed after `k` collisions. */
  function Probe(name: string, dir: string, k: nat): string
  {
    Join(dir, NameAt(name, k))
  }

  /* ---------------------------------------------------------------------
     Distinct probes
     --------------------------------------------------------------------- */

  lemma CandidateLonger(name: string, k: nat)
    ensures |Candidate(name, k)| > |name|
  {
  }

  lemma CandidateInjective(name: string, j: nat, k: nat)
    requires Candidate(name, j) == Candidate(name, k)
    ensures j == k
  {
    var (base, ext) := SplitName(name);
    var cj := Candidate(name, j);
    var dj := NatToString(j);
    var dk := NatToString(k);
    assert |dj| == |dk|;
    assert dj == cj[|base| + 1..|base| + 1 + |dj|];
    assert dk == Candidate(name, k)[|base| + 1..|base| + 1 + |dk|];
    NatToStringInjective(j, k);
  }

  /** Every probe differs from every other one. */
  lemma ProbeInjective(name: string, dir: string, j: nat, k: nat)
    requires Probe(name, dir, j) == Probe(name, dir, k)
    ensures j == k
  {
    if j == 0 && k > 0 {
      JoinInjective(dir, name, Candidate(name, k));
      CandidateLonger(name, k);
    } else if j > 0 && k == 0 {
      JoinInjective(dir, Candidate(name, j), name);
      CandidateLonger(name, j);
    } else if j > 0 && k > 0 {
      JoinInjective(dir, Candidate(name, j), Candidate(name, k));
      CandidateInjective(name, j, k);
    }
  }

  /** The probes of one name in one directory never repeat a path. */
  lemma ProbesInjective(name: string, dir: string)
    ensures Injective((k: nat) => Probe(name, dir, k))
  {
    var probe := (k: nat) => Probe(name, dir, k);
    forall j: nat, k: nat | probe(j) == probe(k)
      ensures j == k
    {
      ProbeInjective(name, dir, j, k);
    }
  }

  /* ---------------------------------------------------------------------
     The search
     --------------------------------------------------------------------- */

  /** Whether a probe sequence never repeats a path. */
  ghost predicate Injective(probe: nat -> string)
  {
    forall j: nat, k: nat :: probe(j) == probe(k) ==> j == k
  }

  /** The paths probed before the `k`-th probe. */
  ghost function ProbedBy(probe: nat -> string, k: nat): set<string>
  {
    if k == 0 then {} else ProbedBy(probe, k - 1) + {probe(k - 1)}
  }

  lemma {:induction false} ProbedByContents(probe: nat -> string, k: nat)
    requires Injective(probe)
    ensures |ProbedBy(probe, k)| == k
    ensures forall j: nat :: j >= k ==> probe(j) !in ProbedBy(probe, k)
  {
    if k > 0 {
      ProbedByContents(probe, k - 1);
    }
  }

  /** One more collision: the probed paths are still all taken, and there
      are no more of them than taken paths. */
  lemma ProbeStep(probe: nat -> string, existing: set<string>, k: nat)
    requires Injective(probe)
    requires ProbedBy(probe, k) <= existing && probe(k) in existing
    ensures ProbedBy(probe, k + 1) <= existing
    ensures k + 1 <= |existing|
  {
    ProbedByContents(probe, k + 1);
    SubsetCardinality(ProbedBy(probe, k + 1), existing);
  }

  lemma SubsetCardinality<T>(a: set<T>, b: set<T>)
    requires a <= b
    ensures |a| <= |b|
  {
    assert b == a + (b - a);
  }

  /** The `existsSync` loop over any probe sequence that never repeats: the
      first probe whose path is free. It ends because only finitely many
      paths are taken. */
  method FirstFree(existing: set<string>, probe: nat -> string) returns (k: nat)
    requires Injective(probe)
    ensures probe(k) !in existing
    ensures forall j: nat :: j < k ==> probe(j) in existing
  {
    k := 0;
    while probe(k) in existing
      invariant forall j: nat :: j < k ==> probe(j) in existing
      invariant ProbedBy(probe, k) <= existing
      decreases |existing| - k
    {
      ProbeStep(probe, existing, k);
      k := k + 1;
    }
  }

  /** `generateUniqueFilename`: the original name when its path is free,
      otherwise the first alternative `base_k.ext` (k = 1, 2, ...) whose path
      is free. */
  method GenerateUniqueFilename(originalName: string, directory: string, existing: set<string>)
    returns (filename: string, fullPath: string)
    ensures fullPath == Join(directory, filename)
    ensures fullPath !in existing
    ensures Join(directory, originalName) !in existing ==> filename == originalName
    ensures Join(directory, originalName) in existing ==>
              exists k :: k >= 1 && filename == Candidate(originalName, k)
                && forall j :: 1 <= j < k ==> Join(directory, Candidate(originalName, j)) in existing
  {
    ProbesInjective(originalName, directory);
    var probe := (k: nat) => Probe(originalName, directory, k);
    var counter := FirstFree(existing, probe);
    filename := NameAt(originalName, counter);
    fullPath := Join(directory, filename);
    SearchOutcome(originalName, directory, existing, probe, counter);
  }

  /** What the search's result says about the names: the chosen path is
      free, and every name tried before it collided. */
  lemma SearchOutcome(name: string, dir: string, existing: set<string>, probe: nat -> string, counter: nat)
    requires forall k: nat :: probe(k) == Probe(name, dir, k)
    requires probe(counter) !in existing
    requires forall j: nat :: j < counter ==> probe(j) in existing
    ensures Join(dir, NameAt(name, counter)) !in existing
    ensures Join(dir, name) !in existing ==> NameAt(name, counter) == name
    ensures Join(dir, name) in existing ==>
              exists k :: k >= 1 && NameAt(name, counter) == Candidate(name, k)
                && forall j :: 1 <= j < k ==> Join(dir, Candidate(name, j)) in existing
  {
    assert Probe(name, dir, counter) !in existing;
    if counter > 0 {
      assert Probe(name, dir, 0) in existing;
      forall j | 1 <= j < counter
        ensures Join(dir, Candidate(name, j)) in existing
      {
        assert Probe(name, dir, j) in existing;
      }
      assert NameAt(name, counter) == Candidate(name, counter);
    }
  }

  /* ---------------------------------------------------------------------
     The route
     --------------------------------------------------------------------- */

  function SizeMessage(limit: SizeLimit): string
  {
    var shown := match limit
      case Megabytes(mb) => IntToString(mb)
      case NotANumber => "NaN";
    "File size exceeds the maximum limit of " + shown + "MB"
  }

  function ExtensionMessage(allowed: seq<string>): string
  {
    var shown := seq(|allowed|, k requires 0 <= k < |allowed| => ToUpper(allowed[k]));
    "Only " + JoinWith(shown, ", ") + " files are allowed"
  }

  /** The record returned for a stored upload. */
  function StoredFile(filename: string, size: nat, today: string, extension: string): (f: FileData)
    ensures f.name == filename && f.path == "/input/" + filename
    ensures f.size == SizeLabel(size) && f.lastModified == today
  {
    FileData(filename, "/input/" + filename, SizeLabel(size), today, FileType(extension))
  }

  /** The validation verdict: the size check first, then the extension. */
  function Validate(file: UploadedFile, config: UploadConfig): (r: Option<string>)
    ensures ExceedsLimit(file.size, MaxFileSizeMB(config.maxFileSizeMB)) ==>
              r == Some(SizeMessage(MaxFileSizeMB(config.maxFileSizeMB)))
    ensures r.None? <==>
              && !ExceedsLimit(file.size, MaxFileSizeMB(config.maxFileSizeMB))
              && FileExtension(file.name) != ""
              && FileExtension(file.name) in AllowedExtensions(config.allowedExtensions)
  {
    var limit := MaxFileSizeMB(config.maxFileSizeMB);
    var allowed := AllowedExtensions(config.allowedExtensions);
    var ext := FileExtension(file.name);
    if ExceedsLimit(file.size, limit) then Some(SizeMessage(limit))
    else if ext == "" || ext !in allowed then Some(ExtensionMessage(allowed))
    else None
  }

  /** `POST /api/upload`. Returns the reply and the filesystem afterwards. */
  method Post(request: UploadRequest, env: UploadEnv, existing: set<string>)
    returns (r: Response<FileData>, after: set<string>)
    ensures request.Unreadable? ==> r == Fail(500, "Error uploading file") && after == existing
    ensures request == Form(None) ==> r == Fail(400, "No file received") && after == existing
    ensures request.Form? && request.file.Some? ==>
              var file := request.file.value;
              var layout := GetDocumentPaths(env.cwd, env.paths);
              var ensured := WithDirectories(existing, Directories(layout));
              && (Validate(file, env.config).Some? ==>
                    r == Fail(400, Validate(file, env.config).value) && after == ensured)
              && (Validate(file, env.config).None? ==>
                    && r.Ok?
                    && Join(layout.input, r.payload.name) !in ensured
                    && after == ensured + {Join(layout.input, r.payload.name)}
                    && r.payload == StoredFile(r.payload.name, file.size, env.today, FileExtension(file.name))
                    && (Join(layout.input, file.name) !in ensured ==> r.payload.name == file.name))
  {
    if request.Unreadable? {
      return Fail(500, "Error uploading file"), existing;
    }
    if request.file.None? {
      return Fail(400, "No file received"), existing;
    }
    var file := request.file.value;
    var layout := GetDocumentPaths(env.cwd, env.paths);
    var created;
    after, created := EnsureDirectories(Directories(layout), existing);
    var verdict := Validate(file, env.config);
    if verdict.Some? {
      return Fail(400, verdict.value), after;
    }
    var filename, fullPath := GenerateUniqueFilename(file.name, layout.input, after);
    var stored := StoredFile(filename, file.size, env.today, FileExtension(file.name));
    r := Ok(stored, "File uploaded successfully");
    after := after + {fullPath};
  }

  /* ---------------------------------------------------------------------
     Lemmas
     --------------------------------------------------------------------- */

  /** A file exactly at the limit is accepted; one byte more is rejected. */
  lemma LimitIsInclusive(mb: int)
    requires mb >= 0
    ensures !ExceedsLimit(mb * 1048576, Megabytes(mb))
    ensures ExceedsLimit(mb * 1048576 + 1, Megabytes(mb))
  {
  }

  /** Without configuration, 50 MB and only "pptx" are allowed. */
  lemma DefaultConfig(file: UploadedFile)
    ensures var config := UploadConfig(None, None);
            Validate(file, config).None? <==>
              file.size <= 50 * 1048576 && FileExtension(file.name) == "pptx"
  {
  }

  /** The extension is the lower-cased text after the last ".". */
  lemma FileExtensionIsAfterLastDot(name: string)
    ensures FileExtension(name) == ToLower(name[LastIndexOf(name, '.') + 1..])
  {
    var parts := Split(name, '.');
    var last := parts[|parts| - 1];
    LastPieceOfSplit(name, '.');
    assert FileExtension(name) == ToLower(last);
  }

  /** The extension is already lower case. */
  lemma FileExtensionIsLower(name: string)
    ensures ToLower(FileExtension(name)) == FileExtension(name)
  {
    var parts := Split(name, '.');
    ToLowerIdempotent(parts[|parts| - 1]);
  }

  /** A name without a "." is its own extension, lower-cased. */
  lemma FileExtensionOfDotless(name: string)
    requires '.' !in name
    ensures FileExtension(name) == ToLower(name)
  {
    FileExtensionIsAfterLastDot(name);
    assert LastIndexOf(name, '.') + 1 == 0;
    assert name[0..] == name;
  }

  /** When the name has a ".", the validated extension is the one
      `generateUniqueFilename` keeps, without its dot and lower-cased. */
  lemma FileExtensionMatchesSplitName(name: string)
    requires '.' in name
    ensures FileExtension(name) == ToLower(SplitName(name).1[1..])
  {
    FileExtensionIsAfterLastDot(name);
    var i := LastIndexOf(name, '.');
    assert SplitName(name).1[1..] == name[i + 1..];
  }

  /** An oversized file is refused for its size even when its extension
      is also refused: the size check comes first. */
  lemma SizeCheckedFirst(file: UploadedFile, config: UploadConfig)
    requires ExceedsLimit(file.size, MaxFileSizeMB(config.maxFileSizeMB))
    requires FileExtension(file.name) !in AllowedExtensions(config.allowedExtensions)
    ensures Validate(file, config) == Some(SizeMessage(MaxFileSizeMB(config.maxFileSizeMB)))
  {
  }

  /** `getFileType` ignores case and classifies the known extensions. */
  lemma FileTypeClassification(extension: string)
    ensures FileType(extension) == FileType(ToLower(extension))
    ensures FileType(extension) == "presentation" <==> ToLower(extension) in {"pptx", "ppt"}
    ensures FileType(extension) == "pdf" <==> ToLower(extension) == "pdf"
    ensures FileType(extension) == "document" <==> ToLower(extension) in {"docx", "doc"}
    ensures FileType(extension) == "spreadsheet" <==> ToLower(extension) in {"xlsx", "xls"}
    ensures FileType(extension) == "file" <==>
              ToLower(extension) !in {"pptx", "ppt", "pdf", "docx", "doc", "xlsx", "xls"}
  {
    ToLowerIdempotent(extension);
  }

  /** A dot-less name that collides gets "_1" in front: the base is empty. */
  lemma DotlessCandidate(name: string)
    requires '.' !in name
    ensures Candidate(name, 1) == "_1" + name
  {
  }

  /** A name with an extension gets the counter before its last ".". */
  lemma CandidateOfDottedName(base: string, ext: string, k: nat)
    requires '.' !in ext
    ensures Candidate(base + "." + ext, k) == base + "_" + NatToString(k) + "." + ext
  {
    SplitDottedName(base, ext);
  }

  /** A name split at its last ".". */
  lemma SplitDottedName(base: string, ext: string)
    requires '.' !in ext
    ensures SplitName(base + "." + ext) == (base, "." + ext)
  {
    var name := base + "." + ext;
    assert name[|base|] == '.';
    assert name[|base| + 1..] == ext;
    LastIndexOfUnique(name, '.', |base|);
    assert name[..|base|] == base;
    assert name[|base|..] == "." + ext;
  }
}

=== FILE: wizard.dfy ===
/**
  The three-step wizard (`components/wizard.tsx`): the state the steps
  share, and the step counter that Next and Back move.
 */
module Wizard {
  import opened Common
  import opened Files

  /** What the steps collect. `null` and the two absent optional fields are
      `None`. */
  datatype WizardData = WizardData(
    selectedContractType: Option<string>,
    selectedFiles: seq<FileData>,
    uploadedFiles: seq<FileData>,
    generatedSowText: string,
    generatedSowFile: Option<string>,
    generatedPdfPath: Option<string>
  )

  /** The state the wizard starts from: no contract type, no files, no
      text. */
  const InitialData := WizardData(None, [], [], "", None, None)

  /** The step the wizard starts on. */
  const FirstStep := 1

  datatype StepInfo = StepInfo(id: int, title: string, description: string)

  /** The table of steps, in order. */
  const Steps: seq<StepInfo> := [
    StepInfo(1, "Contract Type", "Select the type of contract"),
    StepInfo(2, "Proposals", "Select proposal documents"),
    StepInfo(3, "Generated SOW", "Review generated SOW")
  ]

  /** A step number the wizard can show. */
  predicate ValidStep(step: int)
  {
    1 <= step <= |Steps|
  }

  /** `handleNext`: move forward unless on the last step. */
  function HandleNext(step: int): (r: int)
    ensures ValidStep(step) ==> ValidStep(r)
    ensures r == step || r == step + 1
    ensures r == step + 1 <==> step < |Steps|
  {
    if step < |Steps| then step + 1 else step
  }

  /** `handleBack`: move backward unless on the first step. */
  function HandleBack(step: int): (r: int)
    ensures ValidStep(step) ==> ValidStep(r)
    ensures r == step || r == step - 1
    ensures r == step - 1 <==> step > 1
  {
    if step > 1 then step - 1 else step
  }

  datatype Event = Next | Back

  /** The step after the buttons have been pressed in the given order. */
  function Run(step: int, events: seq<Event>): int
    decreases |events|
  {
    if events == [] then step
    else
      var s := if events[0].Next? then HandleNext(step) else HandleBack(step);
      Run(s, events[1..])
  }

  /** The step's title, `steps[currentStep - 1].title`. */
  function StepTitle(step: int): (r: string)
    requires ValidStep(step)
    ensures r == Steps[step - 1].title && Steps[step - 1].id == step
  {
    Steps[step - 1].title
  }

  /** The component the wizard renders for a step. */
  datatype Page = ContractSelectionPage | ProposalsSelectionPage | SowReportPage

  function PageOf(step: int): (r: Option<Page>)
    ensures r.Some? <==> ValidStep(step)
  {
    if step == 1 then Some(ContractSelectionPage)
    else if step == 2 then Some(ProposalsSelectionPage)
    else if step == 3 then Some(SowReportPage)
    else None
  }

  /* ---------------------------------------------------------------------
     Lemmas
     --------------------------------------------------------------------- */

  /** Whatever the buttons do, the step stays in range, so the title lookup
      is always in bounds and exactly one page is shown. */
  lemma {:induction false} RunStaysValid(step: int, events: seq<Event>)
    requires ValidStep(step)
    ensures ValidStep(Run(step, events))
    ensures PageOf(Run(step, events)).Some?
    decreases |events|
  {
    if events != [] {
      var s := if events[0].Next? then HandleNext(step) else HandleBack(step);
      RunStaysValid(s, events[1..]);
    }
  }

  /** From the initial step, every sequence of presses leaves a title to
      show. */
  lemma TitleAlwaysDefined(events: seq<Event>)
    ensures ValidStep(Run(FirstStep, events))
    ensures StepTitle(Run(FirstStep, events)) in {"Contract Type", "Proposals", "Generated SOW"}
  {
    RunStaysValid(FirstStep, events);
  }

  /** Running two sequences one after the other is running their
      concatenation. */
  lemma {:induction false} RunConcat(step: int, a: seq<Event>, b: seq<Event>)
    ensures Run(step, a + b) == Run(Run(step, a), b)
    decreases |a|
  {
    if a == [] {
      assert a + b == b;
    } else {
      assert (a + b)[0] == a[0] && (a + b)[1..] == a[1..] + b;
      var s := if a[0].Next? then HandleNext(step) else HandleBack(step);
      RunConcat(s, a[1..], b);
    }
  }

  /** Next then Back returns to a step that was not the last. */
  lemma NextThenBack(step: int)
    requires 1 <= step < |Steps|
    ensures Run(step, [Next, Back]) == step
  {
    assert [Next, Back][1..] == [Back];
  }

  /** Back then Next returns to a step that was not the first. */
  lemma BackThenNext(step: int)
    requires 1 < step <= |Steps|
    ensures Run(step, [Back, Next]) == step
  {
    assert [Back, Next][1..] == [Next];
  }

  /** Next on the last step and Back on the first are ignored. */
  lemma EndsAreSticky()
    ensures HandleNext(|Steps|) == |Steps|
    ensures HandleBack(FirstStep) == FirstStep
  {
  }

  /** Pressing Next often enough from any step reaches the last step and
      stays there. */
  lemma {:induction false} NextReachesLast(step: int, n: nat)
    requires ValidStep(step) && n >= |Steps| - step
    ensures Run(step, seq(n, _ => Next)) == |Steps|
    decreases n
  {
    if n > 0 {
      var events := seq(n, _ => Next);
      assert events[0] == Next && events[1..] == seq(n - 1, _ => Next);
      NextReachesLast(HandleNext(step), n - 1);
    }
  }

  /** The wizard starts empty. */
  lemma InitialState()
    ensures InitialData.selectedContractType.None?
    ensures InitialData.selectedFiles == [] && InitialData.uploadedFiles == []
    ensures InitialData.generatedSowText == ""
    ensures PageOf(FirstStep) == Some(ContractSelectionPage)
  {
  }
}
